=== FILE: README.md ===
# MyDictionary core, modelled in Dafny

MyDictionary is a browser extension that provides an offline English–Chinese
dictionary, synonyms and an academic phrasebank. This project models the
deterministic core of that extension and proves properties of it:

- **The local lookup engine.** The query classifier (single word, phrase or
  sentence) and the tiered lookup: the in-memory tier-1 cache, then the
  IndexedDB store, then suffix-stripping variants. Also the phrase lookup, the
  hit/miss/average-latency counters, the tier-1 cache load and the entry
  formatter.
- **The ECDICT ingestion pipeline.** Record cleaning: form codes, tags, and
  `parseInt` with its `|| 0` fallback. Then the three-tier split with its
  ranking and caps, the tier-priority merge into the full dictionary, and the
  downloader's import, uninstall, status and version check.
- **The academic phrasebank.** In-memory section queries, search, citation
  verbs, transition words and high-frequency phrases. The IndexedDB import,
  which flattens everything into records and adds them all or none. The
  stored-record search.
- **Synonyms.** The query with its case folding and limit, the
  downloaded/saved/cleared state, and the export script's group-by-word with
  its cap of 20 per word.
- **Device performance scoring.** The CPU and memory scores, the weighted
  total, the level and recommendation, and the seven-day reuse of a saved
  detection.
- **Content-script text helpers.** Language detection, dotted-key
  translation lookup, target-word extraction, model id and size, and result
  ordering.
- **The two Python phrasebank scrapers.** Phrase cleaning, academic score,
  frequency label, and the Manchester scraper's grouping by subsection and
  phrase total.

Everything is modelled with immutable datatypes and pure functions:

- The IndexedDB database is a value (`DictStore.Db`) holding three things:
  - the `dictionary` records;
  - the keys whose reads fail;
  - the `metadata` records.
- An operation that changes state returns the new state with its result.
- Latencies, the clock (`Date.now`), benchmark durations, fetched or scraped
  data and the stored-record order are parameters.
- JavaScript objects whose key order matters are ordered maps
  (`OrderedMap.OMap`, a sequence of key/value pairs). They keep insertion
  order, and a write to an existing key happens in place, as `Map` and plain
  objects do for string keys.

Library modules:

| module | contents |
|---|---|
| `Wrappers` | `Option` and `Result` |
| `Seqs` | slicing as `Array.prototype.slice(0, n)` does it, flattening, filtering, first-occurrence dedup |
| `Sorting` | a stable insertion sort on lexicographic `seq<real>` keys, proved sorted, a permutation and stable. It stands in for JavaScript's stable `Array.prototype.sort` with a numeric comparator. |
| `OrderedMap`, `Maps`, `Grouping` | ordered maps, batch puts and group-by |
| `Text`, `JsText`, `PyText` | ASCII case mapping, trimming, `split(/\s+/)`, `split(' ')`, Python `str.split()`, `re.sub(r'\s+', ' ', s)`, UTF-16 length and code-unit string comparison |
| `JsNumber` | `parseInt` without a radix, proved to read back any decimal numeral |

Where the code and its surrounding description differ, the model follows the
code:

- **The tier-1 cap is 8000.** A comment in the script says 5000.
- **Tier-1 candidates.** Besides Collins ≥ 4, CET4, Oxford and BNC rank
  below 2000, the code also admits Collins 3, `gk` and `cet6` words.
- **No consonant undoubling in variants.** Generation turns "running" into
  "runn" and "bigger" into "bigg"; the comments next to the rules claim
  "run" and "big".
- **A miss is not averaged.** It leaves the average latency alone, but it
  still counts in the divisor of the next hit's update.
- **A variant hit is not relabelled.** It returns the variant's own entry,
  tagged `variant`; no separate matched word is recorded.
- **Versions compare as strings.** The update check compares version strings
  code unit by code unit, so "0.10.0" is not newer than "0.2.0", and a
  pre-release tag such as "0.2.0-beta" counts as newer than "0.2.0".

## Model

| member | source | states |
|---|---|---|
| LocalDictionary.GetQueryType | src/lib/local-dictionary-manager.js:277-299 | on the trimmed text: single word exactly when it matches `[a-zA-Z-']+`; phrase exactly when it has no U+4E00–U+9FA5 ideograph and 2 to 5 whitespace-separated words; any ideograph makes it a sentence |
| LocalDictionary.QueryTypeByWords | src/lib/local-dictionary-manager.js:285-298 | for trimmed text without ideographs, the class is decided by the word count: one word is a single word or a sentence, 2–5 words a phrase, more a sentence |
| LocalDictionary.JoinedWordsQuery | src/lib/local-dictionary-manager.js:277-299 | plain words joined by single spaces classify by their number: 1 is a single word, 2–5 a phrase, more a sentence |
| LocalDictionary.UnspacedQuery | src/lib/local-dictionary-manager.js:289-291 | non-empty text with no blank and no ideograph is a single word exactly when every character is a letter, hyphen or apostrophe, and a sentence otherwise |
| LocalDictionaryExamples.QueryTypeExamples | scripts/test-local-dict.js:96-105 | the eight literal classifier cases of the test script hold |
| LocalDictionary.Variants | src/lib/local-dictionary-manager.js:184-195 | there are at most seven variant candidates |
| LocalDictionary.VariantsMembers | src/lib/local-dictionary-manager.js:184-195 | a string is a variant exactly when some suffix rule (ing, ed, s, es, ies→y, er, est, each only at the end) produces it, it differs from the word and it is longer than two characters |
| LocalDictionary.VariantsOrdered | src/lib/local-dictionary-manager.js:184-195 | variants are distinct and keep the rules' order, first occurrence kept |
| LocalDictionaryExamples.VariantExamples | scripts/test-local-dict.js:174-189 | the test words give running→[runn], studied→[studi], books→[book], watches→[watche, watch], bigger→[bigg]: no consonant undoubling, so "run" and "big" are never tried |
| LocalDictionary.Probe | src/lib/local-dictionary-manager.js:198-218 | one candidate probe finds nothing exactly when the candidate is neither in the loaded cache nor readable from the store; a failing read counts as nothing found |
| LocalDictionary.FirstFound | src/lib/local-dictionary-manager.js:198-221 | the variant search returns null exactly when every probe misses, and otherwise the result of the first candidate whose probe hits |
| LocalDictionary.ResolveTiers | src/lib/local-dictionary-manager.js:121-175 | tier 1 answers exactly when the cache is loaded and has the key; the store answers exactly when the cache did not and the read succeeds with a record; a failed read gives the error outcome; variants are tried only after both tiers missed; a miss means every variant probe missed |
| LocalDictionary.Lookup | src/lib/local-dictionary-manager.js:121-176 | lookup resolves the normalised word; a hit returns the entry with its source and latency and adds exactly one hit; a miss adds exactly one miss; the average changes only on a hit; a store error returns null and changes no counter; cache and store are untouched |
| LocalDictionary.LookupNormalizes | src/lib/local-dictionary-manager.js:123 | a lookup depends on the word only through its lowercased, trimmed form |
| LocalDictionary.NormalizeIdempotent | src/lib/local-dictionary-manager.js:123 | normalising a normalised word changes nothing |
| LocalDictionary.RecordHit | src/lib/local-dictionary-manager.js:266-270 | a hit adds one to the hits and sets the average so that average × (hits + misses) equals the old average × (count − 1) plus the new time |
| LocalDictionary.RecordMiss | src/lib/local-dictionary-manager.js:167-168 | a miss adds one to the misses and leaves hits and the average unchanged |
| LocalDictionary.AverageIsMean | src/lib/local-dictionary-manager.js:266-270 | starting from zero counters, after any run of hits and no misses the average latency is the arithmetic mean of the hit times |
| LocalDictionary.MissDilutesAverage | src/lib/local-dictionary-manager.js:266-270 | a miss followed by a hit taking t leaves an average of t/2, because the miss counts in the divisor |
| LocalDictionary.LookupEach | src/lib/local-dictionary-manager.js:236-241 | one lookup per word, in order, yields at most one result per word and leaves cache and store unchanged |
| LocalDictionary.LookupEachHits | src/lib/local-dictionary-manager.js:236-241 | the phrase results are exactly the hits of the individual words, in order, independent of the counters |
| LocalDictionary.LookupPhrase | src/lib/local-dictionary-manager.js:229-244 | more than five words give null and leave the engine, statistics included, unchanged; a non-null result is non-empty and no longer than the word count |
| LocalDictionary.LookupPhraseHits | src/lib/local-dictionary-manager.js:229-244 | with at most five words the result is the list of word hits, or null when there are none |
| LocalDictionary.GetStats | src/lib/local-dictionary-manager.js:249-260 | the report copies the counters, gives a hit rate in [0, 100] equal to 100 × hits / (hits + misses) (0 with no lookups), and reports the cache's size and loaded flag |
| LocalDictionary.LoadTier1 | src/lib/local-dictionary-manager.js:67-104 | a second load does nothing; a first load caches every bundled entry under its lowercased word (the last such entry wins), puts every entry into the store under its word, leaves other records alone and writes the tier-1 metadata with the entry count |
| LocalDictionary.LoadTier1Once | src/lib/local-dictionary-manager.js:68-71 | loading twice is the same as loading once |
| LocalDictionary.LoadedWordHitsCache | src/lib/local-dictionary-manager.js:103-134 | after a load, looking up a bundled lowercase, trimmed word hits tier 1 with the last bundled entry for it |
| LocalDictionary.DisplayTags | src/lib/local-dictionary-manager.js:320-327 | the displayed tags are no more than the entry's tags |
| LocalDictionary.DisplayTagsSnoc | src/lib/local-dictionary-manager.js:320-324 | no tags show nothing, and a tag added at the end shows, uppercased, after the already shown tags exactly when it is cet4, cet6, ielts, toefl or gre: the shown tags keep the entry's order |
| LocalDictionary.DisplayTagsMembers | src/lib/local-dictionary-manager.js:320-327 | a tag is displayed exactly when it is the uppercase form of one of cet4, cet6, ielts, toefl, gre that the entry carries |
| LocalDictionary.ExchangeLabel | src/lib/local-dictionary-manager.js:344-353 | an unknown word-form kind (for example `original`) is shown as it is |
| LocalDictionary.ExchangeLabelKnown | src/lib/local-dictionary-manager.js:344-353 | each known kind gets its own label, different from the kind's name |
| LocalDictionary.Stars | src/lib/local-dictionary-manager.js:315-317 | a Collins value n > 0 gives a space and exactly n stars; n ≤ 0 gives nothing |
| LocalDictionary.FormatEntry | src/lib/local-dictionary-manager.js:306-359 | the formatted text is non-empty and starts and ends with a non-blank character |
| LocalDictionary.ExchangeLinesSnoc | src/lib/local-dictionary-manager.js:352-355 | a word form added at the end of the map gets one line, `   label: value`, after the lines of the earlier forms: lines follow the map's order |
| LocalDictionary.HeaderSegments | src/lib/local-dictionary-manager.js:307-327 | the first line is the book sign and word, then ` /phonetic/` when the phonetic is non-empty, then the Collins stars, then the shown tags joined by ", " in brackets closing the line, or nothing when none is shown |
| LocalDictionary.HeaderPhoneticShown | src/lib/local-dictionary-manager.js:307-312 | the phonetic appears exactly when it is non-empty: only then is the space after the word followed by a slash |
| LocalDictionary.FormatStartsWithHeader | src/lib/local-dictionary-manager.js:306-359 | when the first line ends in a non-blank, the output opens with the whole first line |
| LocalDictionary.FormatStartsWithWord | src/lib/local-dictionary-manager.js:306-359 | when the word ends in a non-blank, the formatted text starts with the book sign, a space and the word |
| Ecdict.KindName | scripts/process-ecdict.js:49-58 | an unknown form code is stored under the code itself |
| Ecdict.KindNameCode | scripts/process-ecdict.js:49-58 | a name that is not itself a code is recovered from its code |
| Ecdict.ParsePartsLastWins | scripts/process-ecdict.js:45-60 | a pair with a non-empty code and value sets its form and a later pair for the same form overwrites it; a pair with an empty side changes nothing |
| Ecdict.ParseExchangeClean | scripts/process-ecdict.js:43-61 | a parsed form map has distinct names and only non-empty values |
| Ecdict.ExchangeRoundTrip | scripts/process-ecdict.js:43-61 | a form map written as `code:value` pairs joined by '/' parses back to the same map |
| Ecdict.ParseTags | scripts/process-ecdict.js:64 | every parsed tag is non-empty and has no space |
| Ecdict.TagsRoundTrip | scripts/process-ecdict.js:64 | non-empty space-free tags joined by spaces parse back to the same list |
| Ecdict.CleanEntryShape | scripts/process-ecdict.js:41-79 | the cleaned word is trimmed (empty exactly when the raw word is all blank), tags and forms are clean, oxford is true exactly for the text 'TRUE', and an unreadable or missing Collins field gives 0 |
| Ecdict.CleanEntryRoundTrip | scripts/process-ecdict.js:41-79 | cleaning the raw row that renders a representable entry gives the entry back |
| Ecdict.IntRoundTrip | scripts/process-ecdict.js:72-76 | `parseInt` of the decimal text of any integer i, with the fallback to 0, gives i back |
| JsNumber.ParseIntText | scripts/process-ecdict.js:72-76 | `parseInt` reads back a decimal numeral, signed or not, whatever non-digit text follows it |
| JsNumber.NoDigitIsZero | scripts/process-ecdict.js:72-76 | a field `parseInt` cannot read becomes 0 |
| Tiers.Tier1CandidateSignals | scripts/process-ecdict.js:87-113 | a tier-1 candidate has a translation and one of: Collins ≥ 3, an Oxford mark, 0 < BNC < 2000, or a cet4, gk or cet6 tag |
| Tiers.RankOrLast | scripts/process-ecdict.js:123-124 | an unranked entry (BNC 0) sorts after every entry ranked below 2000 |
| Tiers.Split | scripts/process-ecdict.js:117-174 | tier 1 holds at most 8000 entries, tier 2 at most 50000 |
| Tiers.Tier1Ranked | scripts/process-ecdict.js:117-137 | tier 1 is sorted by (Collins descending, BNC ascending with 0 read as 99999, CET4 first, Oxford first), holds min(candidates, 8000) candidates, and no candidate left out ranks above one kept |
| Tiers.Tier2Ranked | scripts/process-ecdict.js:142-164 | tier 2 holds min(candidates, 50000) non-tier-1 translated entries with an exam tag, Collins ≥ 3 or BNC below 10000, sorted by Collins descending then raw BNC ascending (0 first), and no candidate left out ranks above one kept |
| Tiers.Tier3Members | scripts/process-ecdict.js:169-174 | tier 3 is exactly the translated entries whose word is in neither tier 1 nor tier 2 |
| Tiers.SplitPartitions | scripts/process-ecdict.js:142-174 | no word is in two tiers, and every translated entry's word is in some tier |
| FullDictionary.LastWith | scripts/build-full-dictionary.js:45-47 | finds an entry of the list with the lowercased word when there is one, none otherwise |
| FullDictionary.FirstWith | scripts/build-full-dictionary.js:50-63 | finds an entry of the list with the lowercased word when there is one, none otherwise |
| FullDictionary.SetAllGet | scripts/build-full-dictionary.js:45-47 | after the tier-1 loop a key holds the last tier-1 entry with that lowercased word, tagged 1 |
| FullDictionary.AddMissingGet | scripts/build-full-dictionary.js:50-63 | a tier-2 or tier-3 loop never replaces a present key and adds the first entry with a new key, tagged with its tier |
| FullDictionary.MergeGet | scripts/build-full-dictionary.js:42-63 | the merged value under a key is the last tier-1 entry, else the first tier-2 entry, else the first tier-3 entry with that lowercased word |
| FullDictionary.MergeTagged | scripts/build-full-dictionary.js:45-63 | every merged value sits under its own lowercased word and carries the tier (1, 2 or 3) of the list it came from |
| FullDictionary.MergeKeys | scripts/build-full-dictionary.js:42-63 | the merged keys are the distinct lowercased words of the three tiers, in first-seen order |
| FullDictionary.BuildCount | scripts/build-full-dictionary.js:65-78 | the output has one entry per distinct lowercased word, is a reordering of the merged values, and is sorted by Collins descending then BNC ascending with 0 read as 99999 |
| Downloader.ImportedIsPutAll | src/lib/dictionary-downloader.js:242-244 | the import loop is a batch put of every entry under its word, tagged with the tier |
| Downloader.ImportedFacts | src/lib/dictionary-downloader.js:242-244 | after import the store keys are the old keys plus the data words; each word holds its last data entry tagged with the tier; other records are unchanged |
| Downloader.ImportReportsShape | src/lib/dictionary-downloader.js:246-261 | progress is reported once per 1000 entries, the k-th report at 1000(k+1) entries with percent ⌊imported·100/total⌋ in [0, 100] |
| Downloader.PercentBound | src/lib/dictionary-downloader.js:248 | the progress percent of a partial import lies in [0, 100] |
| Downloader.ImportToStore | src/lib/dictionary-downloader.js:232-283 | the import method's loop leaves the store equal to the batch put and emits the periodic reports followed by a final report with percent 100 |
| Downloader.Download | src/lib/dictionary-downloader.js:103-198 | any tier other than 'full' is rejected before anything changes; a successful install imports the data, records installed metadata with the count, returns the entry count and emits ⌊n/1000⌋ + 1 reports |
| Downloader.Uninstall | src/lib/dictionary-downloader.js:305-347 | uninstalling leaves the failing-read keys alone |
| Downloader.UninstallExactly | src/lib/dictionary-downloader.js:315-338 | exactly the records tagged with the tier are removed (untagged ones stay), every other record is unchanged, and only that tier's metadata is deleted |
| Downloader.InstallThenUninstall | src/lib/dictionary-downloader.js:305-347 | installing then uninstalling a tier removes the tier's records, including entries it overwrote, and leaves the tier not installed |
| Downloader.IsInstalledTruthy | src/lib/dictionary-downloader.js:66-80 | a tier is installed exactly when its metadata says installed; no metadata means not installed |
| Downloader.InstallIsInstalled | src/lib/dictionary-downloader.js:352-371 | after installing the full tier it reads as installed and the status reports the installed count |
| Downloader.GetStatus | src/lib/dictionary-downloader.js:352-371 | tier 1 is always installed and built in with 7406 entries; without metadata the full tier is not installed, has the advertised 768739 entries and no version |
| JsText.UnitsLessIff | src/lib/dictionary-downloader.js:377-397 | the code-unit comparison behind string `<` holds exactly when the left side is a proper prefix of the right or is smaller at the first position where they differ |
| Downloader.HasUpdateIff | src/lib/dictionary-downloader.js:377-397 | an update is reported exactly when the current version is a proper prefix of the remote one or has the smaller code unit at their first difference |
| Downloader.ExtendedIsUpdate | src/lib/dictionary-downloader.js:377-397 | any non-empty suffix on the current version, such as "0.2.0-beta", is reported as an update |
| Downloader.HasUpdateExamples | src/lib/dictionary-downloader.js:377-397 | the version comparison is strict and textual: "0.2.0" is not newer than itself, "0.3.0" is newer, "0.10.0" is not |
| Phrasebank.AnnotateAll | src/lib/academic-phrasebank.js:195-199 | each phrase keeps its fields and is annotated with the section and subsection it was found under |
| Phrasebank.AllPhrasesMembers | src/lib/academic-phrasebank.js:180-203 | a flattened record is exactly a phrase of some array-valued subsection, annotated with that section's and subsection's keys |
| Phrasebank.AllPhrasesCount | src/lib/academic-phrasebank.js:180-203 | flattening yields one record per listed phrase |
| Phrasebank.PhrasesBySection | src/lib/academic-phrasebank.js:127-152 | the query fails exactly when the phrasebank is not initialised |
| Phrasebank.PhrasesBySectionMembers | src/lib/academic-phrasebank.js:143-151 | without a subsection the result holds exactly the phrases of the section's array-valued subsections, all of them, none annotated |
| Phrasebank.ScanSpec | src/lib/academic-phrasebank.js:188-200 | the search loop keeps, in order, every phrase meeting the score floor whose lowercased phrase or usage contains the query, and throws when a candidate's phrase misses and it has no usage |
| Phrasebank.SearchPhrases | src/lib/academic-phrasebank.js:160-163 | an uninitialised phrasebank throws |
| Phrasebank.SearchPhrasesSpec | src/lib/academic-phrasebank.js:160-209 | every result meets the score floor and matches the lowercased query, comes annotated from the searched sections, results run from the highest score down, and there are at most maxResults of them |
| Phrasebank.RankedTop | src/lib/academic-phrasebank.js:206-208 | sorting by score descending and slicing to n gives min(n, length) phrases for n ≥ 0 (and length + n, at least 0, for n < 0), drawn from the input with multiplicity, highest score first, and no phrase left out scores above one kept |
| Phrasebank.SearchPhrasesTop | src/lib/academic-phrasebank.js:160-209 | the search returns the best matches: min(maxResults, matches) of the matching phrases of the searched sections, and no match left out scores above a result |
| Phrasebank.SearchPhrasesDefault | src/lib/academic-phrasebank.js:165-169 | with no options every section is searched with a minimum score of 0 and at most twenty matches come back |
| Phrasebank.EmptyQueryMatchesAll | src/lib/academic-phrasebank.js:171-193 | the empty query matches exactly the phrases meeting the score floor, and never throws |
| Phrasebank.UnknownSectionFindsNothing | src/lib/academic-phrasebank.js:175-177 | narrowing the search to a section the data lacks finds nothing |
| Phrasebank.CitationVerbs | src/lib/academic-phrasebank.js:216-236 | fails exactly when the phrasebank is not initialised or a strength is looked up in a missing citations block; without a strength a missing block gives an empty list |
| Phrasebank.CitationVerbsMembers | src/lib/academic-phrasebank.js:228-236 | without a strength, a verb is returned exactly when it is in a list whose key starts with `reporting_verbs_` |
| Phrasebank.CitationVerbsByStrength | src/lib/academic-phrasebank.js:223-226 | a strength returns the `reporting_verbs_` list for it, or [] when there is none |
| Phrasebank.TransitionWords | src/lib/academic-phrasebank.js:244-262 | fails exactly when the phrasebank is not initialised or a type is looked up in a missing transitions block; without a type a missing block gives an empty list |
| Phrasebank.TransitionWordsAll | src/lib/academic-phrasebank.js:255-261 | without a type the result holds every transition word of every category, one per listed word |
| Phrasebank.HighFrequencyPhrases | src/lib/academic-phrasebank.js:285-286 | the query fails exactly when the phrasebank is not initialised |
| Phrasebank.HighFrequencySpec | src/lib/academic-phrasebank.js:285-297 | every result is a very_high or high frequency phrase of the section, results run from the highest score down, at most count of them |
| Phrasebank.HighFrequencyTop | src/lib/academic-phrasebank.js:285-297 | the results are the best: min(count, candidates) of the section's very_high and high frequency phrases, and none left out scores above a result |
| Phrasebank.HighFrequencyDefault | src/lib/academic-phrasebank.js:285 | with no count at most ten very_high or high phrases come back |
| Phrasebank.GetInfo | src/lib/academic-phrasebank.js:314-327 | no info exactly when not initialised; otherwise the section names are the data's section keys in order |
| AcademicDb.RecordsCount | src/lib/academic-db-manager.js:104-162 | the import builds one record per listed phrase, per citation verb and per transition word |
| AcademicDb.CategoryMembers | src/lib/academic-db-manager.js:127-162 | a citation or transition record is exactly the record built from some item of some category |
| AcademicDb.CitationRecordsShape | src/lib/academic-db-manager.js:127-143 | a citation record is in section `citations` with frequency high and id `citation_<category>_<verb>`, and copies its verb's fields |
| AcademicDb.TransitionRecordsShape | src/lib/academic-db-manager.js:146-162 | a transition record is in section `transitions` with frequency very_high and id `transition_<category>_<word>`, and copies its word's fields |
| AcademicDb.AddAllSpec | src/lib/academic-db-manager.js:164-180 | adding a batch succeeds exactly when its ids are pairwise distinct and not yet stored, and then stores every record |
| AcademicDb.AddedKeys | src/lib/academic-db-manager.js:164-170 | a successful batch adds exactly the records' ids |
| AcademicDb.AddedSize | src/lib/academic-db-manager.js:164-170 | a successful batch grows the store by one per record |
| AcademicDb.AddedKeeps | src/lib/academic-db-manager.js:164-170 | a successful batch leaves existing records unchanged |
| AcademicDb.AddedFiles | src/lib/academic-db-manager.js:164-170 | a successful batch files every record under its id |
| AcademicDb.ImportPhrases | src/lib/academic-db-manager.js:95-182 | a failed import reports the constraint error |
| AcademicDb.ImportPhrasesOutcome | src/lib/academic-db-manager.js:95-182 | the import succeeds exactly when all record ids are fresh; then it resolves with the record count, adds every record under its id and keeps every stored record; otherwise it changes nothing |
| AcademicDb.KeepsAgrees | src/lib/academic-db-manager.js:237-244 | the stored-record filter keeps exactly the records the in-memory search matches; a missing usage is skipped instead of throwing |
| AcademicDb.SearchPhrasesSpec | src/lib/academic-db-manager.js:211-258 | every result meets the score floor, matches the query, comes from the stored records (from the named section when one is given), results run from the highest score down, at most maxResults |
| AcademicDb.SearchPhrasesTop | src/lib/academic-db-manager.js:211-258 | the found records are exactly the matching records (of the named section when one is given), and the search returns min(maxResults, found) of them with none left out scoring above a result |
| AcademicDb.SearchPhrasesDefault | src/lib/academic-db-manager.js:214-218 | with no options at most twenty stored phrases come back, each matching the query with a score of at least 0 |
| AcademicDb.SearchAgreesWithMemory | src/lib/academic-db-manager.js:237-249 | where the in-memory search does not throw, both searches return the same list |
| Synonyms.Initialize | src/lib/synonyms-manager.js:229-264 | initialising succeeds exactly when data is in memory or stored; an already loaded manager is returned unchanged, otherwise the stored object becomes the in-memory data and the manager is marked initialised; a failed initialise changes nothing, and memory stays consistent with storage |
| Synonyms.QuerySynonyms | src/lib/synonyms-manager.js:269-276 | a query throws exactly when no data is in memory or stored |
| Synonyms.QueryResult | src/lib/synonyms-manager.js:278-291 | with data loaded the result holds the first min(limit, n) listed synonyms of the lowercased word, in stored order, each with its word, pos and score and confidence '100%' |
| Synonyms.QueryDefault | src/lib/synonyms-manager.js:269 | with no limit the first eight listed synonyms come back, or all of them when fewer are listed |
| Synonyms.QueryIgnoresCase | src/lib/synonyms-manager.js:278 | the query depends on the word only through its lowercase form |
| Synonyms.QueryUnlisted | src/lib/synonyms-manager.js:281-284 | an absent word, or one with an empty list, gives [] and changes nothing |
| Synonyms.SaveSynonyms | src/lib/synonyms-manager.js:196-224 | saving stores the object, keeps it in memory and marks the manager initialised |
| Synonyms.ClearData | src/lib/synonyms-manager.js:300-326 | clearing deletes the stored object, forgets the in-memory one and unsets the initialised flag |
| Synonyms.SaveThenQuery | src/lib/synonyms-manager.js:269-295 | after saving, queries answer from the saved object, and the data counts as downloaded exactly when it has a key |
| Synonyms.ClearThenQuery | src/lib/synonyms-manager.js:300-326 | after clearing, nothing counts as downloaded and every query throws |
| SynonymExport.ToExported | scripts/export-synonyms.js:67-71 | an exported synonym keeps the word; a missing or empty pos becomes 'unknown'; a missing or zero score becomes 1.0 |
| SynonymExport.WordCountGroups | scripts/export-synonyms.js:59-65 | the word counter equals the number of distinct lowercased words, which is the number of groups |
| SynonymExport.Trim | scripts/export-synonyms.js:79-84 | a list keeps its first min(20, length) entries |
| SynonymExport.ExportKeys | scripts/export-synonyms.js:59-84 | the export has one key per distinct lowercased word, in first-seen order |
| SynonymExport.ExportGet | scripts/export-synonyms.js:59-84 | under each key are the first 20 rows of that word (in any case), in input order |
| SynonymExport.ExportCount | scripts/export-synonyms.js:78-84 | the exported entries plus the trimmed count add up to the number of rows |
| Performance.CpuScore | src/lib/performance-detector.js:210-223 | the CPU score lies in [0, 100] and is 100 exactly for a duration under 100 ms |
| Performance.CpuScoreMonotone | src/lib/performance-detector.js:210-223 | a longer CPU run never scores higher |
| Performance.MemoryScore | src/lib/performance-detector.js:254-265 | the memory score lies in [0, 100] and is 100 exactly for a duration under 50 ms |
| Performance.MemoryScoreMonotone | src/lib/performance-detector.js:254-265 | a longer memory run never scores higher |
| Performance.RunBenchmark | src/lib/performance-detector.js:180-188 | the total lies in [0, 100] between the two scores, and is 100 exactly when both runs are fast |
| Performance.CoresOr | src/lib/performance-detector.js:52 | an unreported or zero core count is taken as 2 |
| Performance.Band | src/lib/performance-detector.js:313-322 | a core or memory band is worth between 5 and 20 points |
| Performance.BandMonotone | src/lib/performance-detector.js:313-322 | more cores or memory never lower a band |
| Performance.EvaluateLevel | src/lib/performance-detector.js:306-340 | the level is high exactly at a level score ≥ 75 and low exactly below 50 |
| Performance.LevelScoreBounds | src/lib/performance-detector.js:310-328 | with a total in [0, 100] the level score lies in [10, 100] |
| Performance.LevelMonotone | src/lib/performance-detector.js:306-340 | more cores, more memory, WebGPU or a better total never lower the level |
| Performance.GetRecommendation | src/lib/performance-detector.js:345-388 | there is a recommendation exactly when a level is known; semantic search and the model prompt are offered exactly when the level is not low |
| Performance.LoadResults | src/lib/performance-detector.js:411-433 | a saved detection is accepted exactly when its version is 1.0.0 and it is less than 604800000 ms old |
| Performance.SaveThenLoad | src/lib/performance-detector.js:393-433 | a detection saved at time s is reused, with its level, exactly while now < s + seven days |
| ContentHelpers.DetectLanguage | content.js:705-713 | the language is 'zh' or 'en' |
| ContentHelpers.DetectLanguageRatio | content.js:705-713 | 'zh' exactly when the U+4E00–U+9FA5 ideographs are more than 30% of the UTF-16 length |
| ContentHelpers.DetectLanguageExtremes | content.js:705-713 | text with no ideograph is 'en'; non-empty text of ideographs only is 'zh' |
| ContentHelpers.Translate | content.js:57-75 | without loaded translations the key is returned; any other answer is a truthy value |
| ContentHelpers.TranslateIsPath | content.js:57-75 | the answer is the value at the dot-separated path under the current language when every step is an own key of an object and the value is truthy, and the key otherwise |
| ContentHelpers.SynonymTargetIsFirstWord | content.js:1145-1152 | the synonym target is the first whitespace-free word of the trimmed text |
| ContentHelpers.FirstGroup | content.js:1942-1947 | a regex match found is the leftmost opening character followed by a non-empty run free of the closing character and then the closing character; none means no position starts one |
| ContentHelpers.ExampleTargetPriority | content.js:1942-1952 | a non-blank "quoted" group wins; a [bracketed] group is used only when there is no quoted group |
| ContentHelpers.ExampleTargetFallback | content.js:1954-1961 | with neither group the target is the text's first whitespace-free word |
| ContentHelpers.ExampleTargetExamples | content.js:1942-1961 | "use \"term\" in [context]" gives term, "use [term] here" gives term, "plain words" gives plain |
| ContentHelpers.ModelId | content.js:2275 | the model id has no space and is lowercase |
| ContentHelpers.ModelIdIs | content.js:2275 | the model id is the lowercased text before the first space |
| ContentHelpers.DownloadSize | content.js:2278-2285 | 'base' gives ~270MB, else 'small' ~130MB, else 'minilm' ~90MB, and ~150MB exactly when none occurs |
| ContentHelpers.ModelDownloadExamples | content.js:2274-2285 | "BGE-Base (Academic Semantic Search)" is bge-base at ~270MB and "MiniLM-L6 (Lightweight Semantic)" is minilm-l6 at ~90MB |
| ContentHelpers.DisplayOrderSpec | content.js:1463-1465 | the shown list is a reordering of the results; semantic results run from the highest similarity down (missing counts as 0), keyword results from the highest academic score down |
| Scoring.Listed | scripts/scrape-phrasebank-v2.py:48-50 | no more words count than the list has |
| Scoring.ListedCounts | scripts/scrape-phrasebank-v2.py:48-50 | the count is the number of distinct list positions whose word occurs, so each listed word counts at most once |
| Scoring.ListedNone | scripts/scrape-phrasebank-v2.py:48-50 | the count is 0 exactly when no listed word occurs |
| Scoring.ListedMonotone | scripts/scrape-phrasebank-v2.py:48-50 | text containing every listed word another text contains counts at least as many |
| Scoring.Clamp | scripts/scrape-phrasebank-v2.py:62 | the clamped score lies in [0, 10] and a score already in range is unchanged |
| Scoring.ClampMonotone | scripts/scrape-phrasebank-v2.py:62 | clamping keeps order |
| ScraperV2.CleanPhraseTidy | scripts/scrape-phrasebank-v2.py:25-31 | without `&nbsp;` the cleaned phrase is the collapsed, stripped text: no blank at either end, no two spaces in a row, and no blank but the plain space |
| ScraperV2.CleanPhraseIdempotent | scripts/scrape-phrasebank-v2.py:25-31 | without `&nbsp;`, cleaning a cleaned phrase changes nothing |
| ScraperV2.AcademicScore | scripts/scrape-phrasebank-v2.py:33-62 | the score always lies in [5, 10] |
| ScraperV2.AcademicScoreBaseline | scripts/scrape-phrasebank-v2.py:33-62 | the score is 5 exactly when there is no passive form (any case), no listed academic word and no connector |
| ScraperV2.AcademicScoreGrows | scripts/scrape-phrasebank-v2.py:33-62 | a phrase with every scoring feature another has scores at least as high |
| ScraperV2.SubstringMatches | scripts/scrape-phrasebank-v2.py:57-59 | matching is by substring: "enthusiasm" earns the connector point for "thus" |
| ScraperV2.FrequencyMonotone | scripts/scrape-phrasebank-v2.py:64-74 | more words never give a higher frequency label |
| ScraperV2.FrequencyOneWord | scripts/scrape-phrasebank-v2.py:64-70 | a single word is one word long and very_high |
| ManchesterScraper.AcademicScore | scripts/scrape-manchester-phrasebank.py:100-131 | the score always lies in [5, 10] |
| ManchesterScraper.AcademicScoreBaseline | scripts/scrape-manchester-phrasebank.py:100-131 | the score is 5 exactly when there is no case-sensitive passive form, no whole clause word and no listed academic word |
| ManchesterScraper.AcademicScoreGrows | scripts/scrape-manchester-phrasebank.py:100-131 | a phrase with every scoring feature another has scores at least as high |
| ManchesterScraper.FrequencyCases | scripts/scrape-manchester-phrasebank.py:142-147 | very_high exactly when shorter than 30 with a whole common word (this, the, a, an, in, on, at); medium exactly at length 60 or more |
| ManchesterScraper.FrequencyMonotone | scripts/scrape-manchester-phrasebank.py:142-147 | between phrases alike in having a common word, a longer one never gets a higher label |
| ManchesterScraper.FrequencyCaseSensitive | scripts/scrape-manchester-phrasebank.py:142 | the word test is case-sensitive: "In conclusion" is only high |
| ManchesterScraper.FrequencyLowercase | scripts/scrape-manchester-phrasebank.py:142-143 | "in conclusion" is very_high |
| ManchesterScraper.AsSection | scripts/scrape-manchester-phrasebank.py:180-187 | each group becomes a subsection holding its phrase list under the same key |
| ManchesterScraper.SubsectionsGroup | scripts/scrape-manchester-phrasebank.py:180-185 | subsections are the distinct subsection names in first-seen order, each holding exactly its phrases in input order |
| ManchesterScraper.SubsectionsCount | scripts/scrape-manchester-phrasebank.py:180-185 | grouping keeps every phrase: the subsections hold as many phrases as the input |
| ManchesterScraper.ScrapeSectionsKeys | scripts/scrape-manchester-phrasebank.py:176-188 | the scraped sections are the distinct section names in order |
| ManchesterScraper.ScrapeSectionsTotal | scripts/scrape-manchester-phrasebank.py:176-188 | for distinct names the phrase total equals the phrases the sections hold |
| ManchesterScraper.ScrapeAllKeys | scripts/scrape-manchester-phrasebank.py:20-26 | the output's sections are introduction, methods, results, discussion and conclusion, in that order |
| ManchesterScraper.ScrapeAllTotal | scripts/scrape-manchester-phrasebank.py:176-188 | totalPhrases equals the number of phrases the sections hold, and the number of records the phrasebank flattens them into |
| ManchesterScraper.ScrapeAllGet | scripts/scrape-manchester-phrasebank.py:176-187 | each section holds the grouping of exactly the phrases scraped for it |

## Left out

- The fetch, stream reading, gzip decompression and JSON parsing of the
  downloader are left out, because they are I/O. `Download` receives the
  parsed entries. The size and MB figures in its progress reports are left
  out with them.
- IndexedDB opening, upgrades and transaction errors are left out, because
  they are I/O. A failing `get` of the lookup path is modelled by the store's
  set of failing keys. Other failures are assumed not to happen:
  - failed transactions of `loadTier1`, `_importToIndexedDB`, `uninstall` and
    `_saveMetadata`;
  - failed reads in `isInstalled` and `getMetadata`.
- chrome.storage, the localStorage cache of the phrasebank, `initialize`,
  `loadFromFile`, `loadFromCache`, `saveToCache` and `clearCache` are left
  out, because they are I/O. A phrasebank manager is either initialised with
  data or not.
- `getRandomPhrases` is left out, because it shuffles with `Math.random`.
- The synonym download (`downloadSynonyms`) and its progress reports are left
  out, because they are network I/O. The stored object is part of the
  synonym state.
- The academic DB's `getPhrasesBySection`, `getStats`, `clear` and
  `initialize` are left out, because they are thin IndexedDB I/O. The records
  `getAll` returns are a parameter of `AcademicDb.SearchPhrases`, in the
  order the store returns them.
- The Manchester scraper's `scrape_section` (HTTP and HTML parsing),
  `save_to_json` and the two-second sleep are left out, because they are I/O.
  The scraped phrases of each section are a function parameter. The v2
  scraper's `scrape_section` is left out for the same reason.
- The benchmark workloads (matrix product, array fill), `detectWebGPU` and the
  memory detection are left out, because they depend on timing and hardware.
  Their results are parameters.
- LocalDictionary.FormatEntry: the translation and definition lines after
  the first line are stated only by the layout itself. Contracts cover the
  first line, the order of the word-form lines and the trimming.
- Performance.GetRecommendation: the suggested model names, messages and
  feature lists are left out. They are display text; only the two flags are
  modelled.
- Text.Lower: lowercasing and uppercasing are modelled for ASCII letters
  only. JavaScript's `toLowerCase` and Python's `str.lower` also map other
  letters.
- PyText.IsWordChar: Python's `\w` is modelled for ASCII letters, digits
  and `_` only; Unicode letters and digits, which `\w` also matches in a
  `str` pattern, are left out. `\s`, `str.strip()` and `str.split()` use
  Python's full whitespace set.
- JsNumber.ParseInt: numbers are unbounded. The precision loss of `parseInt`
  above 2^53 is left out.
- Downloader.ImportReportsShape: `Math.floor((imported / data.length) * 100)`
  is modelled as the exact rational floor. A floating-point rounding
  difference at exact multiples is left out.
- LocalDictionary.GetStats: the hit rate is the exact ratio. The
  `toFixed(2)` string and the `%` suffix are left out, as is the average
  latency's floating-point rounding.
- Scoring.Clamp: `round(score, 1)` is omitted. Every score is 5.0 plus
  multiples of 0.5, which rounding leaves unchanged.
- SynonymExport.ToExported: the score is kept as a number. The `toFixed(2)`
  string formatting is left out.
- Integer-like object keys, which JavaScript enumerates before other keys,
  are left out. Ordered maps keep plain insertion order.
- ContentHelpers.Translate: properties of string values reached by `t()`
  are left out. A step through a translated string, such as `title.length`
  or `title.0`, reads the string's length or one of its code units in the
  code; `ContentHelpers.Prop` gives nothing for any value that is not an
  object, so the model returns the key.
- ContentHelpers.TranslateIsPath: every step of the path is an own key of
  an object. A step through a string's `length` or index, which the code
  takes, is not a step of the modelled path.
- Inherited object properties are left out; only own keys are modelled.
  This affects every plain-object lookup with an outside key:
  - a word such as `constructor` read in `t()` or from the synonym data;
  - the downloader's tier table: `download('constructor')` passes the
    source's missing-tier test and fails only when the fetch of an
    undefined URL fails, while `Downloader.Download` rejects it at once;
  - the ingestion script's form-code table (`typeMap[type] || type`), where
    an inherited name would yield a function instead of the code.
- Phrasebank.PhrasesBySection: a non-array value under a subsection is
  returned as it is when asked for by name. The model returns [] for it,
  since only phrase lists have a meaningful result.
- Sorting with a comparator that sees NaN (a missing `academicScore`) is left
  out. Scores are always numbers.
- UI, DOM rendering, message passing, text-to-speech, the ML model runners,
  and the SQLite database manager are not part of this model.

=== FILE: academic_db.dfy ===
/** The IndexedDB copy of the phrasebank (src/lib/academic-db-manager.js):
    flattening the phrase data into records keyed by `id`, the add-based
    import, and the search over the records a `getAll` returns. The object
    store is a map from id to record; opening it and its transactions are
    outside the model. */
module AcademicDb {
  import opened Wrappers
  import opened Seqs
  import opened Text
  import opened OrderedMap
  import opened Sorting
  import Phrasebank

  type Phrase = Phrasebank.Phrase
  type WordItem = Phrasebank.WordItem
  type Store = map<string, Phrase>

  /** What a failed `add` aborts the transaction with. */
  const CONSTRAINT_ERROR: string := "ConstraintError"
  const DEFAULT_MAX_RESULTS: int := 20
  const DEFAULT_MIN_SCORE: real := 0.0

  // ---------------------------------------------------------------------
  // Flattening into records

  /** `verb.usage || ''`. */
  function UsageOrEmpty(u: Option<string>): string {
    if u.Some? then u.value else ""
  }

  /** A citation verb as a record of the `citations` section. */
  function CitationRecord(category: string, v: WordItem): Phrase {
    Phrasebank.Phrase("citation_" + category + "_" + v.text, v.text, Some(UsageOrEmpty(v.usage)),
      v.academicScore, "high", [v.example], "citations", category)
  }

  /** A transition word as a record of the `transitions` section. */
  function TransitionRecord(category: string, w: WordItem): Phrase {
    Phrasebank.Phrase("transition_" + category + "_" + w.text, w.text, Some(UsageOrEmpty(w.usage)),
      w.academicScore, "very_high", [w.example], "transitions", category)
  }

  /** The records of every category, in key order and list order. */
  function CategoryRecords(c: OMap<string, seq<WordItem>>, make: (string, WordItem) -> Phrase): seq<Phrase> {
    Flatten(seq(|c|, i requires 0 <= i < |c| => seq(|c[i].1|, j requires 0 <= j < |c[i].1| => make(c[i].0, c[i].1[j]))))
  }

  function OptionalRecords(c: Option<OMap<string, seq<WordItem>>>, make: (string, WordItem) -> Phrase): seq<Phrase> {
    if c.Some? then CategoryRecords(c.value, make) else []
  }

  /** `allPhrases` of the import: section phrases, then citation verbs, then
      transition words. */
  function Records(d: Phrasebank.Data): seq<Phrase> {
    Phrasebank.AllPhrases(d.sections)
      + OptionalRecords(d.citations, CitationRecord)
      + OptionalRecords(d.transitions, TransitionRecord)
  }

  /** The number of items of every list of an optional category map. */
  function ItemCount(c: Option<OMap<string, seq<WordItem>>>): nat {
    if c.Some? then SumLens(Values(c.value)) else 0
  }

  /** One record per listed phrase, per citation verb and per transition
      word. */
  lemma RecordsCount(d: Phrasebank.Data)
    ensures |Records(d)| == Phrasebank.ListedCount(d.sections) + ItemCount(d.citations) + ItemCount(d.transitions)
  {
    Phrasebank.AllPhrasesCount(d.sections);
    OptionalCount(d.citations, CitationRecord);
    OptionalCount(d.transitions, TransitionRecord);
  }

  lemma OptionalCount(c: Option<OMap<string, seq<WordItem>>>, make: (string, WordItem) -> Phrase)
    ensures |OptionalRecords(c, make)| == ItemCount(c)
  {
    if c.Some? {
      var m := c.value;
      var parts := seq(|m|, i requires 0 <= i < |m| => seq(|m[i].1|, j requires 0 <= j < |m[i].1| => make(m[i].0, m[i].1[j])));
      Phrasebank.SumLensSame(parts, Values(m));
    }
  }

  /** A category record comes from one item of one category, and every
      item gives one. */
  lemma CategoryMembers(c: OMap<string, seq<WordItem>>, make: (string, WordItem) -> Phrase, r: Phrase)
    ensures r in CategoryRecords(c, make) <==>
      exists i, w :: 0 <= i < |c| && w in c[i].1 && r == make(c[i].0, w)
  {
    var parts := seq(|c|, i requires 0 <= i < |c| => seq(|c[i].1|, j requires 0 <= j < |c[i].1| => make(c[i].0, c[i].1[j])));
    FlattenMembers(parts, r);
    if r in CategoryRecords(c, make) {
      var i :| 0 <= i < |parts| && r in parts[i];
      var j :| 0 <= j < |c[i].1| && parts[i][j] == r;
      assert c[i].1[j] in c[i].1;
    }
    if exists i, w :: 0 <= i < |c| && w in c[i].1 && r == make(c[i].0, w) {
      var i, w :| 0 <= i < |c| && w in c[i].1 && r == make(c[i].0, w);
      var j :| 0 <= j < |c[i].1| && c[i].1[j] == w;
      assert parts[i][j] == r;
    }
  }

  /** `r` carries the text, score, example and usage (empty when missing)
      of an item listed under the category it names. */
  ghost predicate FromItem(c: OMap<string, seq<WordItem>>, r: Phrase) {
    exists i, w :: 0 <= i < |c| && w in c[i].1 && c[i].0 == r.subsection && ItemFields(w, r)
  }

  predicate ItemFields(w: WordItem, r: Phrase) {
    r.phrase == w.text && r.examples == [w.example] && r.academicScore == w.academicScore &&
    r.usage == Some(UsageOrEmpty(w.usage))
  }

  /** Every citation record is filed under `citations` and its category,
      named after category and verb, with frequency `high`, a usage (empty
      when the verb has none) and its one example. */
  lemma CitationRecordsShape(c: OMap<string, seq<WordItem>>, r: Phrase)
    requires r in CategoryRecords(c, CitationRecord)
    ensures r.section == "citations" && r.frequency == "high"
    ensures r.id == "citation_" + r.subsection + "_" + r.phrase
    ensures FromItem(c, r)
  {
    CategoryMembers(c, CitationRecord, r);
    var i, w :| 0 <= i < |c| && w in c[i].1 && r == CitationRecord(c[i].0, w);
    assert c[i].0 == r.subsection && ItemFields(w, r);
  }

  /** Every transition record is filed under `transitions` and its category,
      named after category and word, with frequency `very_high`. */
  lemma TransitionRecordsShape(c: OMap<string, seq<WordItem>>, r: Phrase)
    requires r in CategoryRecords(c, TransitionRecord)
    ensures r.section == "transitions" && r.frequency == "very_high"
    ensures r.id == "transition_" + r.subsection + "_" + r.phrase
    ensures FromItem(c, r)
  {
    CategoryMembers(c, TransitionRecord, r);
    var i, w :| 0 <= i < |c| && w in c[i].1 && r == TransitionRecord(c[i].0, w);
    assert c[i].0 == r.subsection && ItemFields(w, r);
  }

  // ---------------------------------------------------------------------
  // The add-based import

  function IdOf(r: Phrase): string {
    r.id
  }

  /** `objectStore.add` of each record in turn inside one transaction: an
      id already present aborts it, and an aborted transaction keeps
      nothing. */
  function AddAll(store: Store, recs: seq<Phrase>): Result<Store, string>
    decreases |recs|
  {
    if |recs| == 0 then Ok(store)
    else if recs[0].id in store then Err(CONSTRAINT_ERROR)
    else AddAll(store[recs[0].id := recs[0]], recs[1..])
  }

  /** The store after adding records with fresh, distinct ids. */
  function Added(store: Store, recs: seq<Phrase>): Store
    decreases |recs|
  {
    if |recs| == 0 then store else Added(store[recs[0].id := recs[0]], recs[1..])
  }

  /** Ids that can all be added: pairwise distinct and not yet stored. */
  ghost predicate Fresh(store: Store, recs: seq<Phrase>) {
    Distinct(MapSeq(recs, IdOf)) && forall i :: 0 <= i < |recs| ==> recs[i].id !in store
  }

  /** The import succeeds exactly when every id is fresh, and then leaves
      the store with the records added. */
  lemma {:induction false} AddAllSpec(store: Store, recs: seq<Phrase>)
    ensures AddAll(store, recs).Ok? <==> Fresh(store, recs)
    ensures AddAll(store, recs).Ok? ==> AddAll(store, recs).value == Added(store, recs)
    decreases |recs|
  {
    if |recs| > 0 {
      FreshStep(store, recs);
      AddAllSpec(store[recs[0].id := recs[0]], recs[1..]);
    }
  }

  function IdSet(recs: seq<Phrase>): set<string> {
    set r | r in recs :: r.id
  }

  /** Adding fresh records adds exactly their ids. */
  lemma {:induction false} AddedKeys(store: Store, recs: seq<Phrase>)
    requires Fresh(store, recs)
    ensures Added(store, recs).Keys == store.Keys + IdSet(recs)
    decreases |recs|
  {
    if |recs| > 0 {
      var r, rest := recs[0], recs[1..];
      var store' := store[r.id := r];
      assert Added(store, recs) == Added(store', rest);
      assert IdSet(recs) == {r.id} + IdSet(rest) by {
        assert recs == [r] + rest;
      }
      FreshStep(store, recs);
      AddedKeys(store', rest);
    }
  }

  /** One new key per record. */
  lemma {:induction false} AddedSize(store: Store, recs: seq<Phrase>)
    requires Fresh(store, recs)
    ensures |Added(store, recs)| == |store| + |recs|
    decreases |recs|
  {
    if |recs| > 0 {
      var store' := store[recs[0].id := recs[0]];
      assert Added(store, recs) == Added(store', recs[1..]);
      FreshStep(store, recs);
      AddedSize(store', recs[1..]);
    }
  }

  /** Adding fresh records leaves every stored record as it was. */
  lemma {:induction false} AddedKeeps(store: Store, recs: seq<Phrase>, k: string)
    requires Fresh(store, recs) && k in store
    ensures k in Added(store, recs) && Added(store, recs)[k] == store[k]
    decreases |recs|
  {
    if |recs| > 0 {
      var store' := store[recs[0].id := recs[0]];
      assert Added(store, recs) == Added(store', recs[1..]);
      FreshStep(store, recs);
      AddedKeeps(store', recs[1..], k);
    }
  }

  /** Adding fresh records files each one under its id. */
  lemma {:induction false} AddedFiles(store: Store, recs: seq<Phrase>, j: nat)
    requires Fresh(store, recs) && j < |recs|
    ensures recs[j].id in Added(store, recs) && Added(store, recs)[recs[j].id] == recs[j]
    decreases |recs|
  {
    var store' := store[recs[0].id := recs[0]];
    assert Added(store, recs) == Added(store', recs[1..]);
    FreshStep(store, recs);
    if j == 0 {
      AddedKeeps(store', recs[1..], recs[0].id);
    } else {
      AddedFiles(store', recs[1..], j - 1);
    }
  }

  lemma FreshStep(store: Store, recs: seq<Phrase>)
    requires |recs| > 0
    ensures Fresh(store, recs) <==> recs[0].id !in store && Fresh(store[recs[0].id := recs[0]], recs[1..])
  {
    var r, rest := recs[0], recs[1..];
    var ids, restIds := MapSeq(recs, IdOf), MapSeq(rest, IdOf);
    assert ids == [r.id] + restIds;
    if Fresh(store, recs) {
      forall i | 0 <= i < |rest| ensures rest[i].id !in store[r.id := r] {
        assert recs[i + 1] == rest[i];
        assert ids[0] != ids[i + 1];
      }
      forall i, j | 0 <= i < j < |restIds| ensures restIds[i] != restIds[j] {
        assert ids[i + 1] != ids[j + 1];
      }
    }
    if r.id !in store && Fresh(store[r.id := r], rest) {
      forall i, j | 0 <= i < j < |ids| ensures ids[i] != ids[j] {
        if i == 0 {
          assert rest[j - 1].id !in store[r.id := r];
        } else {
          assert restIds[i - 1] != restIds[j - 1];
        }
      }
      forall i | 0 <= i < |recs| ensures recs[i].id !in store {
        if i > 0 {
          assert rest[i - 1].id !in store[r.id := r];
        }
      }
    }
  }

  /** `importPhrases(data)`: the new store and the count of records added,
      or the error that aborted the transaction. */
  function ImportPhrases(store: Store, d: Phrasebank.Data): (r: Result<(Store, nat), string>)
    ensures r.Err? ==> r.error == CONSTRAINT_ERROR
  {
    var recs := Records(d);
    match AddAll(store, recs)
    case Err(e) => Err(CONSTRAINT_ERROR)
    case Ok(s) => Ok((s, |recs|))
  }

  /** The import resolves exactly when every record's id is new and unique,
      with the count of records added, which is how much the store grew. */
  lemma ImportPhrasesOutcome(store: Store, d: Phrasebank.Data)
    ensures ImportPhrases(store, d).Ok? <==> Fresh(store, Records(d))
    ensures ImportPhrases(store, d).Ok? ==>
      var (s, n) := ImportPhrases(store, d).value;
      n == |Records(d)| && |s| == |store| + n &&
      (forall r :: r in Records(d) ==> r.id in s && s[r.id] == r) &&
      (forall k :: k in store ==> k in s && s[k] == store[k])
  {
    AddAllSpec(store, Records(d));
    var recs := Records(d);
    if Fresh(store, recs) {
      AddedSize(store, recs);
      forall k | k in store ensures k in Added(store, recs) && Added(store, recs)[k] == store[k] {
        AddedKeeps(store, recs, k);
      }
      forall r | r in recs ensures r.id in Added(store, recs) && Added(store, recs)[r.id] == r {
        var j :| 0 <= j < |recs| && recs[j] == r;
        AddedFiles(store, recs, j);
      }
    }
  }

  // ---------------------------------------------------------------------
  // searchPhrases

  /** The records a search reads: the section index's records when a
      section is given, else every record. `all` is what `getAll()`
      returns. */
  function Candidates(all: seq<Phrase>, section: Option<string>): seq<Phrase> {
    if Phrasebank.Truthy(section) then FilterBy(all, SectionOf, section.value) else all
  }

  function SectionOf(r: Phrase): string {
    r.section
  }

  /** The filter callback: a missing or empty usage is skipped rather than
      lowercased. */
  predicate Keeps(r: Phrase, query: string, minScore: real) {
    !(r.academicScore < minScore) &&
    (Contains(Lower(r.phrase), query) ||
     (r.usage.Some? && r.usage.value != "" && Contains(Lower(r.usage.value), query)))
  }

  function KeepKey(query: string, minScore: real): Phrase -> bool {
    r => Keeps(r, query, minScore)
  }

  /** `searchPhrases(query, { section, minScore, maxResults })`. */
  function SearchPhrases(all: seq<Phrase>, query: string, section: Option<string>, minScore: real, maxResults: int): seq<Phrase> {
    Slice0(SortBy(Found(all, query, section, minScore), Phrasebank.ByScoreDesc), maxResults)
  }

  /** The records the filter keeps, in stored order. */
  function Found(all: seq<Phrase>, query: string, section: Option<string>, minScore: real): seq<Phrase> {
    FilterBy(Candidates(all, section), KeepKey(Lower(query), minScore), true)
  }

  /** The stored filter agrees with the in-memory one on every record: an
      empty usage only ever contains the empty query, which the phrase
      contains too. */
  lemma KeepsAgrees(r: Phrase, query: string, minScore: real)
    ensures Keeps(r, query, minScore) <==> Phrasebank.Matches(r, query, minScore)
  {
    if r.usage == Some("") && Contains(Lower(""), query) {
      assert |query| == 0 by {
        var i :| 0 <= i <= |Lower("")| - |query| && Lower("")[i..i + |query|] == query;
      }
      ContainsEmpty(Lower(r.phrase));
    }
  }

  /** Results match the query and the score floor, come from the searched
      section, run from the highest score down, and number at most
      `maxResults`. */
  lemma SearchPhrasesSpec(all: seq<Phrase>, query: string, section: Option<string>, minScore: real, maxResults: int)
    ensures var r := SearchPhrases(all, query, section, minScore, maxResults);
      (forall p :: p in r ==>
        Phrasebank.Matches(p, Lower(query), minScore) && p in all &&
        (Phrasebank.Truthy(section) ==> p.section == section.value)) &&
      (forall i, j :: 0 <= i < j < |r| ==> r[i].academicScore >= r[j].academicScore) &&
      (maxResults >= 0 ==> |r| <= maxResults)
  {
    var cands := Candidates(all, section);
    var key := KeepKey(Lower(query), minScore);
    var found := Found(all, query, section, minScore);
    FilterByMembers(cands, key, true);
    if Phrasebank.Truthy(section) {
      FilterByMembers(all, SectionOf, section.value);
    }
    Phrasebank.RankedTop(found, maxResults);
    forall p | p in found ensures Phrasebank.Matches(p, Lower(query), minScore) {
      KeepsAgrees(p, Lower(query), minScore);
    }
  }

  /** `searchPhrases(query)` with the default options returns at most twenty
      stored phrases, each scoring at least 0 and matching the query. */
  lemma SearchPhrasesDefault(all: seq<Phrase>, query: string)
    ensures var r := SearchPhrases(all, query, None, DEFAULT_MIN_SCORE, DEFAULT_MAX_RESULTS);
      |r| <= 20 && forall p :: p in r ==> p in all && Phrasebank.Matches(p, Lower(query), 0.0)
  {
    SearchPhrasesSpec(all, query, None, DEFAULT_MIN_SCORE, DEFAULT_MAX_RESULTS);
  }

  /** The search returns the best matches: the found records are exactly
      the matching records of the searched section, and for a non-negative
      `maxResults` the result holds `min(maxResults, found)` of them with
      none left out scoring above a result. */
  lemma SearchPhrasesTop(all: seq<Phrase>, query: string, section: Option<string>, minScore: real, maxResults: int)
    ensures var r := SearchPhrases(all, query, section, minScore, maxResults);
      var found := Found(all, query, section, minScore);
      (forall p :: p in found <==>
        p in all && Phrasebank.Matches(p, Lower(query), minScore) &&
        (Phrasebank.Truthy(section) ==> p.section == section.value)) &&
      (maxResults >= 0 ==> |r| == if maxResults < |found| then maxResults else |found|) &&
      multiset(r) <= multiset(found) &&
      (forall x, y :: x in multiset(found) - multiset(r) && y in r ==> y.academicScore >= x.academicScore)
  {
    var cands := Candidates(all, section);
    var key := KeepKey(Lower(query), minScore);
    FilterByMembers(cands, key, true);
    if Phrasebank.Truthy(section) {
      FilterByMembers(all, SectionOf, section.value);
    }
    forall p ensures Keeps(p, Lower(query), minScore) <==> Phrasebank.Matches(p, Lower(query), minScore) {
      KeepsAgrees(p, Lower(query), minScore);
    }
    Phrasebank.RankedTop(Found(all, query, section, minScore), maxResults);
  }

  /** Where the in-memory search does not throw, it finds exactly what the
      stored search finds over the same flattened records. */
  lemma SearchAgreesWithMemory(ps: seq<Phrase>, query: string, minScore: real, maxResults: int)
    requires Phrasebank.Scan(ps, Lower(query), minScore).Ok?
    ensures Slice0(SortBy(Phrasebank.Scan(ps, Lower(query), minScore).value, Phrasebank.ByScoreDesc), maxResults)
      == SearchPhrases(ps, query, None, minScore, maxResults)
  {
    Phrasebank.ScanSpec(ps, Lower(query), minScore);
    FilterSame(ps, Lower(query), minScore);
  }

  lemma {:induction false} FilterSame(ps: seq<Phrase>, query: string, minScore: real)
    ensures FilterBy(ps, Phrasebank.MatchKey(query, minScore), true) == FilterBy(ps, KeepKey(query, minScore), true)
  {
    if |ps| > 0 {
      KeepsAgrees(ps[0], query, minScore);
      FilterSame(ps[1..], query, minScore);
    }
  }
}

=== FILE: content_helpers.dfy ===
/** The pure helpers of the page script (content.js): language detection,
    the dotted-key translation lookup, picking the word a synonym or example
    query is about, the model download label, and the order in which
    academic phrases are shown. */
module ContentHelpers {
  import opened Wrappers
  import opened Seqs
  import opened Text
  import opened JsText
  import opened OrderedMap
  import opened Sorting

  // ---------------------------------------------------------------------
  // detectLanguage

  const ZH: string := "zh"
  const EN: string := "en"

  /** `detectLanguage(text)`: Chinese when the ideographs are more than 30%
      of the text's UTF-16 length. */
  function DetectLanguage(text: string): (r: string)
    ensures r == ZH || r == EN
  {
    var n := CjkCount(text);
    if n > 0 && (n as real) / (Utf16Len(text) as real) > 0.3 then ZH else EN
  }

  /** The 30% rule in whole numbers: ten times the ideographs exceed three
      times the length. */
  lemma DetectLanguageRatio(text: string)
    ensures DetectLanguage(text) == ZH <==> CjkCount(text) * 10 > Utf16Len(text) * 3
  {
    RatioRule(CjkCount(text), Utf16Len(text));
  }

  lemma RatioRule(n: nat, len: nat)
    requires n <= len
    ensures (n > 0 && (n as real) / (len as real) > 0.3) <==> n * 10 > len * 3
  {
    if n > 0 {
      var q := (n as real) / (len as real);
      assert q * (len as real) == n as real;
      RatioAbove(n as real, len as real, q);
    }
  }

  lemma RatioAbove(n: real, len: real, q: real)
    requires len > 0.0 && q * len == n
    ensures q > 0.3 <==> n * 10.0 > len * 3.0
  {
    if q > 0.3 {
      assert q * len > 0.3 * len;
    } else {
      assert q * len <= 0.3 * len;
    }
  }

  /** Text without ideographs is English; text made only of them is
      Chinese. */
  lemma DetectLanguageExtremes(text: string)
    ensures !HasCjk(text) ==> DetectLanguage(text) == EN
    ensures |text| > 0 && (forall i :: 0 <= i < |text| ==> IsCjk(text[i])) ==> DetectLanguage(text) == ZH
  {
    if |text| > 0 && forall i :: 0 <= i < |text| ==> IsCjk(text[i]) {
      AllCjkCount(text);
      DetectLanguageRatio(text);
    }
  }

  lemma {:induction false} AllCjkCount(s: string)
    requires forall i :: 0 <= i < |s| ==> IsCjk(s[i])
    ensures CjkCount(s) == |s| == Utf16Len(s)
  {
    if |s| > 0 {
      assert forall i :: 0 <= i < |s| - 1 ==> s[1..][i] == s[i + 1];
      AllCjkCount(s[1..]);
    }
  }

  // ---------------------------------------------------------------------
  // t(key)

  /** The JSON values the translation file can hold. */
  datatype Json = JNull | JBool(b: bool) | JNum(n: real) | JStr(s: string) | JObj(fields: OMap<string, Json>)

  predicate Truthy(v: Json) {
    match v
    case JNull => false
    case JBool(b) => b
    case JNum(n) => n != 0.0
    case JStr(s) => s != ""
    case JObj(_) => true
  }

  /** `value?.[k]`: a property of an object; nothing otherwise. */
  function Prop(v: Option<Json>, k: string): Option<Json> {
    if v.Some? && v.value.JObj? then Get(v.value.fields, k) else None
  }

  /** The loop of `t`: step along the keys, giving up at the first step
      that yields nothing falsy. */
  function Walk(v: Option<Json>, keys: seq<string>): Option<Json>
    decreases |keys|
  {
    if |keys| == 0 then v
    else
      var next := Prop(v, keys[0]);
      if next.None? || !Truthy(next.value) then None else Walk(next, keys[1..])
  }

  /** `t(key)` with the loaded file (if any) and the current language. */
  function Translate(i18n: Option<Json>, lang: string, key: string): (r: Json)
    ensures i18n.None? ==> r == JStr(key)
    ensures r == JStr(key) || Truthy(r)
  {
    if i18n.None? then JStr(key)
    else
      match Walk(Prop(i18n, lang), SplitOn(key, '.'))
      case Some(v) => WalkTruthy(Prop(i18n, lang), SplitOn(key, '.')); v
      case None => JStr(key)
  }

  lemma {:induction false} WalkTruthy(v: Option<Json>, keys: seq<string>)
    requires |keys| > 0 && Walk(v, keys).Some?
    ensures Truthy(Walk(v, keys).value)
    decreases |keys|
  {
    if |keys| > 1 {
      WalkTruthy(Prop(v, keys[0]), keys[1..]);
    }
  }

  /** The value at a path of property names, with no truthiness check. */
  function PathValue(v: Option<Json>, keys: seq<string>): Option<Json>
    decreases |keys|
  {
    if |keys| == 0 then v else PathValue(Prop(v, keys[0]), keys[1..])
  }

  /** `t` answers with the value at the dotted path when it is there and
      truthy, and with the key itself otherwise. */
  lemma TranslateIsPath(i18n: Json, lang: string, key: string)
    ensures var p := PathValue(Prop(Some(i18n), lang), SplitOn(key, '.'));
      Translate(Some(i18n), lang, key) == if p.Some? && Truthy(p.value) then p.value else JStr(key)
  {
    WalkIsPath(Prop(Some(i18n), lang), SplitOn(key, '.'));
  }

  lemma {:induction false} WalkIsPath(v: Option<Json>, keys: seq<string>)
    requires |keys| > 0
    ensures var p := PathValue(v, keys);
      Walk(v, keys) == if p.Some? && Truthy(p.value) then p else None
    decreases |keys|
  {
    var next := Prop(v, keys[0]);
    if |keys| > 1 {
      WalkIsPath(next, keys[1..]);
      if next.Some? && !Truthy(next.value) {
        PathOfFalsy(next, keys[1..]);
      }
      if next.None? {
        PathOfNone(keys[1..]);
      }
    }
  }

  /** Below a falsy value (never an object) nothing is found. */
  lemma PathOfFalsy(v: Option<Json>, keys: seq<string>)
    requires |keys| > 0 && v.Some? && !Truthy(v.value)
    ensures PathValue(v, keys).None?
  {
    PathOfNone(keys[1..]);
  }

  lemma {:induction false} PathOfNone(keys: seq<string>)
    ensures PathValue(None, keys).None?
    decreases |keys|
  {
    if |keys| > 0 {
      PathOfNone(keys[1..]);
    }
  }

  // ---------------------------------------------------------------------
  // Target words

  /** `handleGetSynonyms`: the first whitespace-separated word of the
      trimmed source text. */
  function SynonymTarget(sourceText: string): string {
    var t := Trim(sourceText);
    var words := SplitWs(t);
    if |words| > 1 then words[0] else t
  }

  /** The target is where the trimmed text starts, holds no whitespace, and
      runs up to the first whitespace or the end. */
  lemma SynonymTargetIsFirstWord(sourceText: string)
    ensures var t, r := Trim(sourceText), SynonymTarget(sourceText);
      StartsWith(t, r) && NoneIn(r, IsJsSpace) &&
      (|r| < |t| ==> IsJsSpace(t[|r|]))
  {
    var t := Trim(sourceText);
    var j := RunEnd(t, IsJsSpace, 0, false);
    assert SplitWs(t) == FieldsFrom(t, 0);
    if j < |t| {
      FieldsStep(t, 0, j, RunEnd(t, IsJsSpace, j, true));
    }
    assert t[..j][..j] == t[..j];
  }

  /** The group of the first match of `open`, one or more characters other
      than `close`, then `close` — the source's `/"([^"]+)"/` and
      `/\[([^\]]+)\]/` — found by trying each start in turn. */
  function FirstGroup(s: string, open: char, close: char, from: nat): (r: Option<(nat, nat)>)
    requires from <= |s|
    ensures r.Some? ==> from <= r.value.0 && GroupAt(s, open, close, r.value.0, r.value.1)
    ensures r.Some? ==> forall i :: from <= i < r.value.0 ==> !StartsGroup(s, open, close, i)
    ensures r.None? ==> forall i :: from <= i < |s| ==> !StartsGroup(s, open, close, i)
    decreases |s| - from
  {
    if from == |s| then None
    else if StartsGroup(s, open, close, from) then Some((from, GroupEnd(s, close, from)))
    else FirstGroup(s, open, close, from + 1)
  }

  /** Where the run of non-`close` characters after index `i` ends. */
  function GroupEnd(s: string, close: char, i: nat): (j: nat)
    requires i < |s|
    ensures i < j <= |s|
    ensures j < |s| ==> s[j] == close
    ensures forall k :: i < k < j ==> s[k] != close
  {
    i + 1 + FirstIndex(s[i + 1..], close)
  }

  /** A match can start at `i`. */
  predicate StartsGroup(s: string, open: char, close: char, i: nat)
    requires i < |s|
  {
    var j := GroupEnd(s, close, i);
    s[i] == open && i + 1 < j < |s|
  }

  /** `s[i]` opens, `s[j]` closes, and between them is a non-empty run free
      of `close`. */
  predicate GroupAt(s: string, open: char, close: char, i: nat, j: nat) {
    i + 1 < j < |s| && s[i] == open && s[j] == close &&
    forall k :: i < k < j ==> s[k] != close
  }

  /** The group text of the first match, if any. */
  function Group(s: string, open: char, close: char): Option<string> {
    match FirstGroup(s, open, close, 0)
    case Some((i, j)) => Some(s[i + 1..j])
    case None => None
  }

  /** `handleGetExamples`: a "quoted" word, else a [bracketed] one, trimmed;
      when that leaves nothing, the first whitespace field of the text. */
  function ExampleTarget(sourceText: string): string {
    var quoted := Group(sourceText, '"', '"');
    var marked :=
      if quoted.Some? then Trim(quoted.value)
      else
        var bracketed := Group(sourceText, '[', ']');
        if bracketed.Some? then Trim(bracketed.value) else "";
    if marked != "" then marked else SplitWs(sourceText)[0]
  }

  /** A quoted group decides the target whenever its trimmed text is
      non-empty, whatever brackets follow; brackets count only when there is
      no quoted group at all. */
  lemma ExampleTargetPriority(sourceText: string)
    ensures Group(sourceText, '"', '"').Some? && Trim(Group(sourceText, '"', '"').value) != "" ==>
      ExampleTarget(sourceText) == Trim(Group(sourceText, '"', '"').value)
    ensures (Group(sourceText, '"', '"').None? && Group(sourceText, '[', ']').Some? &&
             Trim(Group(sourceText, '[', ']').value) != "") ==>
      ExampleTarget(sourceText) == Trim(Group(sourceText, '[', ']').value)
  {
  }

  /** Without a usable marked word the target is the text's first
      whitespace field, which holds no whitespace. */
  lemma ExampleTargetFallback(sourceText: string)
    requires Group(sourceText, '"', '"').None? && Group(sourceText, '[', ']').None?
    ensures ExampleTarget(sourceText) == sourceText[..RunEnd(sourceText, IsJsSpace, 0, false)]
    ensures NoneIn(ExampleTarget(sourceText), IsJsSpace)
  {
    SplitWsFields(sourceText);
  }

  /** A group is the first one when no opening character comes before it. */
  lemma GroupIs(s: string, open: char, close: char, i: nat, j: nat)
    requires GroupAt(s, open, close, i, j)
    requires forall k :: 0 <= k < i ==> s[k] != open
    ensures Group(s, open, close) == Some(s[i + 1..j])
  {
    FirstIndexIs(s[i + 1..], close, j - i - 1);
    assert GroupEnd(s, close, i) == j;
    assert StartsGroup(s, open, close, i);
  }

  /** Without the opening character there is no group. */
  lemma NoGroup(s: string, open: char, close: char)
    requires open !in s
    ensures Group(s, open, close).None?
  {
  }

  /** A quoted word wins over a bracketed one and over the first word. */
  lemma ExampleTargetExamples()
    ensures ExampleTarget("use \"term\" in [context]") == "term"
    ensures ExampleTarget("use [term] here") == "term"
    ensures ExampleTarget("plain words") == "plain"
  {
    QuotedExample("use \"term\" in [context]");
    BracketedExample("use [term] here");
    PlainExample("plain words");
  }

  lemma QuotedExample(s: string)
    requires s == "use \"term\" in [context]"
    ensures ExampleTarget(s) == "term"
  {
    QuotedGroup(s);
    TermTrimmed();
  }

  lemma QuotedGroup(s: string)
    requires s == "use \"term\" in [context]"
    ensures Group(s, '"', '"') == Some("term")
  {
    TermGroupAt(s, '"', '"', 4);
    GroupIs(s, '"', '"', 4, 9);
  }

  lemma BracketedExample(s: string)
    requires s == "use [term] here"
    ensures ExampleTarget(s) == "term"
  {
    NoGroup(s, '"', '"');
    BracketedGroup(s);
    TermTrimmed();
  }

  lemma BracketedGroup(s: string)
    requires s == "use [term] here"
    ensures Group(s, '[', ']') == Some("term")
  {
    TermGroupAt(s, '[', ']', 4);
    GroupIs(s, '[', ']', 4, 9);
  }

  /** "term" between `open` and `close` at `i` is a group. */
  lemma TermGroupAt(s: string, open: char, close: char, i: nat)
    requires i + 6 <= |s| && s[i] == open && s[i + 5] == close
    requires s[i + 1] == 't' && s[i + 2] == 'e' && s[i + 3] == 'r' && s[i + 4] == 'm'
    requires close !in "term"
    ensures GroupAt(s, open, close, i, i + 5) && s[i + 1..i + 5] == "term"
  {
    SliceIsTerm(s, i + 1);
  }

  lemma SliceIsPlain(s: string)
    requires 5 <= |s|
    requires s[0] == 'p' && s[1] == 'l' && s[2] == 'a' && s[3] == 'i' && s[4] == 'n'
    ensures s[..5] == "plain"
  {
    var t := s[..5];
    assert t[0] == 'p' && t[1] == 'l' && t[2] == 'a' && t[3] == 'i' && t[4] == 'n';
  }

  /** The four letters of "term" standing at `i`. */
  lemma SliceIsTerm(s: string, i: nat)
    requires i + 4 <= |s|
    requires s[i] == 't' && s[i + 1] == 'e' && s[i + 2] == 'r' && s[i + 3] == 'm'
    ensures s[i..i + 4] == "term"
  {
    var t := s[i..i + 4];
    assert t[0] == 't' && t[1] == 'e' && t[2] == 'r' && t[3] == 'm';
  }

  lemma TermTrimmed()
    ensures Trim("term") == "term"
  {
    TrimByFixed("term", IsJsSpace);
  }

  lemma PlainExample(s: string)
    requires s == "plain words"
    ensures ExampleTarget(s) == "plain"
  {
    NoGroup(s, '"', '"');
    NoGroup(s, '[', ']');
    RunEndIs(s, IsJsSpace, 0, 5, false);
    SliceIsPlain(s);
  }

  // ---------------------------------------------------------------------
  // handleModelDownload

  /** The model id: the name's first space-separated word, lowercased. */
  function ModelId(modelName: string): (id: string)
    ensures ' ' !in id
    ensures Lower(id) == id
  {
    var first := SplitOn(modelName, ' ')[0];
    LowerIdempotent(first);
    assert forall i :: 0 <= i < |first| ==> Lower(first)[i] != ' ' by {
      assert forall i :: 0 <= i < |first| ==> first[i] != ' ';
    }
    Lower(first)
  }

  /** The download size shown for a model id, the first rule that applies
      winning. */
  function DownloadSize(id: string): (size: string)
    ensures Contains(id, "base") ==> size == "~270MB"
    ensures !Contains(id, "base") && Contains(id, "small") ==> size == "~130MB"
    ensures !Contains(id, "base") && !Contains(id, "small") && Contains(id, "minilm") ==> size == "~90MB"
    ensures size == "~150MB" <==> !Contains(id, "base") && !Contains(id, "small") && !Contains(id, "minilm")
  {
    if Contains(id, "base") then "~270MB"
    else if Contains(id, "small") then "~130MB"
    else if Contains(id, "minilm") then "~90MB"
    else "~150MB"
  }

  /** The id is the lowercased text before the first space. */
  lemma ModelIdIs(name: string, i: nat)
    requires i <= |name| && (i < |name| ==> name[i] == ' ')
    requires forall j :: 0 <= j < i ==> name[j] != ' '
    ensures ModelId(name) == Lower(name[..i])
  {
    FirstIndexIs(name, ' ', i);
    SplitOnFirst(name, ' ');
  }

  /** The names the model manager offers. */
  lemma ModelDownloadExamples()
    ensures ModelId("BGE-Base (Academic Semantic Search)") == "bge-base"
    ensures DownloadSize("bge-base") == "~270MB"
    ensures ModelId("MiniLM-L6 (Lightweight Semantic)") == "minilm-l6"
    ensures DownloadSize("minilm-l6") == "~90MB"
  {
    BaseModelId("BGE-Base (Academic Semantic Search)");
    BaseSize("bge-base");
    MiniModelId("MiniLM-L6 (Lightweight Semantic)");
    MiniSize("minilm-l6");
  }

  lemma BaseModelId(name: string)
    requires name == "BGE-Base (Academic Semantic Search)"
    ensures ModelId(name) == "bge-base"
  {
    ModelIdIs(name, 8);
    assert name[..8] == "BGE-Base";
    LowerBase();
  }

  /** Lowercasing two literals, character by character. */
  lemma LowerLiteral(s: string, t: string)
    requires |s| == |t| && forall i :: 0 <= i < |s| ==> LowerChar(s[i]) == t[i]
    ensures Lower(s) == t
  {
  }

  lemma MiniModelId(name: string)
    requires name == "MiniLM-L6 (Lightweight Semantic)"
    ensures ModelId(name) == "minilm-l6"
  {
    ModelIdIs(name, 9);
    assert name[..9] == "MiniLM-L6";
    LowerMini();
  }

  lemma LowerMini()
    ensures Lower("MiniLM-L6") == "minilm-l6"
  {
    LowerLiteral("MiniLM-L6", "minilm-l6");
  }

  lemma LowerBase()
    ensures Lower("BGE-Base") == "bge-base"
  {
    LowerLiteral("BGE-Base", "bge-base");
  }

  lemma BaseSize(id: string)
    requires id == "bge-base"
    ensures DownloadSize(id) == "~270MB"
  {
    assert OccursAt(id, "base", 4);
  }

  lemma MiniSize(id: string)
    requires id == "minilm-l6"
    ensures DownloadSize(id) == "~90MB"
  {
    assert OccursAt(id, "minilm", 0);
    MissingCharNotContained(id, "base", 0);
    MissingCharNotContained(id, "small", 0);
  }

  // ---------------------------------------------------------------------
  // displayAcademicPhrases

  /** What the ordering reads of a shown phrase. */
  datatype Shown = Shown(phrase: string, academicScore: real, similarity: Option<real>)

  /** `b.similarity || 0`. */
  function SimilarityOrZero(p: Shown): real {
    if p.similarity.Some? then p.similarity.value else 0.0
  }

  function BySimilarity(p: Shown): seq<real> {
    [-SimilarityOrZero(p)]
  }

  function ByScore(p: Shown): seq<real> {
    [-p.academicScore]
  }

  /** The display order: semantic results by similarity, keyword results
      by academic score, highest first, ties kept in arrival order. */
  function DisplayOrder(ps: seq<Shown>, semantic: bool): seq<Shown> {
    SortBy(ps, if semantic then BySimilarity else ByScore)
  }

  /** The shown list is a reordering of the results, highest first. */
  lemma DisplayOrderSpec(ps: seq<Shown>, semantic: bool)
    ensures multiset(DisplayOrder(ps, semantic)) == multiset(ps)
    ensures var r := DisplayOrder(ps, semantic);
      semantic ==> forall i, j :: 0 <= i < j < |r| ==> SimilarityOrZero(r[i]) >= SimilarityOrZero(r[j])
    ensures var r := DisplayOrder(ps, semantic);
      !semantic ==> forall i, j :: 0 <= i < j < |r| ==> r[i].academicScore >= r[j].academicScore
  {
    var key := if semantic then BySimilarity else ByScore;
    SortByCorrect(ps, key);
    var r := SortBy(ps, key);
    forall i, j | 0 <= i < j < |r|
      ensures semantic ==> SimilarityOrZero(r[i]) >= SimilarityOrZero(r[j])
      ensures !semantic ==> r[i].academicScore >= r[j].academicScore
    {
      assert LexLe(key(r[i]), key(r[j]));
      SingleKeyLe(key(r[i])[0], key(r[j])[0]);
    }
  }
}

=== FILE: downloader.dfy ===
/** Installing and removing the downloadable full dictionary
    (src/lib/dictionary-downloader.js). The fetch, the gzip stream and JSON
    parsing are outside the model: `Download` receives the parsed entries. */
module Downloader {
  import opened Wrappers
  import opened Entries
  import opened DictStore
  import opened JsText
  import Maps

  /** `this.currentVersion`. */
  const CURRENT_VERSION: string := "0.2.0"
  /** The advertised entry count of the full dictionary. */
  const FULL_COUNT: int := 768739
  /** The entry count reported for the built-in tier 1. */
  const BUILTIN_COUNT: int := 7406
  /** Import progress is reported after every this many entries. */
  const REPORT_EVERY: nat := 1000

  /** The record `store.put({ ...entry, _tier: tier })` writes. */
  function TaggedWith(tier: string): Entry -> Stored {
    e => Stored(e, Some(tier))
  }

  /** The dictionary store after putting every entry of `data`, in order,
      under its `word` with `_tier` = `tier`. */
  function ImportedRecords(records: map<string, Stored>, data: seq<Entry>, tier: string): map<string, Stored>
    decreases |data|
  {
    if |data| == 0 then records
    else ImportedRecords(records[data[0].word := Stored(data[0], Some(tier))], data[1..], tier)
  }

  /** The import is the generic batch write with the tier-tagging record. */
  lemma {:induction false} ImportedIsPutAll(records: map<string, Stored>, data: seq<Entry>, tier: string)
    ensures ImportedRecords(records, data, tier) == Maps.PutAll(records, data, WordOf, TaggedWith(tier))
    decreases |data|
  {
    if |data| > 0 {
      ImportedIsPutAll(records[data[0].word := Stored(data[0], Some(tier))], data[1..], tier);
    }
  }

  /** An importing progress event. */
  datatype Progress = Progress(imported: nat, total: nat, percent: int)

  /** The events fired while the first `upto` entries of `n` are imported:
      one at every multiple of 1000, with the percentage rounded down. */
  function ImportReports(n: nat, upto: nat): seq<Progress>
    requires upto <= n
  {
    if upto == 0 then []
    else
      var event := if upto % REPORT_EVERY == 0 then [Progress(upto, n, upto * 100 / n)] else [];
      ImportReports(n, upto - 1) + event
  }

  /** The `k`-th event reports the `(k+1)`-thousandth entry, against the
      full count, with a percentage between 0 and 100. */
  lemma {:induction false} ImportReportsShape(n: nat, upto: nat)
    requires upto <= n
    ensures |ImportReports(n, upto)| == upto / REPORT_EVERY
    ensures forall k :: 0 <= k < |ImportReports(n, upto)| ==>
      var p := ImportReports(n, upto)[k];
      p.imported == REPORT_EVERY * (k + 1) && p.total == n &&
      p.percent == p.imported * 100 / n && 0 <= p.percent <= 100
  {
    if upto > 0 {
      ImportReportsShape(n, upto - 1);
      if upto % REPORT_EVERY == 0 {
        assert upto / REPORT_EVERY == (upto - 1) / REPORT_EVERY + 1;
        assert upto == REPORT_EVERY * ((upto - 1) / REPORT_EVERY + 1);
        PercentBound(upto, n);
      } else {
        assert upto / REPORT_EVERY == (upto - 1) / REPORT_EVERY;
      }
    }
  }

  lemma PercentBound(i: nat, n: nat)
    requires 0 < i <= n
    ensures 0 <= i * 100 / n <= 100
  {
    assert i * 100 <= n * 100;
  }

  /** `_importToIndexedDB(tier, data, progressCallback)`: puts every entry
      with its tier tag and returns the progress events it fires, ending
      with the completion event (all imported, 100%). */
  method ImportToStore(db: Db, tier: string, data: seq<Entry>) returns (db': Db, reports: seq<Progress>)
    ensures db' == db.(records := ImportedRecords(db.records, data, tier))
    ensures reports == ImportReports(|data|, |data|) + [Progress(|data|, |data|, 100)]
  {
    var records := db.records;
    var imported := 0;
    reports := [];
    while imported < |data|
      invariant imported <= |data|
      invariant ImportedRecords(records, data[imported..], tier) == ImportedRecords(db.records, data, tier)
      invariant reports == ImportReports(|data|, imported)
    {
      var entry := data[imported];
      assert data[imported..][1..] == data[imported + 1..];
      records := records[entry.word := Stored(entry, Some(tier))];
      imported := imported + 1;
      if imported % REPORT_EVERY == 0 {
        reports := reports + [Progress(imported, |data|, imported * 100 / |data|)];
      }
    }
    assert data[imported..] == [];
    db' := db.(records := records);
    reports := reports + [Progress(|data|, |data|, 100)];
  }

  /** The stored metadata after a successful install. */
  function InstalledMeta(count: nat): Meta {
    Meta(Some(true), count, Some(CURRENT_VERSION))
  }

  /** The database after `download(tier)` has imported `data` and saved
      its metadata. */
  function Install(db: Db, tier: string, data: seq<Entry>): Db {
    db.(records := ImportedRecords(db.records, data, tier),
        metadata := db.metadata[tier := InstalledMeta(|data|)])
  }

  datatype Installation = Installation(db: Db, count: nat, reports: seq<Progress>)

  /** `download(tier, progressCallback)` once the file has been fetched and
      parsed into `data`: only the tier "full" is known; any other tier is
      rejected before anything is fetched or written. */
  method Download(db: Db, tier: string, data: seq<Entry>) returns (r: Result<Installation, string>)
    ensures tier != "full" <==> r.Err?
    ensures r.Ok? ==> r.value.db == Install(db, tier, data) && r.value.count == |data|
    ensures r.Ok? ==> |r.value.reports| == |data| / REPORT_EVERY + 1
  {
    if tier != "full" {
      return Err("unknown dictionary tier: " + tier);
    }
    var db', reports := ImportToStore(db, tier, data);
    ImportReportsShape(|data|, |data|);
    db' := db'.(metadata := db'.metadata[tier := InstalledMeta(|data|)]);
    return Ok(Installation(db', |data|, reports));
  }

  /** After an import every entry's word holds the last entry with that word,
      tagged with the tier, and every other record is untouched. */
  lemma ImportedFacts(records: map<string, Stored>, data: seq<Entry>, tier: string)
    ensures var r := ImportedRecords(records, data, tier);
      r.Keys == records.Keys + Maps.KeySet(data, WordOf) &&
      (forall i :: 0 <= i < |data| && Maps.LastWithKey(data, WordOf, i) ==>
        r[data[i].word] == Stored(data[i], Some(tier))) &&
      (forall k :: k in records && k !in Maps.KeySet(data, WordOf) ==> r[k] == records[k])
  {
    ImportedIsPutAll(records, data, tier);
  }

  /** `uninstall(tier)`: deletes every record tagged with the tier (records
      without a tag never match) and the tier's metadata. */
  function Uninstall(db: Db, tier: string): (r: Db)
    ensures r.faults == db.faults
  {
    db.(records := map k | k in db.records && db.records[k].tier != Some(tier) :: db.records[k],
        metadata := db.metadata - {tier})
  }

  /** Uninstalling removes exactly the records of that tier and its metadata
      and leaves every other record and metadata entry as it was. */
  lemma UninstallExactly(db: Db, tier: string, k: string)
    ensures var r := Uninstall(db, tier);
      (k in r.records <==> k in db.records && db.records[k].tier != Some(tier)) &&
      (k in r.records ==> r.records[k] == db.records[k]) &&
      (k in r.metadata <==> k in db.metadata && k != tier) &&
      (k in r.metadata ==> r.metadata[k] == db.metadata[k])
  {
  }

  /** Installing then uninstalling the same tier leaves exactly the records
      that were neither tagged with the tier nor overwritten by the import,
      and no metadata for the tier. */
  lemma InstallThenUninstall(db: Db, tier: string, data: seq<Entry>)
    ensures var r := Uninstall(Install(db, tier, data), tier);
      r.records == (map k | k in db.records && db.records[k].tier != Some(tier) &&
                            k !in Maps.KeySet(data, WordOf) :: db.records[k]) &&
      tier !in r.metadata &&
      IsInstalled(r, tier) == Some(false)
  {
    var i := Install(db, tier, data);
    ImportedFacts(db.records, data, tier);
    var r := Uninstall(i, tier);
    forall k | k in Maps.KeySet(data, WordOf) ensures k in i.records && i.records[k].tier == Some(tier) {
      var j := LastIndexWith(data, k);
    }
  }

  /** The position of the last entry filed under `k`. */
  lemma LastIndexWith(data: seq<Entry>, k: string) returns (j: nat)
    requires k in Maps.KeySet(data, WordOf)
    ensures j < |data| && data[j].word == k && Maps.LastWithKey(data, WordOf, j)
  {
    var i :| 0 <= i < |data| && WordOf(data[i]) == k;
    j := i;
    while j + 1 < |data| && exists m :: j < m < |data| && data[m].word == k
      invariant j < |data| && data[j].word == k
      decreases |data| - j
    {
      var m :| j < m < |data| && data[m].word == k;
      j := m;
    }
    if j + 1 >= |data| {
      assert Maps.LastWithKey(data, WordOf, j);
    }
  }

  /** `isInstalled(tier)`: `meta ? meta.installed : false`; the value may be
      absent (undefined) on a metadata record without the field. */
  function IsInstalled(db: Db, tier: string): Option<bool> {
    if tier in db.metadata then db.metadata[tier].installed else Some(false)
  }

  /** A tier counts as installed exactly when its metadata says so. */
  lemma IsInstalledTruthy(db: Db, tier: string)
    ensures IsInstalled(db, tier) == Some(true) <==>
      tier in db.metadata && db.metadata[tier].installed == Some(true)
    ensures tier !in db.metadata ==> IsInstalled(db, tier) == Some(false)
  {
  }

  /** After an install the tier is installed and `getStatus` reports the
      imported count. */
  lemma InstallIsInstalled(db: Db, data: seq<Entry>)
    ensures IsInstalled(Install(db, "full", data), "full") == Some(true)
    ensures GetStatus(Install(db, "full", data)).fullCount == |data|
  {
  }

  datatype Status = Status(
    tier1Installed: bool, tier1Builtin: bool, tier1Count: int,
    fullInstalled: Option<bool>, fullBuiltin: bool, fullCount: int, fullVersion: Option<string>)

  /** `getStatus()`: tier 1 is always built in; the full tier reads its
      metadata, falling back to "not installed" and the advertised count. */
  function GetStatus(db: Db): (s: Status)
    ensures s.tier1Installed && s.tier1Builtin && s.tier1Count == BUILTIN_COUNT && !s.fullBuiltin
    ensures "full" !in db.metadata ==>
      s.fullInstalled == Some(false) && s.fullCount == FULL_COUNT && s.fullVersion.None?
    ensures "full" in db.metadata ==> s.fullCount == db.metadata["full"].count
  {
    var meta := if "full" in db.metadata then Some(db.metadata["full"]) else None;
    Status(true, true, BUILTIN_COUNT,
      if meta.Some? then meta.value.installed else Some(false),
      false,
      if meta.Some? then meta.value.count else FULL_COUNT,
      if meta.Some? then meta.value.version else None)
  }

  /** `checkUpdate()`'s `remoteInfo.version > this.currentVersion`: a string
      comparison by code units, not a version comparison. */
  predicate HasUpdate(remote: string) {
    JsLess(CURRENT_VERSION, remote)
  }

  /** A remote version is an update exactly when the current version's code
      units are a proper prefix of its own, or are smaller at the first
      position where the two differ. */
  lemma HasUpdateIff(remote: string)
    ensures HasUpdate(remote) <==> PrefixOrFirstDiffLess(CodeUnits(CURRENT_VERSION), CodeUnits(remote))
  {
    UnitsLessIff(CodeUnits(CURRENT_VERSION), CodeUnits(remote));
  }

  /** Anything appended to the current version reads as an update, so a
      pre-release tag such as "0.2.0-beta" is offered as newer. */
  lemma ExtendedIsUpdate(suffix: string)
    requires suffix != ""
    ensures HasUpdate(CURRENT_VERSION + suffix)
  {
    var x := CodeUnits(CURRENT_VERSION);
    CodeUnitsAppend(CURRENT_VERSION, suffix);
    assert |CodeUnits(suffix)| > 0 by {
      Utf16LenUnits(suffix);
    }
    var y := x + CodeUnits(suffix);
    assert y[..|x|] == x;
    UnitsLessIff(x, y);
  }

  /** The comparison is strict and character-wise: the same version is not
      an update, "0.3.0" is, and "0.10.0" is not because '1' < '2'. */
  lemma HasUpdateExamples()
    ensures !HasUpdate(CURRENT_VERSION)
    ensures HasUpdate("0.3.0")
    ensures !HasUpdate("0.10.0")
  {
    UnitsLessStrict(CodeUnits(CURRENT_VERSION), CodeUnits(CURRENT_VERSION));
    NewerPatch();
    OlderByText();
  }

  lemma NewerPatch()
    ensures HasUpdate("0.3.0")
  {
    assert CodeUnits("0.2.0") == ['0' as int, '.' as int, '2' as int, '.' as int, '0' as int];
    assert CodeUnits("0.3.0") == ['0' as int, '.' as int, '3' as int, '.' as int, '0' as int];
  }

  lemma OlderByText()
    ensures !HasUpdate("0.10.0")
  {
    assert CodeUnits("0.2.0") == ['0' as int, '.' as int, '2' as int, '.' as int, '0' as int];
    assert CodeUnits("0.10.0") == ['0' as int, '.' as int, '1' as int, '0' as int, '.' as int, '0' as int];
  }
}

=== FILE: ecdict.dfy ===
/** Normalising one row of the ECDICT CSV into an `Entry`
    (`cleanEntry` in scripts/process-ecdict.js). */
module Ecdict {
  import opened Wrappers
  import opened Seqs
  import opened Text
  import opened JsText
  import opened JsNumber
  import opened OrderedMap
  import opened Entries

  /** A CSV row as the parser yields it: `word` is the first column and
      always present; any other column may be missing from a short row. */
  datatype RawRecord = RawRecord(
    word: string,
    phonetic: Option<string>,
    definition: Option<string>,
    translation: Option<string>,
    pos: Option<string>,
    collins: Option<string>,
    oxford: Option<string>,
    tag: Option<string>,
    bnc: Option<string>,
    frq: Option<string>,
    exchange: Option<string>)

  /** `field || ''`. */
  function TextOf(field: Option<string>): string {
    field.GetOr("")
  }

  // ---------------------------------------------------------------------
  // Word forms

  /** The one-letter form codes ECDICT uses, and the names they are stored under. */
  const CODES: seq<string> := ["p", "d", "3", "i", "0", "1", "s"]

  /** The stored name of a form code; an unknown code is kept as it is. */
  function KindName(code: string): (name: string)
    ensures code !in CODES ==> name == code
  {
    if code == "p" then "plural"
    else if code == "d" then "past"
    else if code == "3" then "thirdPerson"
    else if code == "i" then "presentParticiple"
    else if code == "0" then "original"
    else if code == "1" then "comparative"
    else if code == "s" then "superlative"
    else code
  }

  /** The code a stored name comes from. */
  function KindCode(name: string): string {
    if name == "plural" then "p"
    else if name == "past" then "d"
    else if name == "thirdPerson" then "3"
    else if name == "presentParticiple" then "i"
    else if name == "original" then "0"
    else if name == "comparative" then "1"
    else if name == "superlative" then "s"
    else name
  }

  /** Every name that is not itself a code comes from exactly the code
      `KindCode` gives. */
  lemma KindNameCode(name: string)
    requires name !in CODES
    ensures KindName(KindCode(name)) == name
  {
    if name == "plural" {
    } else if name == "past" {
    } else if name == "thirdPerson" {
    } else if name == "presentParticiple" {
    } else if name == "original" {
    } else if name == "comparative" {
    } else if name == "superlative" {
    } else {
      assert KindCode(name) == name;
    }
  }

  /** `part.split(':')` destructured as `[type, value]`: the first two
      fields, the second missing (here "") when there is no colon. */
  function PartPair(part: string): (string, string) {
    var f := SplitOn(part, ':');
    (f[0], if |f| > 1 then f[1] else "")
  }

  /** One loop step: a pair with a non-empty code and value is stored under
      the code's name, replacing an earlier value for that name. */
  function AddPart(acc: OMap<string, string>, part: string): OMap<string, string> {
    var (code, value) := PartPair(part);
    if code != "" && value != "" then Put(acc, KindName(code), value) else acc
  }

  function ParseParts(parts: seq<string>): OMap<string, string> {
    if |parts| == 0 then [] else AddPart(ParseParts(parts[..|parts| - 1]), parts[|parts| - 1])
  }

  /** A later pair for the same form replaces the earlier value; a pair
      with an empty code or value changes nothing. */
  lemma ParsePartsLastWins(parts: seq<string>, part: string, j: string)
    ensures var (code, value) := PartPair(part);
      Get(ParseParts(parts + [part]), j) ==
        if code != "" && value != "" && j == KindName(code) then Some(value)
        else Get(ParseParts(parts), j)
  {
    var (code, value) := PartPair(part);
    assert (parts + [part])[..|parts|] == parts;
    GetPut(ParseParts(parts), KindName(code), value, j);
  }

  /** The `exchange` column: empty or missing gives no forms; otherwise the
      '/'-separated `code:value` pairs in order. */
  function ParseExchange(field: Option<string>): OMap<string, string> {
    if field.None? || field.value == "" then [] else ParseParts(SplitOn(field.value, '/'))
  }

  /** What a parsed form map holds: distinct names, and for every form a
      non-empty name and a non-empty value free of both separators. */
  ghost predicate CleanForms(m: OMap<string, string>) {
    Valid(m) &&
    forall i :: 0 <= i < |m| ==> m[i].0 != "" && m[i].1 != "" && '/' !in m[i].1 && ':' !in m[i].1
  }

  lemma ParseExchangeClean(field: Option<string>)
    ensures CleanForms(ParseExchange(field))
  {
    if field.Some? && field.value != "" {
      var parts := SplitOn(field.value, '/');
      ParsePartsClean(parts);
    }
  }

  lemma {:induction false} ParsePartsClean(parts: seq<string>)
    requires forall k :: 0 <= k < |parts| ==> '/' !in parts[k]
    ensures CleanForms(ParseParts(parts))
  {
    if |parts| > 0 {
      var init := parts[..|parts| - 1];
      var part := parts[|parts| - 1];
      ParsePartsClean(init);
      var acc := ParseParts(init);
      var (code, value) := PartPair(part);
      if code != "" && value != "" {
        SplitOnKeeps(part, ':', '/');
        assert '/' !in value && ':' !in value;
        assert KindName(code) != "";
        PutValid(acc, KindName(code), value);
        PutPairs(acc, KindName(code), value);
      }
    }
  }

  /** Pairs of a `Put` result come from the map or are the new pair. */
  lemma {:induction false} PutPairs<K, V>(m: OMap<K, V>, k: K, v: V)
    ensures forall i :: 0 <= i < |Put(m, k, v)| ==> Put(m, k, v)[i] == (k, v) || Put(m, k, v)[i] in m
  {
    if |m| > 0 && m[0].0 != k {
      PutPairs(m[1..], k, v);
    }
  }

  // ---------------------------------------------------------------------
  // Writing forms back, the inverse the parse is checked against

  /** One stored form written as `code:value`. */
  function EncodePart(p: (string, string)): string {
    KindCode(p.0) + ":" + p.1
  }

  /** A form map written as an `exchange` column. */
  function ExchangeText(m: OMap<string, string>): string {
    Join(MapSeq(m, EncodePart), "/")
  }

  /** A form that survives being written and read back: a name that is
      not a bare code, a non-empty value, and no separator in either. */
  predicate WritablePair(p: (string, string)) {
    p.0 != "" && p.0 !in CODES && ':' !in p.0 && '/' !in p.0 &&
    p.1 != "" && ':' !in p.1 && '/' !in p.1
  }

  /** A form map that survives being written and read back: distinct names
      and writable forms. */
  ghost predicate Writable(m: OMap<string, string>) {
    Valid(m) && forall i :: 0 <= i < |m| ==> WritablePair(m[i])
  }

  /** A known name's code is one letter; any other name is its own code. */
  lemma KindCodeShape(name: string)
    ensures KindCode(name) == name || |KindCode(name)| == 1
    ensures KindCode(name) != "" <== name != ""
  {
  }

  /** Reading one written form gives back its code and value. */
  lemma PartPairEncoded(p: (string, string))
    requires p.0 != "" && ':' !in p.0 && '/' !in p.0 && ':' !in p.1
    ensures PartPair(EncodePart(p)) == (KindCode(p.0), p.1)
    ensures '/' !in EncodePart(p) <== '/' !in p.1
  {
    var code := KindCode(p.0);
    KindCodeShape(p.0);
    assert ':' !in code && '/' !in code by {
      if code != p.0 {
        assert code == [code[0]];
      }
    }
    assert Join([code, p.1], ":") == EncodePart(p);
    SplitOnJoin([code, p.1], ':');
  }

  /** Writing a form map and reading it back gives the same map, in the same
      order. */
  lemma ExchangeRoundTrip(m: OMap<string, string>)
    requires Writable(m)
    ensures ParseExchange(Some(ExchangeText(m))) == m
  {
    if |m| > 0 {
      var parts := MapSeq(m, EncodePart);
      forall k | 0 <= k < |parts| ensures '/' !in parts[k] {
        PartPairEncoded(m[k]);
      }
      SplitOnJoin(parts, '/');
      assert ExchangeText(m) != "" by {
        JoinNonEmpty(parts, "/");
        PartPairEncoded(m[0]);
      }
      ParsePartsEncoded(m);
    }
  }

  /** A join of a non-empty first part is non-empty. */
  lemma JoinNonEmpty(xs: seq<string>, sep: string)
    requires |xs| > 0 && xs[0] != ""
    ensures Join(xs, sep) != ""
  {
  }

  lemma {:induction false} ParsePartsEncoded(m: OMap<string, string>)
    requires Writable(m)
    ensures ParseParts(MapSeq(m, EncodePart)) == m
  {
    if |m| > 0 {
      var init := m[..|m| - 1];
      var p := m[|m| - 1];
      assert m == init + [p];
      var parts := MapSeq(m, EncodePart);
      assert parts[..|parts| - 1] == MapSeq(init, EncodePart);
      WritableInit(m);
      ParsePartsEncoded(init);
      AddPartEncoded(init, p);
    }
  }

  /** Dropping the last form keeps a map writable, and that form's name is
      not among the others. */
  lemma WritableInit(m: OMap<string, string>)
    requires Writable(m) && |m| > 0
    ensures Writable(m[..|m| - 1])
    ensures m[|m| - 1].0 !in Keys(m[..|m| - 1])
  {
    KeysPrefix(m, |m| - 1);
    DistinctPrefix(Keys(m), |m| - 1);
  }

  /** Reading a written form with a new name appends it. */
  lemma AddPartEncoded(acc: OMap<string, string>, p: (string, string))
    requires WritablePair(p) && p.0 !in Keys(acc)
    ensures AddPart(acc, EncodePart(p)) == acc + [p]
  {
    PartPairEncoded(p);
    KindNameCode(p.0);
    PutNew(acc, p.0, p.1);
  }

  // ---------------------------------------------------------------------
  // Tags

  predicate NonEmptyText(t: string) {
    t != ""
  }

  /** The `tag` column: `split(' ')` with the empty pieces dropped. */
  function ParseTags(field: Option<string>): (r: seq<string>)
    ensures forall k :: 0 <= k < |r| ==> r[k] != "" && ' ' !in r[k]
  {
    if field.None? || field.value == "" then []
    else
      var pieces := SplitOn(field.value, ' ');
      FilterPieces(pieces);
      Filter(pieces, NonEmptyText)
  }

  lemma FilterPieces(pieces: seq<string>)
    requires forall k :: 0 <= k < |pieces| ==> ' ' !in pieces[k]
    ensures var r := Filter(pieces, NonEmptyText);
      forall k :: 0 <= k < |r| ==> r[k] != "" && ' ' !in r[k]
  {
    var r := Filter(pieces, NonEmptyText);
    FilterByMembers(pieces, NonEmptyText, true);
    forall k | 0 <= k < |r| ensures r[k] != "" && ' ' !in r[k] {
      assert r[k] in pieces;
      var j :| 0 <= j < |pieces| && pieces[j] == r[k];
    }
  }

  /** Writing tags space-separated and reading them back gives the same
      list, in order. */
  lemma TagsRoundTrip(tags: seq<string>)
    requires forall k :: 0 <= k < |tags| ==> tags[k] != "" && ' ' !in tags[k]
    ensures ParseTags(Some(Join(tags, " "))) == tags
  {
    if |tags| > 0 {
      JoinNonEmpty(tags, " ");
      SplitOnJoin(tags, ' ');
      FilterByAll(tags, NonEmptyText, true);
    }
  }

  // ---------------------------------------------------------------------
  // The whole row

  /** `cleanEntry(record)`. */
  function CleanEntry(r: RawRecord): Entry {
    Entry(
      word := Trim(r.word),
      phonetic := TextOf(r.phonetic),
      definition := TextOf(r.definition),
      translation := TextOf(r.translation),
      pos := TextOf(r.pos),
      collins := IntOrZero(r.collins),
      oxford := r.oxford == Some("TRUE"),
      tags := ParseTags(r.tag),
      bnc := IntOrZero(r.bnc),
      frq := IntOrZero(r.frq),
      exchange := ParseExchange(r.exchange))
  }

  /** What every cleaned entry satisfies: a trimmed word, clean tags and a
      clean form map; `oxford` only from the exact text "TRUE"; a count
      column that does not start with a number reads as 0. */
  lemma CleanEntryShape(r: RawRecord)
    ensures var e := CleanEntry(r);
      (|e.word| > 0 ==> !IsJsSpace(e.word[0]) && !IsJsSpace(e.word[|e.word| - 1])) &&
      (e.word == "" <==> AllIn(r.word, IsJsSpace)) &&
      (forall k :: 0 <= k < |e.tags| ==> e.tags[k] != "" && ' ' !in e.tags[k]) &&
      CleanForms(e.exchange) &&
      (e.oxford <==> r.oxford == Some("TRUE")) &&
      (r.collins.None? || ParseInt(r.collins.value).None? ==> e.collins == 0)
  {
    ParseExchangeClean(r.exchange);
  }

  /** An entry written back as a row: counts in decimal, `oxford` as
      TRUE/FALSE, tags space-separated, forms as `code:value` pairs. */
  function Render(e: Entry): RawRecord {
    RawRecord(
      word := e.word,
      phonetic := Some(e.phonetic),
      definition := Some(e.definition),
      translation := Some(e.translation),
      pos := Some(e.pos),
      collins := Some(IntText(e.collins)),
      oxford := Some(if e.oxford then "TRUE" else "FALSE"),
      tag := Some(Join(e.tags, " ")),
      bnc := Some(IntText(e.bnc)),
      frq := Some(IntText(e.frq)),
      exchange := Some(ExchangeText(e.exchange)))
  }

  /** The entries a row can carry unchanged through cleaning. */
  ghost predicate Representable(e: Entry) {
    (|e.word| > 0 ==> !IsJsSpace(e.word[0]) && !IsJsSpace(e.word[|e.word| - 1])) &&
    (forall k :: 0 <= k < |e.tags| ==> e.tags[k] != "" && ' ' !in e.tags[k]) &&
    Writable(e.exchange)
  }

  /** Cleaning a rendered entry gives the entry back. */
  lemma CleanEntryRoundTrip(e: Entry)
    requires Representable(e)
    ensures CleanEntry(Render(e)) == e
  {
    var r := Render(e);
    TrimByFixed(e.word, IsJsSpace);
    TagsRoundTrip(e.tags);
    ExchangeRoundTrip(e.exchange);
    IntRoundTrip(e.collins);
    IntRoundTrip(e.bnc);
    IntRoundTrip(e.frq);
  }

  /** A rendered count column reads back as the count. */
  lemma IntRoundTrip(i: int)
    ensures IntOrZero(Some(IntText(i))) == i
  {
    ParseIntText(i, "");
    assert IntText(i) + "" == IntText(i);
  }
}

=== FILE: entry.dfy ===
/** A dictionary entry as the ECDICT pipeline produces it and the extension
    stores and displays it. */
module Entries {
  import opened OrderedMap
  import opened Text

  datatype Entry = Entry(
    word: string,
    phonetic: string,
    definition: string,
    translation: string,
    pos: string,
    collins: int,
    oxford: bool,
    tags: seq<string>,
    bnc: int,
    frq: int,
    /** Word forms by kind ("plural", "past", ...), in insertion order. */
    exchange: OMap<string, string>)

  predicate HasTag(e: Entry, t: string) {
    t in e.tags
  }

  /** The key the persistent store files an entry under. */
  function WordOf(e: Entry): string {
    e.word
  }

  /** The key the in-memory cache and the full dictionary use,
      `word.toLowerCase()`. */
  function LowerWord(e: Entry): string {
    Lower(e.word)
  }
}

=== FILE: full_dictionary.dfy ===
/** Merging the three tiers into one dictionary keyed by the lowercased word
    (scripts/build-full-dictionary.js): tier 1 always wins, tiers 2 and 3
    only fill gaps, every entry is tagged with its tier, and the result is
    ranked by Collins stars and BNC rank. */
module FullDictionary {
  import opened Wrappers
  import opened Seqs
  import opened Text
  import opened OrderedMap
  import opened Sorting
  import opened Entries
  import opened Tiers

  /** `{ ...entry, _tier: tier }`. */
  datatype Tagged = Tagged(entry: Entry, tier: nat)

  /** One tier-1 step: `fullDict.set(key, ...)`, overwriting. */
  function SetAll(m: OMap<string, Tagged>, xs: seq<Entry>, tier: nat): OMap<string, Tagged> {
    if |xs| == 0 then m
    else
      var x := xs[|xs| - 1];
      Put(SetAll(m, xs[..|xs| - 1], tier), LowerWord(x), Tagged(x, tier))
  }

  /** A tier-2 or tier-3 loop: `if (!fullDict.has(key)) fullDict.set(...)`. */
  function AddMissing(m: OMap<string, Tagged>, xs: seq<Entry>, tier: nat): OMap<string, Tagged> {
    if |xs| == 0 then m
    else
      var x := xs[|xs| - 1];
      PutIfAbsent(AddMissing(m, xs[..|xs| - 1], tier), LowerWord(x), Tagged(x, tier))
  }

  function Merge(t1: seq<Entry>, t2: seq<Entry>, t3: seq<Entry>): OMap<string, Tagged> {
    AddMissing(AddMissing(SetAll([], t1, 1), t2, 2), t3, 3)
  }

  /** The final comparator: more Collins stars first, then lower BNC rank
      with unranked entries last. */
  function FullKey(t: Tagged): seq<real> {
    [-(t.entry.collins as real), RankOrLast(t.entry.bnc) as real]
  }

  /** `Array.from(fullDict.values())` sorted by the final comparator. */
  function Build(t1: seq<Entry>, t2: seq<Entry>, t3: seq<Entry>): seq<Tagged> {
    SortBy(Values(Merge(t1, t2, t3)), FullKey)
  }

  // ---------------------------------------------------------------------
  // Reference definitions: which entry a key ends up with

  /** The last entry of `xs` with merge key `k`. */
  function LastWith(xs: seq<Entry>, k: string): (r: Option<Entry>)
    ensures r.Some? ==> r.value in xs && LowerWord(r.value) == k
    ensures r.None? ==> k !in MapSeq(xs, LowerWord)
  {
    if |xs| == 0 then None
    else if LowerWord(xs[|xs| - 1]) == k then Some(xs[|xs| - 1])
    else
      var r := LastWith(xs[..|xs| - 1], k);
      assert r.None? ==> MapSeq(xs, LowerWord) == MapSeq(xs[..|xs| - 1], LowerWord) + [LowerWord(xs[|xs| - 1])];
      r
  }

  /** The first entry of `xs` with merge key `k`. */
  function FirstWith(xs: seq<Entry>, k: string): (r: Option<Entry>)
    ensures r.Some? ==> r.value in xs && LowerWord(r.value) == k
    ensures r.None? ==> k !in MapSeq(xs, LowerWord)
  {
    if |xs| == 0 then None
    else if LowerWord(xs[0]) == k then Some(xs[0])
    else
      var r := FirstWith(xs[1..], k);
      assert r.None? ==> MapSeq(xs, LowerWord) == [LowerWord(xs[0])] + MapSeq(xs[1..], LowerWord);
      r
  }

  lemma {:induction false} FirstWithSnoc(xs: seq<Entry>, x: Entry, k: string)
    ensures FirstWith(xs + [x], k) ==
      if FirstWith(xs, k).Some? then FirstWith(xs, k)
      else if LowerWord(x) == k then Some(x) else None
  {
    if |xs| > 0 {
      assert (xs + [x])[1..] == xs[1..] + [x];
      FirstWithSnoc(xs[1..], x, k);
    }
  }

  /** `FirstWithSnoc` for a sequence given whole. */
  lemma FirstWithLast(xs: seq<Entry>, k: string)
    requires |xs| > 0
    ensures FirstWith(xs, k) ==
      if FirstWith(xs[..|xs| - 1], k).Some? then FirstWith(xs[..|xs| - 1], k)
      else if LowerWord(xs[|xs| - 1]) == k then Some(xs[|xs| - 1]) else None
  {
    assert xs == xs[..|xs| - 1] + [xs[|xs| - 1]];
    FirstWithSnoc(xs[..|xs| - 1], xs[|xs| - 1], k);
  }

  function WithTier(e: Option<Entry>, tier: nat): Option<Tagged> {
    if e.Some? then Some(Tagged(e.value, tier)) else None
  }

  /** What the merged dictionary holds under `k`: the last tier-1 entry with
      that key, else the first tier-2 one, else the first tier-3 one. */
  function Expected(t1: seq<Entry>, t2: seq<Entry>, t3: seq<Entry>, k: string): Option<Tagged> {
    if LastWith(t1, k).Some? then WithTier(LastWith(t1, k), 1)
    else if FirstWith(t2, k).Some? then WithTier(FirstWith(t2, k), 2)
    else WithTier(FirstWith(t3, k), 3)
  }

  // ---------------------------------------------------------------------
  // Lookup through the merge

  lemma {:induction false} SetAllGet(m: OMap<string, Tagged>, xs: seq<Entry>, tier: nat, k: string)
    ensures Get(SetAll(m, xs, tier), k) ==
      if LastWith(xs, k).Some? then WithTier(LastWith(xs, k), tier) else Get(m, k)
  {
    if |xs| > 0 {
      var x := xs[|xs| - 1];
      SetAllGet(m, xs[..|xs| - 1], tier, k);
      GetPut(SetAll(m, xs[..|xs| - 1], tier), LowerWord(x), Tagged(x, tier), k);
    }
  }

  lemma {:induction false} AddMissingGet(m: OMap<string, Tagged>, xs: seq<Entry>, tier: nat, k: string)
    ensures Get(AddMissing(m, xs, tier), k) ==
      if Get(m, k).Some? then Get(m, k) else WithTier(FirstWith(xs, k), tier)
  {
    if |xs| > 0 {
      var init := xs[..|xs| - 1];
      var x := xs[|xs| - 1];
      AddMissingGet(m, init, tier, k);
      FirstWithLast(xs, k);
      var acc := AddMissing(m, init, tier);
      if LowerWord(x) !in Keys(acc) {
        GetPut(acc, LowerWord(x), Tagged(x, tier), k);
      } else if LowerWord(x) == k {
        assert Get(acc, k).Some?;
      }
    }
  }

  /** Priority: every key maps to the entry the reference definition picks,
      so a lower tier never displaces a higher one, the last tier-1
      duplicate wins, and within tiers 2 and 3 the first occurrence wins. */
  lemma MergeGet(t1: seq<Entry>, t2: seq<Entry>, t3: seq<Entry>, k: string)
    ensures Get(Merge(t1, t2, t3), k) == Expected(t1, t2, t3, k)
  {
    var m1 := SetAll([], t1, 1);
    var m2 := AddMissing(m1, t2, 2);
    SetAllGet([], t1, 1, k);
    AddMissingGet(m1, t2, 2, k);
    AddMissingGet(m2, t3, 3, k);
  }

  /** Every stored value is tagged with the tier it came from and is an
      entry of that tier whose lowercased word is its key. */
  lemma MergeTagged(t1: seq<Entry>, t2: seq<Entry>, t3: seq<Entry>, i: nat)
    requires i < |Merge(t1, t2, t3)|
    ensures var (k, v) := Merge(t1, t2, t3)[i];
      LowerWord(v.entry) == k &&
      ((v.tier == 1 && v.entry in t1) || (v.tier == 2 && v.entry in t2) || (v.tier == 3 && v.entry in t3))
  {
    var m := Merge(t1, t2, t3);
    MergeValid(t1, t2, t3);
    GetOfMember(m, i);
    MergeGet(t1, t2, t3, m[i].0);
  }

  // ---------------------------------------------------------------------
  // Keys

  lemma {:induction false} SetAllKeys(m: OMap<string, Tagged>, ys: seq<string>, xs: seq<Entry>, tier: nat)
    requires Keys(m) == Dedup(ys)
    ensures Keys(SetAll(m, xs, tier)) == Dedup(ys + MapSeq(xs, LowerWord))
  {
    if |xs| > 0 {
      var init := xs[..|xs| - 1];
      var x := xs[|xs| - 1];
      assert ys + MapSeq(xs, LowerWord) == (ys + MapSeq(init, LowerWord)) + [LowerWord(x)];
      SetAllKeys(m, ys, init, tier);
      DedupSnoc(ys + MapSeq(init, LowerWord), LowerWord(x));
      DedupFacts(ys + MapSeq(init, LowerWord));
    } else {
      assert ys + MapSeq(xs, LowerWord) == ys;
    }
  }

  lemma {:induction false} AddMissingKeys(m: OMap<string, Tagged>, ys: seq<string>, xs: seq<Entry>, tier: nat)
    requires Keys(m) == Dedup(ys)
    ensures Keys(AddMissing(m, xs, tier)) == Dedup(ys + MapSeq(xs, LowerWord))
  {
    if |xs| > 0 {
      var init := xs[..|xs| - 1];
      var x := xs[|xs| - 1];
      assert ys + MapSeq(xs, LowerWord) == (ys + MapSeq(init, LowerWord)) + [LowerWord(x)];
      AddMissingKeys(m, ys, init, tier);
      DedupSnoc(ys + MapSeq(init, LowerWord), LowerWord(x));
      DedupFacts(ys + MapSeq(init, LowerWord));
    } else {
      assert ys + MapSeq(xs, LowerWord) == ys;
    }
  }

  /** The merged keys are the lowercased words of all three tiers, each
      once, in first-seen order. */
  lemma MergeKeys(t1: seq<Entry>, t2: seq<Entry>, t3: seq<Entry>)
    ensures Keys(Merge(t1, t2, t3)) == Dedup(MapSeq(t1 + t2 + t3, LowerWord))
  {
    var w1, w2, w3 := MapSeq(t1, LowerWord), MapSeq(t2, LowerWord), MapSeq(t3, LowerWord);
    MapSeqConcat(t1, t2, LowerWord);
    MapSeqConcat(t1 + t2, t3, LowerWord);
    assert [] + w1 == w1;
    var m1 := SetAll([], t1, 1);
    var m2 := AddMissing(m1, t2, 2);
    SetAllKeys([], [], t1, 1);
    AddMissingKeys(m1, w1, t2, 2);
    AddMissingKeys(m2, w1 + w2, t3, 3);
  }

  lemma MergeValid(t1: seq<Entry>, t2: seq<Entry>, t3: seq<Entry>)
    ensures Valid(Merge(t1, t2, t3))
  {
    MergeKeys(t1, t2, t3);
    DedupFacts(MapSeq(t1 + t2 + t3, LowerWord));
  }

  /** The output holds exactly one entry per distinct lowercased word, ranked
      by the final comparator, and is a reordering of the merged values. */
  lemma BuildCount(t1: seq<Entry>, t2: seq<Entry>, t3: seq<Entry>)
    ensures |Build(t1, t2, t3)| == |set w | w in MapSeq(t1 + t2 + t3, LowerWord)|
    ensures SortedBy(Build(t1, t2, t3), FullKey)
    ensures multiset(Build(t1, t2, t3)) == multiset(Values(Merge(t1, t2, t3)))
  {
    MergeKeys(t1, t2, t3);
    DedupCard(MapSeq(t1 + t2 + t3, LowerWord));
    SortByCorrect(Values(Merge(t1, t2, t3)), FullKey);
  }
}

=== FILE: grouping.dfy ===
/** Grouping a sequence by a key in first-appearance order, as the code does with
    `if (!groups[k]) groups[k] = []; groups[k].push(x)` (JavaScript) and
    `if k not in groups: groups[k] = []` (Python). */
module Grouping {
  import opened Wrappers
  import opened Seqs
  import opened OrderedMap

  function GroupInto<T, K(==)>(m: OMap<K, seq<T>>, x: T, key: T -> K): OMap<K, seq<T>>
  {
    Put(m, key(x), Get(m, key(x)).GetOr([]) + [x])
  }

  function GroupBy<T, K(==)>(xs: seq<T>, key: T -> K): OMap<K, seq<T>>
  {
    if |xs| == 0 then [] else GroupInto(GroupBy(xs[..|xs| - 1], key), xs[|xs| - 1], key)
  }

  /** Group keys are the distinct keys of the input, in order of first appearance. */
  lemma {:induction false} GroupByKeys<T, K>(xs: seq<T>, key: T -> K)
    ensures Keys(GroupBy(xs, key)) == Dedup(MapSeq(xs, key))
  {
    if |xs| > 0 {
      var init := xs[..|xs| - 1];
      GroupByKeys(init, key);
      var ks := MapSeq(xs, key);
      assert ks[..|ks| - 1] == MapSeq(init, key);
      var k := key(xs[|xs| - 1]);
      DedupFacts(MapSeq(init, key));
      assert k in Keys(GroupBy(init, key)) <==> k in Dedup(MapSeq(init, key));
    }
  }

  lemma {:induction false} FilterByAbsent<T, K>(xs: seq<T>, key: T -> K, k: K)
    requires k !in MapSeq(xs, key)
    ensures FilterBy(xs, key, k) == []
  {
    if |xs| > 0 {
      assert MapSeq(xs, key)[0] == key(xs[0]);
      assert MapSeq(xs[1..], key) == MapSeq(xs, key)[1..];
      FilterByAbsent(xs[1..], key, k);
    }
  }

  /** The group under `k` holds exactly the elements with key `k`, in input order. */
  lemma {:induction false} GroupByGet<T, K>(xs: seq<T>, key: T -> K, k: K)
    ensures Get(GroupBy(xs, key), k) ==
            if k in MapSeq(xs, key) then Some(FilterBy(xs, key, k)) else None
  {
    if |xs| > 0 {
      var init := xs[..|xs| - 1];
      var x := xs[|xs| - 1];
      assert xs == init + [x];
      GroupByGet(init, key, k);
      GroupByStep(init, x, key, k);
    }
  }

  lemma GroupByStep<T, K>(init: seq<T>, x: T, key: T -> K, k: K)
    requires Get(GroupBy(init, key), k) ==
             if k in MapSeq(init, key) then Some(FilterBy(init, key, k)) else None
    ensures Get(GroupBy(init + [x], key), k) ==
            if k in MapSeq(init + [x], key) then Some(FilterBy(init + [x], key, k)) else None
  {
    var xs := init + [x];
    assert xs[..|xs| - 1] == init;
    var g := GroupBy(init, key);
    var v := Get(g, key(x)).GetOr([]) + [x];
    assert GroupBy(xs, key) == Put(g, key(x), v);
    GetPut(g, key(x), v, k);
    FilterByAppend(init, x, key, k);
    MapSeqAppend(init, x, key);
    if k == key(x) {
      GroupByStepSame(init, x, key, k);
      assert k in MapSeq(xs, key);
    } else {
      assert k in MapSeq(xs, key) <==> k in MapSeq(init, key);
      assert FilterBy(xs, key, k) == FilterBy(init, key, k);
    }
  }

  /** The group `x` joins: the earlier members of its group, then `x`. */
  lemma GroupByStepSame<T, K>(init: seq<T>, x: T, key: T -> K, k: K)
    requires k == key(x)
    requires Get(GroupBy(init, key), k) ==
             if k in MapSeq(init, key) then Some(FilterBy(init, key, k)) else None
    ensures Get(GroupBy(init, key), k).GetOr([]) + [x] == FilterBy(init, key, k) + [x]
  {
    if k !in MapSeq(init, key) {
      FilterByAbsent(init, key, k);
    }
  }

  lemma {:induction false} SumLensPut<T, K>(m: OMap<K, seq<T>>, k: K, v: seq<T>)
    ensures SumLens(Values(Put(m, k, v))) ==
            SumLens(Values(m)) - |Get(m, k).GetOr([])| + |v|
  {
    if |m| > 0 {
      ValuesHead(m);
      SumLensCons(m[0].1, Values(m[1..]));
      if m[0].0 == k {
        ValuesCons((k, v), m[1..]);
        SumLensCons(v, Values(m[1..]));
      } else {
        var rest := Put(m[1..], k, v);
        SumLensPut(m[1..], k, v);
        ValuesCons(m[0], rest);
        SumLensCons(m[0].1, Values(rest));
      }
    }
  }

  /** Grouping neither loses nor duplicates elements. */
  lemma {:induction false} GroupByCount<T, K>(xs: seq<T>, key: T -> K)
    ensures SumLens(Values(GroupBy(xs, key))) == |xs|
  {
    if |xs| > 0 {
      var init := xs[..|xs| - 1];
      var x := xs[|xs| - 1];
      GroupByCount(init, key);
      SumLensPut(GroupBy(init, key), key(x), Get(GroupBy(init, key), key(x)).GetOr([]) + [x]);
    }
  }

  /** The number of groups is the number of distinct keys. */
  lemma GroupByGroupCount<T, K>(xs: seq<T>, key: T -> K)
    ensures |GroupBy(xs, key)| == |set i | 0 <= i < |xs| :: key(xs[i])|
  {
    GroupByKeys(xs, key);
    DedupCard(MapSeq(xs, key));
    MapSeqImage(xs, key);
  }

  lemma MapSeqImage<T, K>(xs: seq<T>, key: T -> K)
    ensures (set y | y in MapSeq(xs, key)) == (set i | 0 <= i < |xs| :: key(xs[i]))
  {
    var ks := MapSeq(xs, key);
    forall y | y in ks ensures y in (set i | 0 <= i < |xs| :: key(xs[i])) {
      var i :| 0 <= i < |ks| && ks[i] == y;
    }
    forall i | 0 <= i < |xs| ensures key(xs[i]) in ks {
      assert ks[i] == key(xs[i]);
    }
  }
}

=== FILE: js_number.dfy ===
/** JavaScript's `parseInt(s)` without a radix argument, as the ingestion
    script applies it to CSV fields, and the `|| 0` fallback after it. */
module JsNumber {
  import opened Wrappers
  import opened Text
  import opened JsText

  predicate IsDecimalDigit(c: char) {
    '0' <= c <= '9'
  }

  /** The value of `c` as a digit in base `radix` (10 or 16), if it is one. */
  function DigitValue(c: char, radix: nat): (d: Option<nat>)
    ensures d.Some? ==> d.value < radix || (radix < 10 && d.value < 10)
  {
    if '0' <= c <= '9' && (c as int - '0' as int) < radix then Some(c as int - '0' as int)
    else if radix == 16 && 'a' <= c <= 'f' then Some(c as int - 'a' as int + 10)
    else if radix == 16 && 'A' <= c <= 'F' then Some(c as int - 'A' as int + 10)
    else None
  }

  /** Length of the longest prefix of `s` made of base-`radix` digits. */
  function DigitRun(s: string, radix: nat): (n: nat)
    ensures n <= |s|
    ensures forall i :: 0 <= i < n ==> DigitValue(s[i], radix).Some?
    ensures n < |s| ==> DigitValue(s[n], radix).None?
  {
    if |s| == 0 || DigitValue(s[0], radix).None? then 0
    else
      var n := DigitRun(s[1..], radix);
      assert forall i :: 0 < i <= n ==> s[i] == s[1..][i - 1];
      1 + n
  }

  /** The number a run of digits denotes, most significant digit first. */
  function DigitsValue(ds: string, radix: nat): nat
    requires forall i :: 0 <= i < |ds| ==> DigitValue(ds[i], radix).Some?
  {
    if |ds| == 0 then 0
    else
      var init := ds[..|ds| - 1];
      assert forall i :: 0 <= i < |init| ==> init[i] == ds[i];
      DigitsValue(init, radix) * radix + DigitValue(ds[|ds| - 1], radix).value
  }

  /** `parseInt(s)`: skip leading whitespace, then read a signed number;
      no digit at all is NaN (here `None`). */
  function ParseInt(s: string): Option<int> {
    ParseSigned(s[TrimLo(s, IsJsSpace)..])
  }

  /** An optional `-` or `+`, then the unsigned part. */
  function ParseSigned(t: string): Option<int> {
    if |t| > 0 && t[0] == '-' then
      match ParseUnsigned(t[1..])
      case Some(m) => Some(-(m as int))
      case None => None
    else if |t| > 0 && t[0] == '+' then ParseUnsigned(t[1..])
    else ParseUnsigned(t)
  }

  /** A `0x`/`0X` prefix selects base 16; base 10 otherwise. */
  function ParseUnsigned(u: string): Option<nat> {
    if |u| >= 2 && u[0] == '0' && (u[1] == 'x' || u[1] == 'X') then ParseDigits(u[2..], 16)
    else ParseDigits(u, 10)
  }

  /** The longest run of digits at the start, ignoring what follows it. */
  function ParseDigits(v: string, radix: nat): (r: Option<nat>)
    ensures r.None? <==> DigitRun(v, radix) == 0
  {
    var n := DigitRun(v, radix);
    if n == 0 then None else Some(DigitsValue(v[..n], radix))
  }

  /** `parseInt(field) || 0`: NaN, and a missing field, give 0. */
  function IntOrZero(field: Option<string>): int {
    if field.None? then 0 else ParseInt(field.value).GetOr(0)
  }

  // -------------------------------------------------------------------
  // Decimal rendering, the inverse the round trip is stated against

  function DigitChar(d: nat): (c: char)
    requires d < 10
    ensures IsDecimalDigit(c)
  {
    ('0' as int + d) as char
  }

  /** The decimal numeral of `n`, without leading zeros. */
  function Decimal(n: nat): (s: string)
    ensures |s| > 0
    ensures forall i :: 0 <= i < |s| ==> IsDecimalDigit(s[i])
    ensures s[0] != '0' || n == 0
    decreases n
  {
    if n < 10 then [DigitChar(n)] else Decimal(n / 10) + [DigitChar(n % 10)]
  }

  /** A numeral's digits denote its number. */
  lemma {:induction false} DecimalValue(n: nat)
    ensures forall i :: 0 <= i < |Decimal(n)| ==> DigitValue(Decimal(n)[i], 10).Some?
    ensures DigitsValue(Decimal(n), 10) == n
    decreases n
  {
    var s := Decimal(n);
    if n >= 10 {
      DecimalValue(n / 10);
      assert s[..|s| - 1] == Decimal(n / 10);
    }
  }

  /** The digit run of a numeral followed by a non-digit is the numeral. */
  lemma DecimalRun(n: nat, rest: string)
    requires rest == "" || !IsDecimalDigit(rest[0])
    ensures ParseDigits(Decimal(n) + rest, 10) == Some(n)
  {
    var s := Decimal(n) + rest;
    var d := Decimal(n);
    DecimalValue(n);
    assert forall i :: 0 <= i < |d| ==> DigitValue(s[i], 10).Some? by {
      forall i | 0 <= i < |d| ensures DigitValue(s[i], 10).Some? {
        assert s[i] == d[i];
      }
    }
    if rest != "" {
      assert s[|d|] == rest[0];
    }
    DigitRunIs(s, 10, |d|);
    assert s[..|d|] == d;
  }

  /** The digit run ends at the first non-digit. */
  lemma {:induction false} DigitRunIs(s: string, radix: nat, k: nat)
    requires k <= |s|
    requires forall i :: 0 <= i < k ==> DigitValue(s[i], radix).Some?
    requires k == |s| || DigitValue(s[k], radix).None?
    ensures DigitRun(s, radix) == k
  {
    if k > 0 {
      assert forall i :: 0 <= i < k - 1 ==> s[1..][i] == s[i + 1];
      DigitRunIs(s[1..], radix, k - 1);
    }
  }

  /** The integer `i` written in decimal, with a minus sign when negative. */
  function IntText(i: int): string {
    if i < 0 then "-" + Decimal(-i) else Decimal(i)
  }

  /** Text that can follow a numeral without changing how it reads: it does
      not start with a digit, nor with the `x` that would make a lone "0" a
      hexadecimal prefix. */
  predicate Terminates(rest: string) {
    rest == "" || !(IsDecimalDigit(rest[0]) || rest[0] == 'x' || rest[0] == 'X')
  }

  /** Reading a number back: `parseInt` of a numeral, followed by anything
      that ends it, gives the number back. */
  lemma ParseIntText(i: int, rest: string)
    requires Terminates(rest)
    ensures ParseInt(IntText(i) + rest) == Some(i)
  {
    if i < 0 {
      ParseIntNegative(i, rest);
    } else {
      ParseIntNonNegative(i, rest);
    }
  }

  lemma ParseIntNegative(i: int, rest: string)
    requires i < 0 && Terminates(rest)
    ensures ParseInt(IntText(i) + rest) == Some(i)
  {
    ParseIntSigned(IntText(i) + rest);
    NegativeText(-i, rest);
  }

  lemma ParseIntNonNegative(i: int, rest: string)
    requires i >= 0 && Terminates(rest)
    ensures ParseInt(IntText(i) + rest) == Some(i)
  {
    ParseIntSigned(IntText(i) + rest);
    NonNegativeText(i, rest);
  }

  /** Text that starts with no whitespace is read as a signed number directly. */
  lemma ParseIntSigned(s: string)
    requires |s| > 0 && !IsJsSpace(s[0])
    ensures ParseInt(s) == ParseSigned(s)
  {
    assert TrimLo(s, IsJsSpace) == 0;
    assert s[0..] == s;
  }

  /** A numeral has no sign to read. */
  lemma NonNegativeText(n: nat, rest: string)
    requires Terminates(rest)
    ensures ParseSigned(Decimal(n) + rest) == Some(n)
  {
    var s := Decimal(n) + rest;
    assert IsDecimalDigit(s[0]);
    UnsignedText(n, rest);
  }

  /** A minus sign, then a numeral: the unsigned part is read back. */
  lemma NegativeText(n: nat, rest: string)
    requires n > 0 && Terminates(rest)
    ensures ParseSigned("-" + Decimal(n) + rest) == Some(-(n as int))
  {
    var s := "-" + Decimal(n) + rest;
    assert s[1..] == Decimal(n) + rest;
    UnsignedText(n, rest);
  }

  lemma UnsignedText(n: nat, rest: string)
    requires Terminates(rest)
    ensures ParseUnsigned(Decimal(n) + rest) == Some(n)
  {
    var u := Decimal(n) + rest;
    var d := Decimal(n);
    assert !(|u| >= 2 && u[0] == '0' && (u[1] == 'x' || u[1] == 'X')) by {
      if |u| >= 2 && u[0] == '0' {
        assert d[0] == '0';
        assert |d| == 1;
        assert u[1] == rest[0];
      }
    }
    DecimalRun(n, rest);
  }

  /** A field with no digit where the number should start reads as 0. */
  lemma NoDigitIsZero(s: string)
    requires ParseInt(s).None?
    ensures IntOrZero(Some(s)) == 0
  {
  }
}

=== FILE: js_text.dfy ===
/** JavaScript string semantics used by the extension: the `\s` / `trim()`
    whitespace class, `split(/\s+/)`, UTF-16 length and code-unit ordering,
    and the CJK range the classifiers test. */
module JsText {
  import opened Text

  /** The characters matched by `\s` and removed by `String.prototype.trim`. */
  predicate IsJsSpace(c: char) {
    var v := c as int;
    (0x09 <= v <= 0x0D) || v == 0x20 || v == 0xA0 || v == 0x1680
    || (0x2000 <= v <= 0x200A) || v == 0x2028 || v == 0x2029 || v == 0x202F
    || v == 0x205F || v == 0x3000 || v == 0xFEFF
  }

  /** `s.trim()`. */
  function Trim(s: string): string {
    TrimBy(s, IsJsSpace)
  }

  /** `s.split(/\s+/)`: cuts at every maximal run of whitespace, so a leading
      or trailing run yields an empty first or last field, and "" yields [""]. */
  function SplitWs(s: string): (r: seq<string>)
    ensures |r| >= 1 && r[0] == s[..RunEnd(s, IsJsSpace, 0, false)]
  {
    FieldsFrom(s, 0)
  }

  /** No field of a whitespace split holds whitespace. */
  lemma SplitWsFields(s: string)
    ensures forall k :: 0 <= k < |SplitWs(s)| ==> NoneIn(SplitWs(s)[k], IsJsSpace)
  {
    FieldsNoBlank(s, 0);
  }

  lemma {:induction false} FieldsNoBlank(s: string, i: nat)
    requires i <= |s|
    ensures forall k :: 0 <= k < |FieldsFrom(s, i)| ==> NoneIn(FieldsFrom(s, i)[k], IsJsSpace)
    decreases |s| - i
  {
    var j := RunEnd(s, IsJsSpace, i, false);
    assert forall m | 0 <= m < j - i :: s[i..j][m] == s[i + m];
    if j < |s| {
      FieldsNoBlank(s, RunEnd(s, IsJsSpace, j, true));
    }
  }

  /** The fields of `s` from index `i` on, where `i` starts a field. */
  function FieldsFrom(s: string, i: nat): (r: seq<string>)
    requires i <= |s|
    ensures |r| >= 1 && r[0] == s[i..RunEnd(s, IsJsSpace, i, false)]
    decreases |s| - i
  {
    var j := RunEnd(s, IsJsSpace, i, false);
    if j == |s| then [s[i..j]]
    else [s[i..j]] + FieldsFrom(s, RunEnd(s, IsJsSpace, j, true))
  }

  /** One step of splitting: the field at `i`, then the fields after the
      whitespace run that ends it. */
  lemma FieldsStep(s: string, i: nat, j: nat, k: nat)
    requires i <= |s| && j == RunEnd(s, IsJsSpace, i, false) < |s|
    requires k == RunEnd(s, IsJsSpace, j, true)
    ensures FieldsFrom(s, i) == [s[i..j]] + FieldsFrom(s, k)
  {
  }

  /** Splitting on whitespace undoes joining with single spaces, as long as
      no field holds whitespace and no interior field is empty. */
  lemma SplitWsJoin(ts: seq<string>)
    requires |ts| >= 1
    requires forall k :: 0 <= k < |ts| ==> NoneIn(ts[k], IsJsSpace)
    requires forall k :: 0 < k < |ts| - 1 ==> ts[k] != ""
    ensures SplitWs(Join(ts, " ")) == ts
  {
    var s := Join(ts, " ");
    assert s[0..] == s;
    assert JoinedFrom(s, 0, ts);
    FieldsOfJoin(s, 0, ts);
  }

  /** From offset `o` on, the text is the words `ts` joined by single
      spaces, where no word holds whitespace and no interior word is empty. */
  predicate JoinedFrom(s: string, o: nat, ts: seq<string>)
  {
    o <= |s| && s[o..] == Join(ts, " ") && |ts| >= 1 &&
    (forall k :: 0 <= k < |ts| ==> NoneIn(ts[k], IsJsSpace)) &&
    (forall k :: 0 < k < |ts| - 1 ==> ts[k] != "")
  }

  /** Splitting from offset `o`, where the rest of the text is joined words,
      yields those words. */
  lemma {:induction false} FieldsOfJoin(s: string, o: nat, ts: seq<string>)
    requires JoinedFrom(s, o, ts)
    ensures FieldsFrom(s, o) == ts
    decreases |ts|
  {
    if |ts| == 1 {
      FieldLast(s, o, ts[0]);
    } else {
      var o' := FieldsOfJoinNext(s, o, ts);
      FieldsOfJoin(s, o', ts[1..]);
      FieldsJoinStep(s, o, ts, o');
    }
  }

  /** The words after the first one satisfy the conditions again. */
  lemma FieldsOfJoinNext(s: string, o: nat, ts: seq<string>) returns (o': nat)
    requires JoinedFrom(s, o, ts) && |ts| > 1
    ensures o' == o + |ts[0]| + 1
    ensures WordAt(s, o, ts)
    ensures JoinedFrom(s, o', ts[1..])
  {
    o' := o + |ts[0]| + 1;
    JoinHead(ts[1..]);
    FieldAt(s, o, ts);
  }

  /** At offset `o` stands the first of `ts`, ended by a single space. */
  predicate WordAt(s: string, o: nat, ts: seq<string>)
    requires |ts| > 0
  {
    var n := |ts[0]|;
    o + n < |s| && s[o..o + n] == ts[0] &&
    RunEnd(s, IsJsSpace, o, false) == o + n && RunEnd(s, IsJsSpace, o + n, true) == o + n + 1
  }

  lemma FieldsJoinStep(s: string, o: nat, ts: seq<string>, o': nat)
    requires |ts| > 1 && WordAt(s, o, ts) && o' == o + |ts[0]| + 1
    requires FieldsFrom(s, o') == ts[1..]
    ensures FieldsFrom(s, o) == ts
  {
    FieldsStep(s, o, o' - 1, o');
    assert ts == [ts[0]] + ts[1..];
  }

  /** The last word runs to the end of the text. */
  lemma FieldLast(s: string, o: nat, t: string)
    requires o <= |s| && s[o..] == t && NoneIn(t, IsJsSpace)
    ensures FieldsFrom(s, o) == [t]
  {
    assert forall m | o <= m < |s| :: s[m] == t[m - o];
    RunEndIs(s, IsJsSpace, o, |s|, false);
    assert s[o..|s|] == t;
  }

  /** Inside joined words: the first word, one space, then the other words. */
  lemma FieldAt(s: string, o: nat, ts: seq<string>)
    requires o <= |s| && s[o..] == Join(ts, " ")
    requires |ts| > 1 && NoneIn(ts[0], IsJsSpace)
    requires var t := Join(ts[1..], " "); t == "" || !IsJsSpace(t[0])
    ensures WordAt(s, o, ts) && s[o + |ts[0]| + 1..] == Join(ts[1..], " ")
  {
    var n := |ts[0]|;
    var tail := Join(ts[1..], " ");
    assert s[o..] == ts[0] + " " + tail;
    forall m | o <= m < o + n ensures s[m] == ts[0][m - o] {
      assert s[m] == s[o..][m - o];
    }
    assert s[o + n] == s[o..][n] == ' ';
    RunEndIs(s, IsJsSpace, o, o + n, false);
    if o + n + 1 < |s| {
      assert s[o + n + 1] == s[o..][n + 1] == tail[0];
    }
    RunEndIs(s, IsJsSpace, o + n, o + n + 1, true);
    assert s[o..o + n] == s[o..][..n];
    assert s[o + n + 1..] == s[o..][n + 1..];
  }

  lemma {:induction false} JoinHead(ts: seq<string>)
    requires |ts| >= 1
    requires forall k :: 0 <= k < |ts| - 1 ==> ts[k] != ""
    requires forall k :: 0 <= k < |ts| ==> NoneIn(ts[k], IsJsSpace)
    ensures Join(ts, " ") == "" || !IsJsSpace(Join(ts, " ")[0])
  {
    if |ts| > 1 {
      assert Join(ts, " ") == ts[0] + " " + Join(ts[1..], " ");
    }
  }

  /** From a non-blank position of text with a non-blank end, there is one
      field per word. */
  lemma {:induction false} FieldsCount(s: string, i: nat)
    requires i < |s| && !IsJsSpace(s[i]) && !IsJsSpace(s[|s| - 1])
    ensures |FieldsFrom(s, i)| == RunsFrom(s, IsJsSpace, i)
    decreases |s| - i
  {
    var j := RunEnd(s, IsJsSpace, i, false);
    if j < |s| {
      var k := RunEnd(s, IsJsSpace, j, true);
      RunsSkip(s, IsJsSpace, j, k);
      FieldsCount(s, k);
    }
  }

  /** On text with non-blank ends, `split(/\s+/)` yields one field per word
      (and the single field "" for the empty string). */
  lemma SplitWsCount(t: string)
    requires |t| > 0 ==> !IsJsSpace(t[0]) && !IsJsSpace(t[|t| - 1])
    ensures |SplitWs(t)| == if t == "" then 1 else NumRuns(t, IsJsSpace)
  {
    if t != "" {
      FieldsCount(t, 0);
    }
  }

  /** A CJK unified ideograph in the range the source's `/[一-龥]/` tests. */
  predicate IsCjk(c: char) {
    0x4E00 <= c as int <= 0x9FA5
  }

  predicate HasCjk(s: string) {
    exists i | 0 <= i < |s| :: IsCjk(s[i])
  }

  /** How many characters of `s` are CJK ideographs. */
  function CjkCount(s: string): (n: nat)
    ensures n <= |s|
    ensures n == 0 <==> !HasCjk(s)
  {
    if |s| == 0 then 0
    else
      var rest := CjkCount(s[1..]);
      assert forall i :: 0 < i < |s| ==> s[i] == s[1..][i - 1];
      (if IsCjk(s[0]) then 1 else 0) + rest
  }

  /** The UTF-16 code units JavaScript stores for one character: itself when it
      lies in the Basic Multilingual Plane, otherwise a surrogate pair. */
  function CharUnits(c: char): (u: seq<int>)
    ensures |u| == (if c as int <= 0xFFFF then 1 else 2)
    ensures forall k :: 0 <= k < |u| ==> 0 <= u[k] <= 0xFFFF
  {
    var v := c as int;
    if v <= 0xFFFF then [v]
    else [0xD800 + (v - 0x10000) / 0x400, 0xDC00 + (v - 0x10000) % 0x400]
  }

  /** A surrogate pair decodes back to the character it encodes. */
  lemma SurrogatePair(c: char)
    requires c as int > 0xFFFF
    ensures 0xD800 <= CharUnits(c)[0] <= 0xDBFF
    ensures 0xDC00 <= CharUnits(c)[1] <= 0xDFFF
    ensures (CharUnits(c)[0] - 0xD800) * 0x400 + (CharUnits(c)[1] - 0xDC00) + 0x10000 == c as int
  {
  }

  function CodeUnits(s: string): seq<int>
  {
    if |s| == 0 then [] else CharUnits(s[0]) + CodeUnits(s[1..])
  }

  /** `s.length`: the number of UTF-16 code units. */
  function Utf16Len(s: string): (n: nat)
    ensures |s| <= n <= 2 * |s|
    ensures (forall i :: 0 <= i < |s| ==> s[i] as int <= 0xFFFF) ==> n == |s|
  {
    if |s| == 0 then 0
    else (if s[0] as int <= 0xFFFF then 1 else 2) + Utf16Len(s[1..])
  }

  lemma {:induction false} Utf16LenUnits(s: string)
    ensures Utf16Len(s) == |CodeUnits(s)|
  {
    if |s| > 0 {
      Utf16LenUnits(s[1..]);
    }
  }

  /** Lexicographic order on code-unit sequences, a proper prefix first. */
  predicate UnitsLess(x: seq<int>, y: seq<int>)
  {
    if |x| == 0 then |y| > 0
    else if |y| == 0 then false
    else if x[0] != y[0] then x[0] < y[0]
    else UnitsLess(x[1..], y[1..])
  }

  lemma {:induction false} UnitsLessStrict(x: seq<int>, y: seq<int>)
    ensures !(UnitsLess(x, y) && UnitsLess(y, x))
    ensures x != y ==> UnitsLess(x, y) || UnitsLess(y, x)
    ensures !UnitsLess(x, x)
  {
    if |x| > 0 && |y| > 0 {
      UnitsLessStrict(x[1..], y[1..]);
      if x[0] == y[0] && x != y {
        assert x == [x[0]] + x[1..] && y == [y[0]] + y[1..];
      }
    }
    if |x| > 0 {
      UnitsLessStrict(x[1..], x[1..]);
    }
  }

  /** `x` comes before `y` when it is a proper prefix of `y`, or when the
      first code unit where they differ is smaller in `x`. */
  predicate PrefixOrFirstDiffLess(x: seq<int>, y: seq<int>) {
    (|x| < |y| && x == y[..|x|]) ||
    exists i :: 0 <= i < |x| && i < |y| && x[..i] == y[..i] && x[i] < y[i]
  }

  /** The recursive comparison is the usual lexicographic order. */
  lemma {:induction false} UnitsLessIff(x: seq<int>, y: seq<int>)
    ensures UnitsLess(x, y) <==> PrefixOrFirstDiffLess(x, y)
  {
    if |x| == 0 || |y| == 0 {
    } else if x[0] != y[0] {
      forall i | 0 < i <= |x| && i <= |y| ensures x[..i] != y[..i] {
        assert x[..i][0] == x[0] && y[..i][0] == y[0];
      }
      assert x[..|x|] == x;
      assert x[..0] == y[..0];
    } else {
      var x', y' := x[1..], y[1..];
      UnitsLessIff(x', y');
      if PrefixOrFirstDiffLess(x', y') {
        if |x'| < |y'| && x' == y'[..|x'|] {
          assert x == [x[0]] + x' && y[..|x|] == [y[0]] + y'[..|x'|];
        } else {
          var j :| 0 <= j < |x'| && j < |y'| && x'[..j] == y'[..j] && x'[j] < y'[j];
          assert x[..j + 1] == [x[0]] + x'[..j] && y[..j + 1] == [y[0]] + y'[..j];
          assert x[j + 1] == x'[j] && y[j + 1] == y'[j];
        }
      }
      if PrefixOrFirstDiffLess(x, y) {
        if |x| < |y| && x == y[..|x|] {
          assert x' == y'[..|x'|];
        } else {
          var i :| 0 <= i < |x| && i < |y| && x[..i] == y[..i] && x[i] < y[i];
          assert i > 0;
          assert x'[..i - 1] == x[1..i] == y[1..i] == y'[..i - 1];
          assert x'[i - 1] == x[i] && y'[i - 1] == y[i];
        }
      }
    }
  }

  lemma {:induction false} CodeUnitsAppend(a: string, b: string)
    ensures CodeUnits(a + b) == CodeUnits(a) + CodeUnits(b)
  {
    if |a| > 0 {
      assert (a + b)[0] == a[0] && (a + b)[1..] == a[1..] + b;
      CodeUnitsAppend(a[1..], b);
    } else {
      assert a + b == b;
    }
  }

  /** JavaScript's `a < b` on strings. */
  predicate JsLess(a: string, b: string) {
    UnitsLess(CodeUnits(a), CodeUnits(b))
  }
}

=== FILE: local_dictionary.dfy ===
/** The lookup engine of the extension's local dictionary: query
    classification, the tier-1 cache / store / word-form fallback chain,
    hit-miss statistics, phrase lookup and the display formatter. */
module LocalDictionary {
  import opened Wrappers
  import opened Seqs
  import opened Text
  import opened JsText
  import OrderedMap
  import opened Entries
  import opened DictStore
  import Maps

  // ---------------------------------------------------------------------
  // Query classification

  datatype QueryType = SingleWord | Phrase | Sentence

  /** A character of the class `[a-zA-Z-']`. */
  predicate IsWordLetter(c: char) {
    ('a' <= c <= 'z') || ('A' <= c <= 'Z') || c == '-' || c == '\''
  }

  /** `/^[a-zA-Z-']+$/`. */
  predicate IsPlainWord(t: string) {
    |t| > 0 && forall i :: 0 <= i < |t| ==> IsWordLetter(t[i])
  }

  /** Classifies the trimmed input: any CJK ideograph makes a sentence; one
      whitespace-separated token is a single word when it is made of letters,
      hyphens and apostrophes only; two to five tokens are a phrase; anything
      else is a sentence. */
  function GetQueryType(text: string): (q: QueryType)
    ensures q == SingleWord <==> IsPlainWord(Trim(text))
    ensures q == Phrase <==> !HasCjk(Trim(text)) && 2 <= NumRuns(Trim(text), IsJsSpace) <= 5
    ensures HasCjk(Trim(text)) ==> q == Sentence
  {
    var trimmed := Trim(text);
    PlainWordIsOneToken(trimmed);
    SplitWsCount(trimmed);
    if HasCjk(trimmed) then Sentence
    else
      var words := SplitWs(trimmed);
      if |words| == 1 then (if IsPlainWord(trimmed) then SingleWord else Sentence)
      else if |words| <= 5 then Phrase
      else Sentence
  }

  /** The classification of trimmed, ideograph-free text by its number of
      words (maximal runs of non-blank characters). */
  lemma QueryTypeByWords(t: string)
    requires Trim(t) == t && !HasCjk(t)
    ensures var n := NumRuns(t, IsJsSpace);
      GetQueryType(t) == if n == 1 && IsPlainWord(t) then SingleWord
                         else if 2 <= n <= 5 then Phrase
                         else Sentence
  {
    PlainWordIsOneToken(t);
  }

  /** A plain word has no blank and no ideograph, so it is one token. */
  lemma PlainWordIsOneToken(t: string)
    ensures IsPlainWord(t) ==> !HasCjk(t) && NumRuns(t, IsJsSpace) == 1
  {
    if IsPlainWord(t) {
      assert NoneIn(t, IsJsSpace);
      NumRunsOneWord(t, IsJsSpace);
    }
  }

  /** Letters-only words joined by single spaces classify by how many there
      are: one is a single word, two to five a phrase, more a sentence. */
  lemma JoinedWordsQuery(ts: seq<string>)
    requires |ts| >= 1 && forall k :: 0 <= k < |ts| ==> IsPlainWord(ts[k])
    ensures GetQueryType(Join(ts, " ")) ==
      if |ts| == 1 then SingleWord else if |ts| <= 5 then Phrase else Sentence
  {
    var s := Join(ts, " ");
    JoinedWordsShape(ts);
    JoinNoCjk(ts);
    JoinedPlain(ts);
    QueryTypeByWords(s);
  }

  lemma JoinedWordsShape(ts: seq<string>)
    requires |ts| >= 1 && forall k :: 0 <= k < |ts| ==> IsPlainWord(ts[k])
    ensures var s := Join(ts, " "); Trim(s) == s && NumRuns(s, IsJsSpace) == |ts|
  {
    forall k | 0 <= k < |ts| ensures |ts[k]| > 0 && NoneIn(ts[k], IsJsSpace) {
      PlainWordIsOneToken(ts[k]);
    }
    SplitsInto(Join(ts, " "), ts);
  }

  /** Joined plain words are one plain word exactly when there is one. */
  lemma JoinedPlain(ts: seq<string>)
    requires |ts| >= 1 && forall k :: 0 <= k < |ts| ==> IsPlainWord(ts[k])
    ensures IsPlainWord(Join(ts, " ")) <==> |ts| == 1
  {
    var s := Join(ts, " ");
    if |ts| > 1 {
      assert s == ts[0] + " " + Join(ts[1..], " ");
      assert s[|ts[0]|] == ' ';
    }
  }

  /** Joining plain words with spaces gives letters, hyphens, apostrophes
      and spaces only, hence no ideograph. */
  lemma {:induction false} JoinNoCjk(ts: seq<string>)
    requires forall k :: 0 <= k < |ts| ==> IsPlainWord(ts[k])
    ensures !HasCjk(Join(ts, " "))
  {
    if |ts| == 1 {
      assert Join(ts, " ") == ts[0];
      assert forall i :: 0 <= i < |ts[0]| ==> IsWordLetter(ts[0][i]);
    } else if |ts| > 1 {
      JoinNoCjk(ts[1..]);
      var t := Join(ts[1..], " ");
      var s := ts[0] + " " + t;
      assert Join(ts, " ") == s;
      forall i | 0 <= i < |s| ensures !IsCjk(s[i]) {
        if i < |ts[0]| {
          assert s[i] == ts[0][i] && IsWordLetter(ts[0][i]);
        } else if i > |ts[0]| {
          assert s[i] == t[i - |ts[0]| - 1];
        }
      }
    }
  }

  /** A text without blanks or ideographs is a single word exactly when it
      is letters only; otherwise it is a sentence. */
  lemma UnspacedQuery(s: string)
    requires |s| > 0 && NoneIn(s, IsJsSpace) && !HasCjk(s)
    ensures GetQueryType(s) == if IsPlainWord(s) then SingleWord else Sentence
  {
    TrimByFixed(s, IsJsSpace);
    NumRunsOneWord(s, IsJsSpace);
    QueryTypeByWords(s);
  }

  /** Words joined by single spaces form a trimmed text with one run per word. */
  lemma SplitsInto(s: string, ts: seq<string>)
    requires |ts| >= 1 && s == Join(ts, " ")
    requires forall k :: 0 <= k < |ts| ==> |ts[k]| > 0 && NoneIn(ts[k], IsJsSpace)
    ensures Trim(s) == s && NumRuns(s, IsJsSpace) == |ts|
  {
    JoinEnds(ts);
    TrimByFixed(s, IsJsSpace);
    SplitWsJoin(ts);
    SplitWsCount(s);
  }

  lemma {:induction false} JoinEnds(ts: seq<string>)
    requires |ts| >= 1
    requires forall k :: 0 <= k < |ts| ==> |ts[k]| > 0 && NoneIn(ts[k], IsJsSpace)
    ensures var s := Join(ts, " "); |s| > 0 && !IsJsSpace(s[0]) && !IsJsSpace(s[|s| - 1])
  {
    if |ts| > 1 {
      JoinEnds(ts[1..]);
      var t := Join(ts[1..], " ");
      assert Join(ts, " ") == ts[0] + " " + t;
    }
  }

  // ---------------------------------------------------------------------
  // Word-form candidates

  /** The suffix rewrites, in the order candidates are generated: `ing`,
      `ed`, `s` and `es` are dropped, `ies` becomes `y`, `er` and `est` are
      dropped. Each applies only at the end of the word. */
  const SUFFIX_RULES: seq<(string, string)> :=
    [("ing", ""), ("ed", ""), ("s", ""), ("es", ""), ("ies", "y"), ("er", ""), ("est", "")]

  /** One candidate per rule, in rule order; a rule that does not apply
      yields the word unchanged. */
  function Candidates(word: string): seq<string> {
    MapSeq(SUFFIX_RULES, (rule: (string, string)) => ReplaceSuffix(word, rule.0, rule.1))
  }

  /** A candidate worth a lookup: not the word itself, and longer than two
      UTF-16 code units. */
  predicate Usable(word: string, v: string) {
    v != word && Utf16Len(v) > 2
  }

  /** The candidates without repeats (first occurrence kept), then without
      the unusable ones. */
  function Variants(word: string): (vs: seq<string>)
    ensures |vs| <= |SUFFIX_RULES|
  {
    Filter(Dedup(Candidates(word)), (v: string) => Usable(word, v))
  }

  /** A variant is exactly a usable result of some suffix rule. */
  lemma VariantsMembers(word: string, v: string)
    ensures v in Variants(word) <==>
      Usable(word, v) &&
      exists i :: 0 <= i < |SUFFIX_RULES| && v == ReplaceSuffix(word, SUFFIX_RULES[i].0, SUFFIX_RULES[i].1)
  {
    var c := Candidates(word);
    var d := Dedup(c);
    DedupFacts(c);
    FilterByMembers(d, (u: string) => Usable(word, u), true);
    if v in d {
      var j :| 0 <= j < |d| && d[j] == v;
      assert d[j] in c;
    }
    if exists i :: 0 <= i < |SUFFIX_RULES| && v == ReplaceSuffix(word, SUFFIX_RULES[i].0, SUFFIX_RULES[i].1) {
      var i :| 0 <= i < |SUFFIX_RULES| && v == ReplaceSuffix(word, SUFFIX_RULES[i].0, SUFFIX_RULES[i].1);
      assert c[i] == v;
    }
  }

  /** Variants come in the order their rules first produce them, hence
      each at most once. */
  lemma VariantsOrdered(word: string)
    ensures InFirstOrder(Variants(word), Candidates(word))
    ensures Distinct(Variants(word))
  {
    var c := Candidates(word);
    var d := Dedup(c);
    var rank := (u: string) => FirstIndex(c, u) as int;
    DedupOrdered(c);
    DedupFacts(c);
    assert IncreasingBy(d, rank);
    FilterByOrdered(d, (u: string) => Usable(word, u), true, rank);
    var vs := Variants(word);
    assert IncreasingBy(vs, rank);
  }

  // ---------------------------------------------------------------------
  // The lookup engine

  /** Running counters: `avgLookupTime` is updated on hits only, but its
      divisor counts misses too. */
  datatype Stats = Stats(hits: nat, misses: nat, avgLookupTime: real)

  const INITIAL_STATS := Stats(0, 0, 0.0)

  /** The manager's state: the tier-1 cache (present exactly when
      `cacheLoaded`, keyed by lowercased word), the database and the counters. */
  datatype Engine = Engine(cache: Option<map<string, Entry>>, db: Db, stats: Stats)

  predicate InCache(cache: Option<map<string, Entry>>, key: string) {
    cache.Some? && key in cache.value
  }

  /** Where a lookup found its entry. */
  datatype Source = Tier1 | IndexedDb | Variant

  /** A found entry, with the `_tier` tag of the stored record it came from. */
  datatype Found = Found(entry: Entry, tier: Option<string>)

  datatype Outcome = Hit(found: Found, source: Source) | Miss | Failed

  /** One probe of `_lookupVariant`: the cache first, then the store; a
      failing read counts as not found. */
  function Probe(cache: Option<map<string, Entry>>, db: Db, key: string): (r: Option<Found>)
    ensures r.None? <==> !InCache(cache, key) && !Get(db, key).Present?
  {
    if InCache(cache, key) then Some(Found(cache.value[key], None))
    else match Get(db, key)
      case Present(rec) => Some(Found(rec.entry, rec.tier))
      case _ => None
  }

  /** `_lookupVariant`'s loop: the first candidate any probe finds. */
  function FirstFound(cache: Option<map<string, Entry>>, db: Db, vs: seq<string>): (r: Option<Found>)
    ensures r.None? <==> forall i :: 0 <= i < |vs| ==> Probe(cache, db, vs[i]).None?
    ensures r.Some? ==> exists i :: 0 <= i < |vs| && r == Probe(cache, db, vs[i]) &&
                                    forall j :: 0 <= j < i ==> Probe(cache, db, vs[j]).None?
  {
    if |vs| == 0 then None
    else
      var p := Probe(cache, db, vs[0]);
      if p.Some? then p
      else
        var rest := FirstFound(cache, db, vs[1..]);
        assert forall i :: 1 <= i < |vs| ==> vs[i] == vs[1..][i - 1];
        rest
  }

  /** The tier chain for a normalised key: the cache when loaded, then the
      store, then the word-form variants. A failing exact read ends the
      lookup. */
  function Resolve(cache: Option<map<string, Entry>>, db: Db, key: string): Outcome
  {
    if InCache(cache, key) then Hit(Found(cache.value[key], None), Tier1)
    else match Get(db, key)
      case Fault => Failed
      case Present(rec) => Hit(Found(rec.entry, rec.tier), IndexedDb)
      case Absent =>
        match FirstFound(cache, db, Variants(key))
        case Some(f) => Hit(f, Variant)
        case None => Miss
  }

  /** Which tier answers: a source is reported only when every earlier tier
      missed, and the entry is the one that tier holds. */
  lemma ResolveTiers(cache: Option<map<string, Entry>>, db: Db, key: string)
    ensures var o := Resolve(cache, db, key);
      (o.Hit? && o.source == Tier1 <==> InCache(cache, key)) &&
      (o.Hit? && o.source == Tier1 ==> o.found == Found(cache.value[key], None)) &&
      (o.Failed? <==> !InCache(cache, key) && key in db.faults) &&
      (o.Hit? && o.source == IndexedDb <==>
         !InCache(cache, key) && key !in db.faults && key in db.records) &&
      (o.Hit? && o.source == IndexedDb ==>
         o.found == Found(db.records[key].entry, db.records[key].tier)) &&
      (o.Hit? && o.source == Variant ==>
         !InCache(cache, key) && Get(db, key).Absent? &&
         exists i :: 0 <= i < |Variants(key)| && Some(o.found) == Probe(cache, db, Variants(key)[i])) &&
      (o.Miss? <==>
         !InCache(cache, key) && Get(db, key).Absent? &&
         forall v :: v in Variants(key) ==> Probe(cache, db, v).None?)
  {
  }

  /** `word.toLowerCase().trim()`. */
  function Normalize(word: string): string {
    Trim(Lower(word))
  }

  /** Normalising twice changes nothing more. */
  lemma NormalizeIdempotent(word: string)
    ensures Normalize(Normalize(word)) == Normalize(word)
  {
    var l := Lower(word);
    LowerSliceFixed(word, TrimLo(l, IsJsSpace), TrimHi(l, IsJsSpace));
    TrimByIdempotent(l, IsJsSpace);
  }

  /** `_updateAvgTime` after a hit has been counted. */
  function RecordHit(s: Stats, time: real): (r: Stats)
    ensures r.hits == s.hits + 1 && r.misses == s.misses
    ensures var n := (r.hits + r.misses) as real;
      r.avgLookupTime * n == s.avgLookupTime * (n - 1.0) + time
  {
    var n := (s.hits + 1 + s.misses) as real;
    Stats(s.hits + 1, s.misses, (s.avgLookupTime * (n - 1.0) + time) / n)
  }

  /** A miss is counted and the average is left alone. */
  function RecordMiss(s: Stats): (r: Stats)
    ensures r.misses == s.misses + 1 && r.hits == s.hits
    ensures r.avgLookupTime == s.avgLookupTime
  {
    s.(misses := s.misses + 1)
  }

  /** The record returned for a hit: the entry's fields plus `source` and
      `lookupTime`. */
  datatype LookupResult = LookupResult(found: Found, source: Source, lookupTime: real)

  /** `lookup(word)`, with `elapsed` the time the lookup took. The cache and
      the store are only read; a hit counts one hit and feeds the average, a
      miss counts one miss, and a failing read counts nothing. */
  function Lookup(e: Engine, word: string, elapsed: real): (r: (Engine, Option<LookupResult>))
    ensures r.0.cache == e.cache && r.0.db == e.db
    ensures var o := Resolve(e.cache, e.db, Normalize(word));
      (r.1.Some? <==> o.Hit?) &&
      (o.Hit? ==> r.1.value == LookupResult(o.found, o.source, elapsed)) &&
      r.0.stats.hits == e.stats.hits + (if o.Hit? then 1 else 0) &&
      r.0.stats.misses == e.stats.misses + (if o.Miss? then 1 else 0) &&
      (!o.Hit? ==> r.0.stats.avgLookupTime == e.stats.avgLookupTime)
  {
    match Resolve(e.cache, e.db, Normalize(word))
    case Hit(f, src) => (e.(stats := RecordHit(e.stats, elapsed)), Some(LookupResult(f, src, elapsed)))
    case Miss => (e.(stats := RecordMiss(e.stats)), None)
    case Failed => (e, None)
  }

  /** The lookup depends on the word only through its normalised form. */
  lemma LookupNormalizes(e: Engine, word: string, elapsed: real)
    ensures Lookup(e, word, elapsed) == Lookup(e, Normalize(word), elapsed)
  {
    NormalizeIdempotent(word);
  }

  /** Sum of a sequence of times. */
  function TotalTime(ts: seq<real>): real {
    if |ts| == 0 then 0.0 else TotalTime(ts[..|ts| - 1]) + ts[|ts| - 1]
  }

  /** The counters after a run of hits taking the times `ts`, in order. */
  function RecordHits(s: Stats, ts: seq<real>): Stats {
    if |ts| == 0 then s else RecordHit(RecordHits(s, ts[..|ts| - 1]), ts[|ts| - 1])
  }

  /** While nothing has missed, the running average is the arithmetic mean
      of the recorded hit times. */
  lemma {:induction false} AverageIsMean(ts: seq<real>)
    ensures RecordHits(INITIAL_STATS, ts).hits == |ts|
    ensures RecordHits(INITIAL_STATS, ts).misses == 0
    ensures RecordHits(INITIAL_STATS, ts).avgLookupTime * (|ts| as real) == TotalTime(ts)
  {
    if |ts| > 0 {
      AverageIsMean(ts[..|ts| - 1]);
    }
  }

  /** A miss still counts in the divisor: one miss followed by one hit taking
      `t` leaves an average of `t / 2`, not `t`. */
  lemma MissDilutesAverage(t: real)
    ensures RecordHit(RecordMiss(INITIAL_STATS), t).avgLookupTime == t / 2.0
  {
  }

  // ---------------------------------------------------------------------
  // Phrases

  /** One `lookup` per word from index `i` on, in order, the `k`-th taking
      `time(k)`; the found results are collected. */
  function LookupEach(e: Engine, ws: seq<string>, time: nat -> real, i: nat): (r: (Engine, seq<LookupResult>))
    requires i <= |ws|
    ensures r.0.cache == e.cache && r.0.db == e.db
    ensures |r.1| <= |ws| - i
    decreases |ws| - i
  {
    if i == |ws| then (e, [])
    else
      var (e1, one) := Lookup(e, ws[i], time(i));
      var (e2, rest) := LookupEach(e1, ws, time, i + 1);
      (e2, (if one.Some? then [one.value] else []) + rest)
  }

  /** What each word resolves to, found ones only: depends on the cache and
      the store alone. */
  function PhraseHits(cache: Option<map<string, Entry>>, db: Db, ws: seq<string>, time: nat -> real, i: nat): seq<LookupResult>
    requires i <= |ws|
    decreases |ws| - i
  {
    if i == |ws| then []
    else
      var o := Resolve(cache, db, Normalize(ws[i]));
      (if o.Hit? then [LookupResult(o.found, o.source, time(i))] else []) + PhraseHits(cache, db, ws, time, i + 1)
  }

  /** The counters never influence what a lookup finds: the phrase results
      are the hits of resolving each word on its own. */
  lemma {:induction false} LookupEachHits(e: Engine, ws: seq<string>, time: nat -> real, i: nat)
    requires i <= |ws|
    ensures LookupEach(e, ws, time, i).1 == PhraseHits(e.cache, e.db, ws, time, i)
    decreases |ws| - i
  {
    if i < |ws| {
      var e1 := Lookup(e, ws[i], time(i)).0;
      LookupEachHits(e1, ws, time, i + 1);
    }
  }

  /** `lookupPhrase(phrase)`: more than five words give null without any
      lookup; otherwise the found results, or null when none was found. */
  function LookupPhrase(e: Engine, phrase: string, time: nat -> real): (r: (Engine, Option<seq<LookupResult>>))
    ensures |SplitWs(Trim(phrase))| > 5 ==> r == (e, None)
    ensures r.0.cache == e.cache && r.0.db == e.db
    ensures r.1.Some? ==> 0 < |r.1.value| <= |SplitWs(Trim(phrase))| <= 5
  {
    var words := SplitWs(Trim(phrase));
    if |words| > 5 then (e, None)
    else
      var (e', found) := LookupEach(e, words, time, 0);
      (e', if |found| > 0 then Some(found) else None)
  }

  /** A phrase of at most five words yields exactly the words that resolve,
      in order, and null when none does. */
  lemma LookupPhraseHits(e: Engine, phrase: string, time: nat -> real)
    requires |SplitWs(Trim(phrase))| <= 5
    ensures var hits := PhraseHits(e.cache, e.db, SplitWs(Trim(phrase)), time, 0);
      LookupPhrase(e, phrase, time).1 == if |hits| > 0 then Some(hits) else None
  {
    LookupEachHits(e, SplitWs(Trim(phrase)), time, 0);
  }

  // ---------------------------------------------------------------------
  // Statistics report and the tier-1 cache

  /** `getStats()`, with the hit rate as a number of percent (its two-decimal
      formatting is not modelled). */
  datatype StatsReport = StatsReport(hits: nat, misses: nat, avgLookupTime: real,
                                     hitRate: real, cacheSize: nat, cacheLoaded: bool)

  function GetStats(e: Engine): (r: StatsReport)
    ensures r.hits == e.stats.hits && r.misses == e.stats.misses
    ensures r.avgLookupTime == e.stats.avgLookupTime
    ensures 0.0 <= r.hitRate <= 100.0
    ensures r.hits + r.misses > 0 ==> r.hitRate * ((r.hits + r.misses) as real) == 100.0 * (r.hits as real)
    ensures r.hits + r.misses == 0 ==> r.hitRate == 0.0
    ensures r.cacheLoaded <==> e.cache.Some?
    ensures r.cacheSize == if e.cache.Some? then |e.cache.value| else 0
  {
    var total := e.stats.hits + e.stats.misses;
    var size := if e.cache.Some? then |e.cache.value| else 0;
    if total > 0 then
      var rate := (e.stats.hits as real) / (total as real) * 100.0;
      HitRate(e.stats.hits, total);
      StatsReport(e.stats.hits, e.stats.misses, e.stats.avgLookupTime, rate, size, e.cache.Some?)
    else
      StatsReport(e.stats.hits, e.stats.misses, e.stats.avgLookupTime, 0.0, size, e.cache.Some?)
  }

  /** The percentage of hits among `total` lookups. */
  lemma HitRate(hits: nat, total: nat)
    requires hits <= total && total > 0
    ensures var rate := (hits as real) / (total as real) * 100.0;
      0.0 <= rate <= 100.0 && rate * (total as real) == 100.0 * (hits as real)
  {
    var q := (hits as real) / (total as real);
    assert q * (total as real) == hits as real;
    assert q <= 1.0 by {
      if q > 1.0 {
        assert q * (total as real) > total as real;
      }
    }
  }

  function Unmarked(x: Entry): Stored { Stored(x, None) }

  function AsIs(x: Entry): Entry { x }

  /** `loadTier1()` with the bundled entries `data`: once loaded it does
      nothing; otherwise every entry is put under its `word`, the `tier1`
      metadata records the count, and the cache maps each lowercased word to
      its last entry. */
  function LoadTier1(e: Engine, data: seq<Entry>): (r: Engine)
    ensures e.cache.Some? ==> r == e
    ensures e.cache.None? ==> r.cache.Some? && r.stats == e.stats && r.db.faults == e.db.faults
    ensures e.cache.None? ==> r.cache.value.Keys == Maps.KeySet(data, LowerWord)
    ensures e.cache.None? ==> forall i :: 0 <= i < |data| && Maps.LastWithKey(data, LowerWord, i) ==>
              r.cache.value[Lower(data[i].word)] == data[i]
    ensures e.cache.None? ==> r.db.records.Keys == e.db.records.Keys + Maps.KeySet(data, WordOf)
    ensures e.cache.None? ==> forall i :: 0 <= i < |data| && Maps.LastWithKey(data, WordOf, i) ==>
              r.db.records[data[i].word] == Stored(data[i], None)
    ensures e.cache.None? ==> forall k :: k in e.db.records && k !in Maps.KeySet(data, WordOf) ==>
              r.db.records[k] == e.db.records[k]
    ensures e.cache.None? ==> r.db.metadata == e.db.metadata["tier1" := Meta(None, |data|, None)]
  {
    if e.cache.Some? then e
    else
      var records := Maps.PutAll(e.db.records, data, WordOf, Unmarked);
      var meta := e.db.metadata["tier1" := Meta(None, |data|, None)];
      var cache := Maps.PutAll(map[], data, LowerWord, AsIs);
      Engine(Some(cache), Db(records, e.db.faults, meta), e.stats)
  }

  /** Loading is done once: a second load changes nothing. */
  lemma LoadTier1Once(e: Engine, data: seq<Entry>, again: seq<Entry>)
    ensures LoadTier1(LoadTier1(e, data), again) == LoadTier1(e, data)
  {
  }

  /** After loading, a bundled word that is already lowercase and trimmed
      is answered from the cache with its last bundled entry. */
  lemma LoadedWordHitsCache(e: Engine, data: seq<Entry>, i: nat, elapsed: real)
    requires e.cache.None? && i < |data| && Maps.LastWithKey(data, LowerWord, i)
    requires Normalize(data[i].word) == data[i].word
    ensures var r := Lookup(LoadTier1(e, data), data[i].word, elapsed).1;
      r == Some(LookupResult(Found(data[i], None), Tier1, elapsed))
  {
    var w := data[i].word;
    assert Lower(w) == w by {
      LowerSliceFixed(w, 0, |w|);
      NormalizeIdempotent(w);
      assert Lower(w)[0..|w|] == Lower(w);
    }
    assert LowerWord(data[i]) == w;
    assert w in Maps.KeySet(data, LowerWord);
  }

  // ---------------------------------------------------------------------
  // Display formatting

  /** The tags the formatter shows. */
  const SHOWN_TAGS: seq<string> := ["cet4", "cet6", "ielts", "toefl", "gre"]

  function IsShownTag(t: string): bool { t in SHOWN_TAGS }

  /** The shown tags of `tags`, uppercased, in their original order. */
  function DisplayTags(tags: seq<string>): (r: seq<string>)
    ensures |r| <= |tags|
  {
    MapSeq(Filter(tags, IsShownTag), Upper)
  }

  /** A displayed tag is the uppercase form of a listed tag the entry has,
      and every listed tag it has is displayed. */
  lemma DisplayTagsMembers(tags: seq<string>, t: string)
    ensures t in SHOWN_TAGS && t in tags ==> Upper(t) in DisplayTags(tags)
    ensures (exists u :: u in SHOWN_TAGS && u in tags && t == Upper(u)) <== t in DisplayTags(tags)
  {
    var kept := Filter(tags, IsShownTag);
    FilterByMembers(tags, IsShownTag, true);
    if t in SHOWN_TAGS && t in tags {
      assert t in kept;
      var j :| 0 <= j < |kept| && kept[j] == t;
      assert DisplayTags(tags)[j] == Upper(t);
    }
    if t in DisplayTags(tags) {
      var j :| 0 <= j < |kept| && DisplayTags(tags)[j] == t;
      assert kept[j] in kept;
    }
  }

  /** Order is kept: a tag added at the end shows up, uppercased, after
      the tags already shown, exactly when it is one of the listed tags.
      With `DisplayTags([]) == []` this determines the displayed list. */
  lemma DisplayTagsSnoc(tags: seq<string>, t: string)
    ensures DisplayTags([]) == []
    ensures DisplayTags(tags + [t]) == DisplayTags(tags) + (if t in SHOWN_TAGS then [Upper(t)] else [])
  {
    FilterByAppend(tags, t, IsShownTag, true);
    MapSeqConcat(Filter(tags, IsShownTag), if t in SHOWN_TAGS then [t] else [], Upper);
  }

  /** The word-form kinds that have a Chinese label. */
  const EXCHANGE_KINDS: seq<string> :=
    ["plural", "past", "thirdPerson", "presentParticiple", "comparative", "superlative"]

  /** The label shown for a word-form kind: a Chinese name for the six known
      kinds, the kind itself otherwise. */
  function ExchangeLabel(kind: string): (name: string)
    ensures kind !in EXCHANGE_KINDS ==> name == kind
  {
    if kind == "plural" then "复数"
    else if kind == "past" then "过去式"
    else if kind == "thirdPerson" then "三单"
    else if kind == "presentParticiple" then "现在分词"
    else if kind == "comparative" then "比较级"
    else if kind == "superlative" then "最高级"
    else kind
  }

  /** A known kind is relabelled, and no two known kinds share a label. */
  lemma ExchangeLabelKnown(kind: string)
    requires kind in EXCHANGE_KINDS
    ensures ExchangeLabel(kind) != kind
    ensures forall other :: other in EXCHANGE_KINDS && ExchangeLabel(other) == ExchangeLabel(kind) ==> other == kind
  {
  }

  /** One star per Collins point after a space, or nothing. */
  function Stars(collins: int): (r: string)
    ensures collins <= 0 ==> r == ""
    ensures collins > 0 ==> |r| == collins + 1 && r[0] == ' ' &&
                            forall i :: 1 <= i < |r| ==> r[i] == '⭐'
  {
    if collins > 0 then " " + Repeat("⭐", collins) else ""
  }

  /** The first line: book sign, word, then the optional phonetic, stars and
      tag list. */
  function Header(e: Entry): string {
    var shown := DisplayTags(e.tags);
    "📖 " + e.word
    + (if e.phonetic != "" then " /" + e.phonetic + "/" else "")
    + Stars(e.collins)
    + (if |shown| > 0 then " [" + Join(shown, ", ") + "]" else "")
  }

  /** One line per word form, in the map's order. */
  function ExchangeLines(ex: OrderedMap.OMap<string, string>): string {
    if |ex| == 0 then "" else Line(ex[0].0, ex[0].1) + ExchangeLines(ex[1..])
  }

  /** The line of one word form: indented label, colon, value. */
  function Line(kind: string, value: string): string {
    "   " + ExchangeLabel(kind) + ": " + value + "\n"
  }

  /** Order is kept: a word form added at the end of the map gets its own
      line after the lines of the forms before it. */
  lemma {:induction false} ExchangeLinesSnoc(ex: OrderedMap.OMap<string, string>, kind: string, value: string)
    ensures ExchangeLines(ex + [(kind, value)]) == ExchangeLines(ex) + Line(kind, value)
  {
    var ys := ex + [(kind, value)];
    if |ex| > 0 {
      assert ys[0] == ex[0];
      assert ys[1..] == ex[1..] + [(kind, value)];
      ExchangeLinesSnoc(ex[1..], kind, value);
      calc {
        ExchangeLines(ys);
        Line(ex[0].0, ex[0].1) + (ExchangeLines(ex[1..]) + Line(kind, value));
        (Line(ex[0].0, ex[0].1) + ExchangeLines(ex[1..])) + Line(kind, value);
      }
    } else {
      assert ys[1..] == [];
    }
  }

  /** Everything before trimming. */
  function Layout(e: Entry): string {
    Header(e) + "\n\n"
    + (if e.translation != "" then "📝 " + e.translation + "\n\n" else "")
    + (if e.definition != "" then "📚 " + e.definition + "\n\n" else "")
    + (if |e.exchange| > 0 then "🔄 词形变化:\n" + ExchangeLines(e.exchange) else "")
  }

  /** `formatEntry(entry)`: the layout, trimmed. It is never empty and has
      no blank at either end. */
  function FormatEntry(e: Entry): (r: string)
    ensures r != ""
    ensures !IsJsSpace(r[0]) && !IsJsSpace(r[|r| - 1])
  {
    var x := Layout(e);
    assert x[0] == '📖' && !IsJsSpace(x[0]);
    Trim(x)
  }

  /** The header ends in a non-blank whenever the word does. */
  lemma HeaderEndsSolid(e: Entry)
    requires |e.word| > 0 && !IsJsSpace(e.word[|e.word| - 1])
    ensures var h := Header(e); StartsWith(h, "📖 " + e.word) && !IsJsSpace(h[|h| - 1])
  {
    var shown := DisplayTags(e.tags);
    var p := "📖 " + e.word;
    var ph := if e.phonetic != "" then " /" + e.phonetic + "/" else "";
    var st := Stars(e.collins);
    var tg := if |shown| > 0 then " [" + Join(shown, ", ") + "]" else "";
    var h := p + ph + st + tg;
    assert Header(e) == h;
    assert h[..|p|] == p;
    if tg != "" {
      assert h[|h| - 1] == tg[|tg| - 1] == ']';
    } else if st != "" {
      assert h[|h| - 1] == st[|st| - 1] == '⭐';
    } else if ph != "" {
      assert h[|h| - 1] == ph[|ph| - 1] == '/';
    } else {
      assert h[|h| - 1] == e.word[|e.word| - 1];
    }
  }

  /** The output starts with the book sign and the word (when the word does
      not end in a blank, which trimming would otherwise eat). */
  lemma FormatStartsWithWord(e: Entry)
    requires |e.word| > 0 && !IsJsSpace(e.word[|e.word| - 1])
    ensures StartsWith(FormatEntry(e), "📖 " + e.word)
  {
    var h := Header(e);
    var x := Layout(e);
    HeaderEndsSolid(e);
    assert x[..|h|] == h;
    TrimKeepsPrefix(x, h, IsJsSpace);
    var r := FormatEntry(e);
    assert r[..|h|] == h;
    assert r[..|"📖 " + e.word|] == h[..|"📖 " + e.word|];
  }

  /** Where the parts of the first line sit: the book sign and the word;
      then ` /phonetic/` when the phonetic is non-empty; then one star per
      Collins point after a space; then the shown tags joined by ", " in
      brackets, which end the line, or nothing when none is shown. */
  lemma HeaderSegments(e: Entry)
    ensures var h := Header(e);
      var w := "📖 " + e.word;
      var k := |w| + (if e.phonetic != "" then |e.phonetic| + 3 else 0);
      var st := Stars(e.collins);
      var shown := DisplayTags(e.tags);
      k + |st| <= |h| &&
      h[..|w|] == w &&
      (e.phonetic != "" ==> h[|w|..k] == " /" + e.phonetic + "/") &&
      h[k..k + |st|] == st &&
      (|shown| > 0 ==> h[k + |st|..] == " [" + Join(shown, ", ") + "]") &&
      (|shown| == 0 ==> |h| == k + |st|)
  {
    var shown := DisplayTags(e.tags);
    var w := "📖 " + e.word;
    var ph := if e.phonetic != "" then " /" + e.phonetic + "/" else "";
    var tg := if |shown| > 0 then " [" + Join(shown, ", ") + "]" else "";
    assert Header(e) == w + ph + Stars(e.collins) + tg;
    Pieces4(w, ph, Stars(e.collins), tg);
  }

  /** The phonetic is shown exactly when it is non-empty: only then does a
      slash follow the space after the word. */
  lemma HeaderPhoneticShown(e: Entry)
    ensures var h := Header(e);
      var w := "📖 " + e.word;
      e.phonetic != "" <==> |h| > |w| + 1 && h[|w|] == ' ' && h[|w| + 1] == '/'
  {
    var shown := DisplayTags(e.tags);
    var w := "📖 " + e.word;
    var ph := if e.phonetic != "" then " /" + e.phonetic + "/" else "";
    var st := Stars(e.collins);
    var tg := if |shown| > 0 then " [" + Join(shown, ", ") + "]" else "";
    var h := w + (ph + st + tg);
    assert Header(e) == h;
    assert h[|w|..] == ph + st + tg;
    if e.phonetic == "" && |h| > |w| + 1 {
      assert h[|w| + 1] == (st + tg)[1];
      if st != "" {
        assert st[1] == '⭐';
      } else {
        assert tg[1] == '[';
      }
    }
  }

  /** The whole first line opens the output, unless it ends in a blank
      (a word ending in a blank, or an empty word, with nothing after it),
      which trimming removes. */
  lemma FormatStartsWithHeader(e: Entry)
    requires !IsJsSpace(Header(e)[|Header(e)| - 1])
    ensures StartsWith(FormatEntry(e), Header(e))
  {
    var h := Header(e);
    var x := Layout(e);
    assert x[..|h|] == h;
    assert h[0] == '📖';
    TrimKeepsPrefix(x, h, IsJsSpace);
  }
}

=== FILE: local_dictionary_examples.dfy ===
/** The literal cases of the project's dictionary test script, checked
    against the model through the general classification lemmas. */
module LocalDictionaryExamples {
  import opened Text
  import opened JsText
  import opened Seqs
  import opened LocalDictionary

  /** The classifier cases listed in the test script. */
  lemma QueryTypeExamples()
    ensures GetQueryType("hello") == SingleWord
    ensures GetQueryType("government") == SingleWord
    ensures GetQueryType("hello world") == Phrase
    ensures GetQueryType("this is a test") == Phrase
    ensures GetQueryType("this is a very long sentence") == Sentence
    ensures GetQueryType("你好") == Sentence
    ensures GetQueryType("hello 世界") == Sentence
    ensures GetQueryType("test@#$") == Sentence
  {
    OneWord("hello");
    OneWord("government");
    Words2();
    Words4();
    Words6();
    Ideographs("你好", 0);
    Ideographs("hello 世界", 6);
    Symbols();
  }

  lemma OneWord(s: string)
    requires s == "hello" || s == "government"
    ensures GetQueryType(s) == SingleWord
  {
    assert IsPlainWord(s);
    JoinedWordsQuery([s]);
    assert Join([s], " ") == s;
  }

  lemma Words2()
    ensures GetQueryType("hello world") == Phrase
  {
    JoinWords2();
    JoinedWordsQuery(["hello", "world"]);
  }

  lemma JoinWords2()
    ensures Join(["hello", "world"], " ") == "hello world"
  {
    var t1: seq<string> := ["world"];
    JoinCons("hello", t1, " ");
    assert ["hello", "world"] == ["hello"] + t1;
  }

  lemma Words4()
    ensures GetQueryType("this is a test") == Phrase
  {
    JoinWords4();
    JoinedWordsQuery(["this", "is", "a", "test"]);
  }

  lemma JoinWords4()
    ensures Join(["this", "is", "a", "test"], " ") == "this is a test"
  {
    var t3: seq<string> := ["test"];
    var t2 := ["a"] + t3;
    var t1 := ["is"] + t2;
    JoinCons("a", t3, " ");
    JoinCons("is", t2, " ");
    JoinCons("this", t1, " ");
    assert ["this", "is", "a", "test"] == ["this"] + t1;
  }

  lemma Words6()
    ensures GetQueryType("this is a very long sentence") == Sentence
  {
    JoinWords6();
    JoinedWordsQuery(["this", "is", "a", "very", "long", "sentence"]);
  }

  lemma JoinWords6()
    ensures Join(["this", "is", "a", "very", "long", "sentence"], " ") == "this is a very long sentence"
  {
    var t5: seq<string> := ["sentence"];
    var t4 := ["long"] + t5;
    var t3 := ["very"] + t4;
    var t2 := ["a"] + t3;
    var t1 := ["is"] + t2;
    JoinCons("long", t5, " ");
    JoinCons("very", t4, " ");
    JoinCons("a", t3, " ");
    JoinCons("is", t2, " ");
    JoinCons("this", t1, " ");
    assert ["this", "is", "a", "very", "long", "sentence"] == ["this"] + t1;
  }

  lemma Ideographs(s: string, i: nat)
    requires (s == "你好" && i == 0) || (s == "hello 世界" && i == 6)
    ensures GetQueryType(s) == Sentence
  {
    TrimByFixed(s, IsJsSpace);
    assert IsCjk(s[i]);
  }

  lemma Symbols()
    ensures GetQueryType("test@#$") == Sentence
  {
    var s := "test@#$";
    assert NoneIn(s, IsJsSpace) && !HasCjk(s);
    assert !IsWordLetter(s[4]);
    UnspacedQuery(s);
  }

  /** The suffix-rule test words of the test script, with the variants the
      rules give them (not always the base form the script expects). */
  lemma VariantExamples()
    ensures Variants("running") == ["runn"]
    ensures Variants("studied") == ["studi"]
    ensures Variants("books") == ["book"]
    ensures Variants("watches") == ["watche", "watch"]
    ensures Variants("bigger") == ["bigg"]
  {
    VariantsRunning();
    VariantsStudied();
    VariantsBooks();
    VariantsWatches();
    VariantsBigger();
  }

  /** `c` is `w` everywhere except at the indices in `ks`. */
  ghost predicate SameExcept<T>(c: seq<T>, w: T, ks: set<nat>) {
    forall i :: 0 <= i < |c| && i !in ks ==> c[i] == w
  }

  lemma VariantsRunning()
    ensures Variants("running") == ["runn"]
  {
    var w := "running";
    RunningChanged();
    NoSuffixSame(w, {0});
    DedupHeadChanged(Candidates(w), w);
    KeepFirst("runn", w);
  }

  lemma RunningChanged()
    ensures Candidates("running")[0] == "runn"
  {
    var w := "running";
    assert EndsWith(w, "ing");
    assert w[..4] == "runn";
  }

  lemma VariantsStudied()
    ensures Variants("studied") == ["studi"]
  {
    var w := "studied";
    StudiedChanged();
    NoSuffixSame(w, {1});
    DedupOneChanged(Candidates(w), w, 1);
    KeepSecond(w, "studi");
  }

  lemma StudiedChanged()
    ensures Candidates("studied")[1] == "studi"
  {
    var w := "studied";
    assert EndsWith(w, "ed");
    assert w[..5] == "studi";
  }

  lemma VariantsBooks()
    ensures Variants("books") == ["book"]
  {
    var w := "books";
    BooksChanged();
    NoSuffixSame(w, {2});
    DedupOneChanged(Candidates(w), w, 2);
    KeepSecond(w, "book");
  }

  lemma BooksChanged()
    ensures Candidates("books")[2] == "book"
  {
    var w := "books";
    assert EndsWith(w, "s");
    assert w[..4] == "book";
  }

  lemma VariantsBigger()
    ensures Variants("bigger") == ["bigg"]
  {
    var w := "bigger";
    BiggerChanged();
    NoSuffixSame(w, {5});
    DedupOneChanged(Candidates(w), w, 5);
    KeepSecond(w, "bigg");
  }

  lemma BiggerChanged()
    ensures Candidates("bigger")[5] == "bigg"
  {
    var w := "bigger";
    assert EndsWith(w, "er");
    assert w[..4] == "bigg";
  }

  lemma VariantsWatches()
    ensures Variants("watches") == ["watche", "watch"]
  {
    var w := "watches";
    WatchesChanged();
    NoSuffixSame(w, {2, 3});
    DedupTwoChanged(Candidates(w), w, 2);
    KeepLastTwo(w, "watche", "watch");
  }

  lemma WatchesChanged()
    ensures Candidates("watches")[2] == "watche" && Candidates("watches")[3] == "watch"
  {
    var w := "watches";
    assert EndsWith(w, "s") && EndsWith(w, "es");
    assert w[..6] == "watche";
    assert w[..5] == "watch";
  }

  /** Rules whose suffix the word lacks leave it unchanged. */
  lemma NoSuffixSame(w: string, ks: set<nat>)
    requires forall i :: 0 <= i < |SUFFIX_RULES| && i !in ks ==> !EndsWith(w, SUFFIX_RULES[i].0)
    ensures SameExcept(Candidates(w), w, ks)
  {
  }

  // De-duplication of candidate lists that repeat the word itself.

  lemma DedupRepeat<T>(w: T, ws: seq<T>)
    requires |ws| > 0 && forall i :: 0 <= i < |ws| ==> ws[i] == w
    ensures Dedup(ws) == [w]
  {
    var tail := ws[1..];
    forall i | 0 <= i < |tail| ensures tail[i] in [w] {
      assert tail[i] == ws[i + 1];
    }
    DedupAbsorbs([w], tail);
    DedupSnoc([], w);
    assert [] + [w] == [w];
    assert ws == [w] + tail;
  }

  lemma DedupHeadChanged<T>(c: seq<T>, w: T)
    requires |c| >= 2 && c[0] != w && SameExcept(c, w, {0})
    ensures Dedup(c) == [c[0], w]
  {
    var a := c[0];
    DedupSnoc([], a);
    assert [] + [a] == [a];
    DedupSnoc([a], w);
    assert c[..2] == [a] + [w];
    DedupAbsorbs(c[..2], c[2..]);
    assert c == c[..2] + c[2..];
  }

  lemma DedupRepeatThen<T>(w: T, ws: seq<T>, x: T)
    requires |ws| > 0 && x != w && forall i :: 0 <= i < |ws| ==> ws[i] == w
    ensures Dedup(ws + [x]) == [w, x]
  {
    DedupRepeat(w, ws);
    assert x !in ws;
    DedupSnoc(ws, x);
  }

  lemma DedupOneChanged<T>(c: seq<T>, w: T, k: nat)
    requires 0 < k < |c| && c[k] != w && SameExcept(c, w, {k})
    ensures Dedup(c) == [w, c[k]]
  {
    var init, head, tail := c[..k], c[..k + 1], c[k + 1..];
    forall i | 0 <= i < |init| ensures init[i] == w {
      assert init[i] == c[i];
    }
    assert head == init + [c[k]];
    DedupRepeatThen(w, init, c[k]);
    forall i | 0 <= i < |tail| ensures tail[i] in head {
      assert tail[i] == c[k + 1 + i] == c[0] == head[0];
    }
    DedupAbsorbs(head, tail);
    assert c == head + tail;
  }

  lemma DedupTwoChanged<T>(c: seq<T>, w: T, k: nat)
    requires 0 < k && k + 1 < |c| && c[k] != w && c[k + 1] != w && c[k] != c[k + 1]
    requires SameExcept(c, w, {k, k + 1})
    ensures Dedup(c) == [w, c[k], c[k + 1]]
  {
    var p := c[..k + 1];
    var q := c[..k + 2];
    assert q == p + [c[k + 1]];
    assert c == q + c[k + 2..];
    assert SameExcept(p, w, {k});
    DedupOneChanged(p, w, k);
    assert c[k + 1] !in p;
    DedupSnoc(p, c[k + 1]);
    assert w in q;
    DedupAbsorbs(q, c[k + 2..]);
  }

  // Filtering the de-duplicated list by usability.

  lemma KeepFirst(a: string, w: string)
    requires Utf16Len(a) > 2 && a != w
    ensures Filter([a, w], (v: string) => Usable(w, v)) == [a]
  {
    var u := (v: string) => Usable(w, v);
    FilterByCons(a, [w], u, true);
    FilterByCons(w, [], u, true);
  }

  lemma KeepSecond(w: string, a: string)
    requires Utf16Len(a) > 2 && a != w
    ensures Filter([w, a], (v: string) => Usable(w, v)) == [a]
  {
    var u := (v: string) => Usable(w, v);
    FilterByCons(w, [a], u, true);
    FilterByCons(a, [], u, true);
  }

  lemma KeepLastTwo(w: string, a: string, b: string)
    requires Utf16Len(a) > 2 && a != w && Utf16Len(b) > 2 && b != w
    ensures Filter([w, a, b], (v: string) => Usable(w, v)) == [a, b]
  {
    var u := (v: string) => Usable(w, v);
    FilterByCons(w, [a, b], u, true);
    FilterByCons(a, [b], u, true);
    FilterByCons(b, [], u, true);
  }
}

=== FILE: maps.dfy ===
/** Batch writes into a keyed store where a later write to the same key
    replaces an earlier one (IndexedDB `put`, `new Map(pairs)`). */
module Maps {
  /** No later element of `xs` shares the key of `xs[i]`. */
  ghost predicate LastWithKey<T>(xs: seq<T>, key: T -> string, i: int)
    requires 0 <= i < |xs|
  {
    forall j :: i < j < |xs| ==> key(xs[j]) != key(xs[i])
  }

  ghost function KeySet<T>(xs: seq<T>, key: T -> string): set<string> {
    set i | 0 <= i < |xs| :: key(xs[i])
  }

  lemma KeySetCons<T>(xs: seq<T>, key: T -> string)
    requires |xs| > 0
    ensures KeySet(xs, key) == {key(xs[0])} + KeySet(xs[1..], key)
  {
    forall k | k in KeySet(xs, key) ensures k in {key(xs[0])} + KeySet(xs[1..], key) {
      var i :| 0 <= i < |xs| && key(xs[i]) == k;
      if i > 0 {
        assert xs[1..][i - 1] == xs[i];
      }
    }
    forall k | k in KeySet(xs[1..], key) ensures k in KeySet(xs, key) {
      var i :| 0 <= i < |xs| - 1 && key(xs[1..][i]) == k;
      assert xs[i + 1] == xs[1..][i];
    }
  }

  /** Writes `val(x)` under `key(x)` for each `x` of `xs` in order. */
  function PutAll<T, V>(m: map<string, V>, xs: seq<T>, key: T -> string, val: T -> V): (r: map<string, V>)
    ensures r.Keys == m.Keys + KeySet(xs, key)
    ensures forall i :: 0 <= i < |xs| && LastWithKey(xs, key, i) ==> r[key(xs[i])] == val(xs[i])
    ensures forall k :: k in m && k !in KeySet(xs, key) ==> r[k] == m[k]
    decreases |xs|
  {
    if |xs| == 0 then m
    else
      var m' := m[key(xs[0]) := val(xs[0])];
      var r := PutAll(m', xs[1..], key, val);
      KeySetCons(xs, key);
      assert forall i :: 0 <= i < |xs| && LastWithKey(xs, key, i) ==> r[key(xs[i])] == val(xs[i]) by {
        forall i | 0 <= i < |xs| && LastWithKey(xs, key, i) ensures r[key(xs[i])] == val(xs[i]) {
          if i == 0 {
            assert key(xs[0]) !in KeySet(xs[1..], key);
          } else {
            assert xs[1..][i - 1] == xs[i];
            assert LastWithKey(xs[1..], key, i - 1) by {
              forall j | i - 1 < j < |xs| - 1 ensures key(xs[1..][j]) != key(xs[1..][i - 1]) {
                assert xs[1..][j] == xs[j + 1];
              }
            }
          }
        }
      }
      r
  }
}

=== FILE: ordered_map.dfy ===
/** Insertion-ordered maps: the JavaScript `Map` and plain-object semantics the
    modelled code relies on. Setting an existing key replaces its value where it
    stands; setting a new key appends it at the end. */
module OrderedMap {
  import opened Wrappers
  import opened Seqs

  type OMap<K, V> = seq<(K, V)>

  function Keys<K, V>(m: OMap<K, V>): (ks: seq<K>)
    ensures |ks| == |m|
    ensures forall i :: 0 <= i < |m| ==> ks[i] == m[i].0
  {
    seq(|m|, i requires 0 <= i < |m| => m[i].0)
  }

  function Values<K, V>(m: OMap<K, V>): (vs: seq<V>)
    ensures |vs| == |m|
    ensures forall i :: 0 <= i < |m| ==> vs[i] == m[i].1
  {
    seq(|m|, i requires 0 <= i < |m| => m[i].1)
  }

  lemma KeysCons<K, V>(x: (K, V), m: OMap<K, V>)
    ensures Keys([x] + m) == [x.0] + Keys(m)
  {
  }

  /** The keys of a non-empty map: its first key, then the rest's. */
  lemma KeysHead<K, V>(m: OMap<K, V>)
    requires |m| > 0
    ensures Keys(m) == [m[0].0] + Keys(m[1..])
  {
    assert m == [m[0]] + m[1..];
    KeysCons(m[0], m[1..]);
  }

  lemma ValuesCons<K, V>(x: (K, V), m: OMap<K, V>)
    ensures Values([x] + m) == [x.1] + Values(m)
  {
  }

  /** The values of a non-empty map: its first value, then the rest's. */
  lemma ValuesHead<K, V>(m: OMap<K, V>)
    requires |m| > 0
    ensures Values(m) == [m[0].1] + Values(m[1..])
  {
    assert m == [m[0]] + m[1..];
    ValuesCons(m[0], m[1..]);
  }

  lemma KeysPrefix<K, V>(m: OMap<K, V>, n: nat)
    requires n <= |m|
    ensures Keys(m[..n]) == Keys(m)[..n]
  {
  }

  /** No key occurs twice. */
  ghost predicate Valid<K, V>(m: OMap<K, V>) {
    Distinct(Keys(m))
  }

  /** `m.get(k)`: the value stored under `k`, if any. */
  function Get<K(==), V>(m: OMap<K, V>, k: K): (r: Option<V>)
    ensures r.Some? <==> k in Keys(m)
    ensures r.Some? ==> (k, r.value) in m
  {
    if |m| == 0 then None
    else if m[0].0 == k then Some(m[0].1)
    else
      KeysHead(m);
      Get(m[1..], k)
  }

  /** `m.set(k, v)` / `obj[k] = v`. */
  function Put<K(==), V>(m: OMap<K, V>, k: K, v: V): (r: OMap<K, V>)
    ensures Keys(r) == if k in Keys(m) then Keys(m) else Keys(m) + [k]
  {
    if |m| == 0 then [(k, v)]
    else if m[0].0 == k then
      KeysHead(m);
      KeysCons((k, v), m[1..]);
      [(k, v)] + m[1..]
    else
      var rest := Put(m[1..], k, v);
      KeysHead(m);
      KeysCons(m[0], rest);
      [m[0]] + rest
  }

  /** Setting a new key appends the pair. */
  lemma {:induction false} PutNew<K, V>(m: OMap<K, V>, k: K, v: V)
    requires k !in Keys(m)
    ensures Put(m, k, v) == m + [(k, v)]
  {
    if |m| > 0 {
      assert m + [(k, v)] == [m[0]] + (m[1..] + [(k, v)]);
      KeysHead(m);
      assert m[0].0 != k && k !in Keys(m[1..]);
      PutNew(m[1..], k, v);
    }
  }

  /** `if (!m.has(k)) m.set(k, v)`. */
  function PutIfAbsent<K(==), V>(m: OMap<K, V>, k: K, v: V): OMap<K, V>
  {
    if k in Keys(m) then m else Put(m, k, v)
  }

  /** The value read back after a `Put` is the one written, and no other key moves. */
  lemma {:induction false} GetPut<K, V>(m: OMap<K, V>, k: K, v: V, j: K)
    ensures Get(Put(m, k, v), j) == if j == k then Some(v) else Get(m, j)
  {
    if |m| > 0 && m[0].0 != k {
      GetPut(m[1..], k, v, j);
    }
  }

  lemma PutValid<K, V>(m: OMap<K, V>, k: K, v: V)
    requires Valid(m)
    ensures Valid(Put(m, k, v))
  {
    var ks := Keys(m);
    if k !in ks {
      var ks' := ks + [k];
      forall i, j | 0 <= i < j < |ks'| ensures ks'[i] != ks'[j] {
        if j == |ks| { assert ks'[i] == ks[i]; }
      }
    }
  }

  /** In a valid map every pair stored is the one `Get` finds. */
  lemma {:induction false} GetOfMember<K, V>(m: OMap<K, V>, i: nat)
    requires Valid(m)
    requires i < |m|
    ensures Get(m, m[i].0) == Some(m[i].1)
  {
    if i > 0 {
      assert Keys(m)[0] != Keys(m)[i];
      var tail := m[1..];
      assert Valid(tail) by {
        forall a, b | 0 <= a < b < |tail| ensures Keys(tail)[a] != Keys(tail)[b] {
          assert Keys(tail)[a] == Keys(m)[a + 1] && Keys(tail)[b] == Keys(m)[b + 1];
        }
      }
      GetOfMember(tail, i - 1);
    }
  }

  /** The Dafny map holding the same bindings. */
  function ToMap<K(==,!new), V>(m: OMap<K, V>): (r: map<K, V>)
    ensures forall k :: k in r <==> k in Keys(m)
    ensures forall k :: k in r ==> Get(m, k) == Some(r[k])
  {
    if |m| == 0 then map[]
    else
      var rest := ToMap(m[1..]);
      KeysHead(m);
      rest[m[0].0 := m[0].1]
  }
}

=== FILE: performance.dfy ===
/** Device performance scoring (src/lib/performance-detector.js): benchmark
    durations to scores, the weighted total, the level thresholds, the
    recommendation per level and the rule for reusing cached results.
    Durations, hardware facts and the clock are inputs; scores are exact
    reals rather than floating point. */
module Performance {
  import opened Wrappers

  /** `benchmarkCPU`: the score for the matrix workload's duration in ms. */
  function CpuScore(duration: real): (s: real)
    ensures 0.0 <= s <= 100.0
    ensures duration < 100.0 <==> s == 100.0
  {
    if duration < 100.0 then 100.0
    else if duration < 300.0 then 80.0 - (duration - 100.0) / 10.0
    else if duration < 500.0 then 60.0 - (duration - 300.0) / 20.0
    else if duration < 1000.0 then 40.0 - (duration - 500.0) / 50.0
    else Max(0.0, 30.0 - (duration - 1000.0) / 100.0)
  }

  function Max(a: real, b: real): real {
    if a >= b then a else b
  }

  /** `benchmarkMemory`: the score for the array workload's duration in ms. */
  function MemoryScore(duration: real): (s: real)
    ensures 0.0 <= s <= 100.0
    ensures duration < 50.0 <==> s == 100.0
  {
    if duration < 50.0 then 100.0
    else if duration < 150.0 then 80.0 - (duration - 50.0) / 5.0
    else if duration < 300.0 then 60.0 - (duration - 150.0) / 15.0
    else Max(0.0, 40.0 - (duration - 300.0) / 30.0)
  }

  /** Faster is never worse: a longer CPU run never scores higher. */
  lemma CpuScoreMonotone(d1: real, d2: real)
    requires d1 <= d2
    ensures CpuScore(d2) <= CpuScore(d1)
  {
    var s1, s2 := CpuScore(d1), CpuScore(d2);
    if d2 >= 1000.0 {
      assert s2 <= 30.0;
    } else if d2 >= 500.0 {
      assert s2 <= 40.0 && (d1 >= 500.0 ==> s2 <= s1) && (d1 < 500.0 ==> s1 >= 50.0);
    } else if d2 >= 300.0 {
      assert d1 >= 300.0 ==> s2 <= s1;
      assert d1 < 300.0 ==> s1 >= 60.0;
    } else if d2 >= 100.0 {
      assert d1 >= 100.0 ==> s2 <= s1;
    }
  }

  /** A longer memory run never scores higher. */
  lemma MemoryScoreMonotone(d1: real, d2: real)
    requires d1 <= d2
    ensures MemoryScore(d2) <= MemoryScore(d1)
  {
    var s1, s2 := MemoryScore(d1), MemoryScore(d2);
    if d2 >= 300.0 {
      assert s2 <= 40.0;
      assert d1 < 300.0 ==> s1 >= 50.0;
    } else if d2 >= 150.0 {
      assert d1 >= 150.0 ==> s2 <= s1;
      assert d1 < 150.0 ==> s1 >= 60.0;
    } else if d2 >= 50.0 {
      assert d1 >= 50.0 ==> s2 <= s1;
    }
  }

  datatype Benchmark = Benchmark(cpuScore: real, memoryScore: real, totalScore: real)

  /** `runBenchmark`: both scores and their 60/40 weighted total. */
  function RunBenchmark(cpuDuration: real, memoryDuration: real): (b: Benchmark)
    ensures 0.0 <= b.totalScore <= 100.0
    ensures Min(b.cpuScore, b.memoryScore) <= b.totalScore <= Max(b.cpuScore, b.memoryScore)
    ensures b.totalScore == 100.0 <==> cpuDuration < 100.0 && memoryDuration < 50.0
  {
    var cpu := CpuScore(cpuDuration);
    var memory := MemoryScore(memoryDuration);
    Benchmark(cpu, memory, cpu * 0.6 + memory * 0.4)
  }

  function Min(a: real, b: real): real {
    if a <= b then a else b
  }

  /** The hardware facts the level uses. */
  datatype Capabilities = Capabilities(cpuCores: real, memory: real, webgpu: bool)

  /** `navigator.hardwareConcurrency || 2`. */
  function CoresOr(reported: Option<int>): (c: int)
    ensures reported.Some? && reported.value != 0 ==> c == reported.value
    ensures reported.None? || reported.value == 0 ==> c == 2
  {
    if reported.Some? && reported.value != 0 then reported.value else 2
  }

  /** Points for a count of cores or of gigabytes: 20 from 8, 15 from 4,
      10 from 2, 5 below. */
  function Band(x: real): (p: real)
    ensures 5.0 <= p <= 20.0
  {
    if x >= 8.0 then 20.0 else if x >= 4.0 then 15.0 else if x >= 2.0 then 10.0 else 5.0
  }

  /** The score `evaluatePerformanceLevel` sums up. */
  function LevelScore(caps: Capabilities, totalScore: real): real {
    Band(caps.cpuCores) + Band(caps.memory) + (if caps.webgpu then 10.0 else 0.0) + totalScore * 0.5
  }

  datatype Level = High | Medium | Low

  const HIGH_THRESHOLD: real := 75.0
  const MEDIUM_THRESHOLD: real := 50.0

  /** `evaluatePerformanceLevel`. */
  function EvaluateLevel(caps: Capabilities, totalScore: real): (l: Level)
    ensures l == High <==> LevelScore(caps, totalScore) >= HIGH_THRESHOLD
    ensures l == Low <==> LevelScore(caps, totalScore) < MEDIUM_THRESHOLD
  {
    var score := LevelScore(caps, totalScore);
    if score >= HIGH_THRESHOLD then High else if score >= MEDIUM_THRESHOLD then Medium else Low
  }

  /** With a total in [0, 100] the level score lies in [10, 100]. */
  lemma LevelScoreBounds(caps: Capabilities, totalScore: real)
    requires 0.0 <= totalScore <= 100.0
    ensures 10.0 <= LevelScore(caps, totalScore) <= 100.0
  {
  }

  function Rank(l: Level): nat {
    match l
    case Low => 0
    case Medium => 1
    case High => 2
  }

  /** More cores, more memory, WebGPU or a better benchmark never lower the
      level. */
  lemma LevelMonotone(a: Capabilities, ta: real, b: Capabilities, tb: real)
    requires a.cpuCores <= b.cpuCores && a.memory <= b.memory && (a.webgpu ==> b.webgpu) && ta <= tb
    ensures Rank(EvaluateLevel(a, ta)) <= Rank(EvaluateLevel(b, tb))
  {
    BandMonotone(a.cpuCores, b.cpuCores);
    BandMonotone(a.memory, b.memory);
  }

  lemma BandMonotone(x: real, y: real)
    requires x <= y
    ensures Band(x) <= Band(y)
  {
  }

  /** What `getRecommendation` reports for a level (its prose left out). */
  datatype Recommendation = Recommendation(canUseSemanticSearch: bool, suggestedModel: string, downloadModelPrompt: bool)

  /** `getRecommendation()`: nothing before a level is known. */
  function GetRecommendation(level: Option<Level>): (r: Option<Recommendation>)
    ensures r.Some? <==> level.Some?
    ensures r.Some? ==> (r.value.canUseSemanticSearch <==> level.value != Low)
    ensures r.Some? ==> (r.value.downloadModelPrompt <==> level.value != Low)
  {
    match level
    case None => None
    case Some(High) => Some(Recommendation(true, "SciBERT (Semantic Search)", true))
    case Some(Medium) => Some(Recommendation(true, "MiniLM-L6 (Lightweight Semantic)", true))
    case Some(Low) => Some(Recommendation(false, "IndexedDB (Keyword Search)", false))
  }

  /** The detection saved under `performanceDetection`. */
  datatype Saved = Saved(level: Level, caps: Capabilities, benchmark: Benchmark, detectedAt: int, version: string)

  const RESULTS_VERSION: string := "1.0.0"
  const SEVEN_DAYS_MS: int := 7 * 24 * 60 * 60 * 1000

  /** `saveResults()` at time `now`. */
  function SaveResults(level: Level, caps: Capabilities, benchmark: Benchmark, now: int): Saved {
    Saved(level, caps, benchmark, now, RESULTS_VERSION)
  }

  /** `loadResults()` at time `now`: the saved detection, when there is one
      of the current version younger than seven days. */
  function LoadResults(saved: Option<Saved>, now: int): (r: Option<Saved>)
    ensures r.Some? ==> saved == r && r.value.version == RESULTS_VERSION
    ensures r.Some? ==> now - r.value.detectedAt < 604800000
    ensures saved.Some? && saved.value.version == RESULTS_VERSION && now - saved.value.detectedAt < 604800000 ==> r.Some?
  {
    if saved.Some? && saved.value.version == RESULTS_VERSION && now - saved.value.detectedAt < SEVEN_DAYS_MS then saved
    else None
  }

  /** A saved detection is reused for exactly seven days after saving. */
  lemma SaveThenLoad(level: Level, caps: Capabilities, benchmark: Benchmark, savedAt: int, now: int)
    ensures LoadResults(Some(SaveResults(level, caps, benchmark, savedAt)), now).Some? <==> now < savedAt + 604800000
    ensures LoadResults(Some(SaveResults(level, caps, benchmark, savedAt)), now).Some? ==>
      LoadResults(Some(SaveResults(level, caps, benchmark, savedAt)), now).value.level == level
  {
  }
}

=== FILE: phrasebank.dfy ===
/** The in-memory academic phrasebank (src/lib/academic-phrasebank.js): the
    phrase data as the JSON file shapes it, and the queries over it. Loading
    the data (file import, extension storage cache) is outside the model;
    a manager is either initialised with data or not. */
module Phrasebank {
  import opened Wrappers
  import opened Seqs
  import opened Text
  import opened OrderedMap
  import opened Sorting

  datatype Phrase = Phrase(
    id: string,
    phrase: string,
    /** May be missing from a record. */
    usage: Option<string>,
    academicScore: real,
    frequency: string,
    examples: seq<string>,
    section: string,
    subsection: string)

  /** A value under a subsection key: a phrase list, or anything else (a
      description string, say), which the queries skip. */
  datatype SubValue = PhraseList(items: seq<Phrase>) | NotAList

  type Section = OMap<string, SubValue>

  /** A citation verb (`verb`) or transition word (`word`) record. */
  datatype WordItem = WordItem(text: string, usage: Option<string>, academicScore: real, example: string)

  datatype Data = Data(
    version: string,
    source: string,
    totalPhrases: int,
    lastUpdated: string,
    sections: OMap<string, Section>,
    citations: Option<OMap<string, seq<WordItem>>>,
    transitions: Option<OMap<string, seq<WordItem>>>)

  /** `phrasebankData` and `isInitialized`. */
  datatype Manager = Manager(data: Option<Data>, initialized: bool)

  predicate Ready(m: Manager) {
    m.initialized && m.data.Some?
  }

  const NOT_INITIALIZED: string := "Phrasebank not initialized"
  /** What reading a property of `undefined` throws. */
  const TYPE_ERROR: string := "TypeError"
  const CITATION_PREFIX: string := "reporting_verbs_"
  /** The option defaults of `searchPhrases` and `getHighFrequencyPhrases`. */
  const DEFAULT_MIN_SCORE: real := 0.0
  const DEFAULT_MAX_RESULTS: int := 20
  const DEFAULT_HIGH_FREQUENCY_COUNT: int := 10

  /** A truthy optional string argument: present and non-empty. */
  predicate Truthy(s: Option<string>) {
    s.Some? && s.value != ""
  }

  // ---------------------------------------------------------------------
  // Flattening sections

  /** The phrases a subsection value contributes: a list's items, else none. */
  function ItemsOf(v: SubValue): seq<Phrase> {
    if v.PhraseList? then v.items else []
  }

  /** `{ ...phrase, section, subsection }`. */
  function Annotate(p: Phrase, section: string, subsection: string): Phrase {
    p.(section := section, subsection := subsection)
  }

  function AnnotateAll(ps: seq<Phrase>, section: string, subsection: string): (r: seq<Phrase>)
    ensures |r| == |ps|
    ensures forall i :: 0 <= i < |ps| ==> r[i] == Annotate(ps[i], section, subsection)
  {
    seq(|ps|, i requires 0 <= i < |ps| => Annotate(ps[i], section, subsection))
  }

  /** The lists of one section, in key order, without annotation. */
  function Lists(sec: Section): seq<seq<Phrase>> {
    seq(|sec|, i requires 0 <= i < |sec| => ItemsOf(sec[i].1))
  }

  /** One section's phrases, each annotated with the section and subsection
      key it was found under. */
  function SectionPhrases(name: string, sec: Section): seq<Phrase> {
    Flatten(seq(|sec|, i requires 0 <= i < |sec| => AnnotateAll(ItemsOf(sec[i].1), name, sec[i].0)))
  }

  /** Every section's phrases, in key order. */
  function AllPhrases(sections: OMap<string, Section>): seq<Phrase> {
    Flatten(seq(|sections|, i requires 0 <= i < |sections| => SectionPhrases(sections[i].0, sections[i].1)))
  }

  /** A flattened phrase is a listed phrase, annotated with the keys of the
      section and subsection that list it. */
  lemma AllPhrasesMembers(sections: OMap<string, Section>, p: Phrase)
    ensures p in AllPhrases(sections) <==>
      exists i, j, q :: 0 <= i < |sections| && 0 <= j < |sections[i].1| &&
        q in ItemsOf(sections[i].1[j].1) &&
        p == Annotate(q, sections[i].0, sections[i].1[j].0)
  {
    var parts := seq(|sections|, i requires 0 <= i < |sections| => SectionPhrases(sections[i].0, sections[i].1));
    FlattenMembers(parts, p);
    if p in AllPhrases(sections) {
      var i :| 0 <= i < |parts| && p in parts[i];
      var j, q := SectionMember(sections[i].0, sections[i].1, p);
    }
    if exists i, j, q :: 0 <= i < |sections| && 0 <= j < |sections[i].1| &&
        q in ItemsOf(sections[i].1[j].1) && p == Annotate(q, sections[i].0, sections[i].1[j].0) {
      var i, j, q :| 0 <= i < |sections| && 0 <= j < |sections[i].1| &&
        q in ItemsOf(sections[i].1[j].1) && p == Annotate(q, sections[i].0, sections[i].1[j].0);
      SectionHas(sections[i].0, sections[i].1, j, q);
      assert p in parts[i];
    }
  }

  lemma SectionMember(name: string, sec: Section, p: Phrase) returns (j: nat, q: Phrase)
    requires p in SectionPhrases(name, sec)
    ensures j < |sec| && q in ItemsOf(sec[j].1) && p == Annotate(q, name, sec[j].0)
  {
    var parts := seq(|sec|, i requires 0 <= i < |sec| => AnnotateAll(ItemsOf(sec[i].1), name, sec[i].0));
    FlattenMembers(parts, p);
    var i :| 0 <= i < |parts| && p in parts[i];
    var k :| 0 <= k < |parts[i]| && parts[i][k] == p;
    j, q := i, ItemsOf(sec[i].1)[k];
  }

  lemma SectionHas(name: string, sec: Section, j: nat, q: Phrase)
    requires j < |sec| && q in ItemsOf(sec[j].1)
    ensures Annotate(q, name, sec[j].0) in SectionPhrases(name, sec)
  {
    var parts := seq(|sec|, i requires 0 <= i < |sec| => AnnotateAll(ItemsOf(sec[i].1), name, sec[i].0));
    var k :| 0 <= k < |ItemsOf(sec[j].1)| && ItemsOf(sec[j].1)[k] == q;
    assert parts[j][k] == Annotate(q, name, sec[j].0);
    FlattenMembers(parts, Annotate(q, name, sec[j].0));
  }

  /** How many phrases the sections' lists hold. */
  function ListedCount(sections: OMap<string, Section>): nat {
    SumLens(seq(|sections|, i requires 0 <= i < |sections| => Flatten(Lists(sections[i].1))))
  }

  /** Flattening keeps every phrase: one record per listed phrase. */
  lemma {:induction false} AllPhrasesCount(sections: OMap<string, Section>)
    ensures |AllPhrases(sections)| == ListedCount(sections)
  {
    var parts := seq(|sections|, i requires 0 <= i < |sections| => SectionPhrases(sections[i].0, sections[i].1));
    var lens := seq(|sections|, i requires 0 <= i < |sections| => Flatten(Lists(sections[i].1)));
    forall i | 0 <= i < |sections| ensures |parts[i]| == |lens[i]| {
      SectionCount(sections[i].0, sections[i].1);
    }
    SumLensSame(parts, lens);
  }

  lemma SectionCount(name: string, sec: Section)
    ensures |SectionPhrases(name, sec)| == |Flatten(Lists(sec))|
  {
    var parts := seq(|sec|, i requires 0 <= i < |sec| => AnnotateAll(ItemsOf(sec[i].1), name, sec[i].0));
    SumLensSame(parts, Lists(sec));
  }

  /** Sequences of parts of equal lengths have equal total length. */
  lemma {:induction false} SumLensSame<T, U>(a: seq<seq<T>>, b: seq<seq<U>>)
    requires |a| == |b| && forall i :: 0 <= i < |a| ==> |a[i]| == |b[i]|
    ensures SumLens(a) == SumLens(b)
  {
    if |a| > 0 {
      SumLensSame(a[1..], b[1..]);
    }
  }

  // ---------------------------------------------------------------------
  // getPhrasesBySection

  /** `getPhrasesBySection(section, subsection)`: an unknown section gives
      []; a truthy subsection gives that list or []; otherwise the section's
      lists are concatenated in key order. */
  function PhrasesBySection(m: Manager, section: string, subsection: Option<string>): (r: Result<seq<Phrase>, string>)
    ensures !Ready(m) <==> r.Err?
  {
    if !Ready(m) then Err(NOT_INITIALIZED)
    else
      match Get(m.data.value.sections, section)
      case None => Ok([])
      case Some(sec) =>
        if Truthy(subsection) then Ok(match Get(sec, subsection.value) case Some(v) => ItemsOf(v) case None => [])
        else Ok(Flatten(Lists(sec)))
  }

  /** Without a subsection, the result holds exactly the phrases of the
      section's lists, every one of them. */
  lemma PhrasesBySectionMembers(m: Manager, section: string, sec: Section, p: Phrase)
    requires Ready(m) && Get(m.data.value.sections, section) == Some(sec)
    ensures PhrasesBySection(m, section, None).Ok?
    ensures p in PhrasesBySection(m, section, None).value <==>
      exists j :: 0 <= j < |sec| && sec[j].1.PhraseList? && p in sec[j].1.items
    ensures |PhrasesBySection(m, section, None).value| == SumLens(Lists(sec))
  {
    FlattenMembers(Lists(sec), p);
    if exists j :: 0 <= j < |sec| && sec[j].1.PhraseList? && p in sec[j].1.items {
      var j :| 0 <= j < |sec| && sec[j].1.PhraseList? && p in sec[j].1.items;
      assert p in Lists(sec)[j];
    }
  }

  // ---------------------------------------------------------------------
  // searchPhrases

  /** A phrase the search keeps: score at least `minScore`, and the
      lowercased query inside the lowercased phrase or usage. */
  predicate Matches(p: Phrase, query: string, minScore: real) {
    p.academicScore >= minScore &&
    (Contains(Lower(p.phrase), query) || (p.usage.Some? && Contains(Lower(p.usage.value), query)))
  }

  /** A phrase on which the in-memory search throws: it passes the score
      test, its phrase does not match, and it has no usage to lowercase. */
  predicate Throws(p: Phrase, query: string, minScore: real) {
    p.academicScore >= minScore && !Contains(Lower(p.phrase), query) && p.usage.None?
  }

  function MatchKey(query: string, minScore: real): Phrase -> bool {
    p => Matches(p, query, minScore)
  }

  /** The search loop over flattened phrases. */
  function Scan(ps: seq<Phrase>, query: string, minScore: real): Result<seq<Phrase>, string> {
    if |ps| == 0 then Ok([])
    else
      var p := ps[0];
      if p.academicScore < minScore then Scan(ps[1..], query, minScore)
      else if !Contains(Lower(p.phrase), query) && p.usage.None? then Err(TYPE_ERROR)
      else if Contains(Lower(p.phrase), query) || Contains(Lower(p.usage.value), query) then
        match Scan(ps[1..], query, minScore)
        case Ok(rest) => Ok([p] + rest)
        case Err(e) => Err(e)
      else Scan(ps[1..], query, minScore)
  }

  /** The loop throws exactly when some phrase has no usage where it is
      needed; otherwise it keeps the matching phrases in order. */
  lemma {:induction false} ScanSpec(ps: seq<Phrase>, query: string, minScore: real)
    ensures Scan(ps, query, minScore) ==
      if exists i :: 0 <= i < |ps| && Throws(ps[i], query, minScore) then Err(TYPE_ERROR)
      else Ok(FilterBy(ps, MatchKey(query, minScore), true))
  {
    if |ps| > 0 {
      var p, tail := ps[0], ps[1..];
      assert ps == [p] + tail;
      ScanSpec(tail, query, minScore);
      FilterByCons(p, tail, MatchKey(query, minScore), true);
      var anyTail := exists i :: 0 <= i < |tail| && Throws(tail[i], query, minScore);
      var any := exists i :: 0 <= i < |ps| && Throws(ps[i], query, minScore);
      assert any <==> Throws(p, query, minScore) || anyTail by {
        if anyTail {
          var i :| 0 <= i < |tail| && Throws(tail[i], query, minScore);
          assert ps[i + 1] == tail[i];
        }
        if any && !Throws(p, query, minScore) {
          var i :| 0 <= i < |ps| && Throws(ps[i], query, minScore);
          assert tail[i - 1] == ps[i];
        }
      }
      var filtered := FilterBy(ps, MatchKey(query, minScore), true);
      if p.academicScore < minScore {
        assert !Matches(p, query, minScore) && !Throws(p, query, minScore);
        assert filtered == FilterBy(tail, MatchKey(query, minScore), true);
      } else if Throws(p, query, minScore) {
        assert Scan(ps, query, minScore) == Err(TYPE_ERROR);
      } else if Matches(p, query, minScore) {
        assert filtered == [p] + FilterBy(tail, MatchKey(query, minScore), true);
      } else {
        assert filtered == FilterBy(tail, MatchKey(query, minScore), true);
      }
    }
  }

  /** The ranking: higher academic score first. */
  function ByScoreDesc(p: Phrase): seq<real> {
    [-p.academicScore]
  }

  /** The sections a search covers: a truthy `section` option narrows it to
      that one (none if unknown); otherwise all. */
  function Scope(sections: OMap<string, Section>, section: Option<string>): OMap<string, Section> {
    if Truthy(section) then
      match Get(sections, section.value)
      case Some(sec) => [(section.value, sec)]
      case None => []
    else sections
  }

  /** `searchPhrases(query, { section, minScore, maxResults })`. */
  function SearchPhrases(m: Manager, query: string, section: Option<string>, minScore: real, maxResults: int): (r: Result<seq<Phrase>, string>)
    ensures !Ready(m) ==> r == Err(NOT_INITIALIZED)
  {
    if !Ready(m) then Err(NOT_INITIALIZED)
    else
      match Scan(AllPhrases(Scope(m.data.value.sections, section)), Lower(query), minScore)
      case Err(e) => Err(e)
      case Ok(found) => Ok(Slice0(SortBy(found, ByScoreDesc), maxResults))
  }

  /** Every result matches the query and the score floor, comes annotated
      from the searched sections, results run from the highest score down,
      and there are at most `maxResults` of them. */
  lemma SearchPhrasesSpec(m: Manager, query: string, section: Option<string>, minScore: real, maxResults: int)
    requires SearchPhrases(m, query, section, minScore, maxResults).Ok?
    ensures var r := SearchPhrases(m, query, section, minScore, maxResults).value;
      var all := AllPhrases(Scope(m.data.value.sections, section));
      (forall p :: p in r ==> Matches(p, Lower(query), minScore) && p in all) &&
      (forall i, j :: 0 <= i < j < |r| ==> r[i].academicScore >= r[j].academicScore) &&
      (maxResults >= 0 ==> |r| <= maxResults)
  {
    var all := AllPhrases(Scope(m.data.value.sections, section));
    var key := MatchKey(Lower(query), minScore);
    ScanSpec(all, Lower(query), minScore);
    var found := FilterBy(all, key, true);
    FilterByMembers(all, key, true);
    RankedTop(found, maxResults);
  }

  /** The search returns the best matches: for a non-negative
      `maxResults`, `min(maxResults, matches)` of the matching phrases of
      the searched sections, and no match left out scores above a result. */
  lemma SearchPhrasesTop(m: Manager, query: string, section: Option<string>, minScore: real, maxResults: int)
    requires SearchPhrases(m, query, section, minScore, maxResults).Ok?
    ensures var r := SearchPhrases(m, query, section, minScore, maxResults).value;
      var all := AllPhrases(Scope(m.data.value.sections, section));
      var found := Filter(all, MatchKey(Lower(query), minScore));
      (forall p :: p in found <==> p in all && Matches(p, Lower(query), minScore)) &&
      (maxResults >= 0 ==> |r| == if maxResults < |found| then maxResults else |found|) &&
      multiset(r) <= multiset(found) &&
      (forall x, y :: x in multiset(found) - multiset(r) && y in r ==> y.academicScore >= x.academicScore)
  {
    var all := AllPhrases(Scope(m.data.value.sections, section));
    ScanSpec(all, Lower(query), minScore);
    FilterByMembers(all, MatchKey(Lower(query), minScore), true);
    RankedTop(Filter(all, MatchKey(Lower(query), minScore)), maxResults);
  }

  /** `ps.sort((a, b) => b.academicScore - a.academicScore).slice(0, n)`:
      the best `n` phrases by score, highest first. The length follows
      `slice`: `min(n, |ps|)` for `n >= 0`, and `n` short of `|ps|` (at
      least 0) for a negative `n`. The results are drawn from `ps` with
      their multiplicity, and no phrase left out scores above one kept. */
  lemma RankedTop(ps: seq<Phrase>, n: int)
    ensures var r := Slice0(SortBy(ps, ByScoreDesc), n);
      (n >= 0 ==> |r| == if n < |ps| then n else |ps|) &&
      (n < 0 ==> |r| == if |ps| + n > 0 then |ps| + n else 0) &&
      multiset(r) <= multiset(ps) &&
      (forall p :: p in r ==> p in ps) &&
      (forall i, j :: 0 <= i < j < |r| ==> r[i].academicScore >= r[j].academicScore) &&
      (forall x, y :: x in multiset(ps) - multiset(r) && y in r ==> y.academicScore >= x.academicScore)
  {
    SortByCorrect(ps, ByScoreDesc);
    RankedOrder(SortBy(ps, ByScoreDesc), |Slice0(SortBy(ps, ByScoreDesc), n)|);
    RankedBest(ps, n);
  }

  /** A prefix of the ranking runs from the highest score down. */
  lemma RankedOrder(sorted: seq<Phrase>, k: nat)
    requires SortedBy(sorted, ByScoreDesc) && k <= |sorted|
    ensures forall i, j :: 0 <= i < j < k ==> sorted[i].academicScore >= sorted[j].academicScore
  {
    forall i, j | 0 <= i < j < k ensures sorted[i].academicScore >= sorted[j].academicScore {
      SingleKeyLe(-sorted[i].academicScore, -sorted[j].academicScore);
    }
  }

  /** The kept phrases come from the input, and none left out scores higher. */
  lemma RankedBest(ps: seq<Phrase>, n: int)
    ensures var r := Slice0(SortBy(ps, ByScoreDesc), n);
      multiset(r) <= multiset(ps) &&
      (forall p :: p in r ==> p in ps) &&
      (forall x, y :: x in multiset(ps) - multiset(r) && y in r ==> y.academicScore >= x.academicScore)
  {
    var sorted := SortBy(ps, ByScoreDesc);
    SortByCorrect(ps, ByScoreDesc);
    var r := Slice0(sorted, n);
    SortTopSplit(sorted, ByScoreDesc, |r|);
    KeyToScore(r, multiset(sorted) - multiset(r));
  }

  /** Ranked no better by key means scoring no higher. */
  lemma KeyToScore(kept: seq<Phrase>, left: multiset<Phrase>)
    requires forall x, y :: x in left && y in kept ==> LexLe(ByScoreDesc(y), ByScoreDesc(x))
    ensures forall x, y :: x in left && y in kept ==> y.academicScore >= x.academicScore
  {
    forall x, y | x in left && y in kept ensures y.academicScore >= x.academicScore {
      SingleKeyLe(-y.academicScore, -x.academicScore);
    }
  }

  /** An empty query matches every phrase at or above the score floor. */
  lemma EmptyQueryMatchesAll(p: Phrase, minScore: real)
    ensures Matches(p, Lower(""), minScore) <==> p.academicScore >= minScore
    ensures !Throws(p, Lower(""), minScore)
  {
    ContainsEmpty(Lower(p.phrase));
  }

  /** Narrowing to a section the data does not have finds nothing. */
  lemma UnknownSectionFindsNothing(m: Manager, query: string, section: string, minScore: real, maxResults: int)
    requires Ready(m) && section != "" && Get(m.data.value.sections, section).None?
    ensures SearchPhrases(m, query, Some(section), minScore, maxResults) == Ok([])
  {
  }

  // ---------------------------------------------------------------------
  // Citation verbs and transition words

  /** The verb lists under keys starting with the citation prefix. */
  function PrefixedLists(c: OMap<string, seq<WordItem>>): seq<seq<WordItem>> {
    seq(|c|, i requires 0 <= i < |c| => if StartsWith(c[i].0, CITATION_PREFIX) then c[i].1 else [])
  }

  /** `getCitationVerbs(strength)`: a truthy strength selects
      `reporting_verbs_<strength>` (or []); otherwise every list whose key
      starts with `reporting_verbs_`, in key order. Without a citations
      block only the strength lookup throws; the key loop runs over nothing.
      The call fails exactly when the phrasebank is not loaded, or when a
      strength is looked up in a missing citations block. */
  function CitationVerbs(m: Manager, strength: Option<string>): (r: Result<seq<WordItem>, string>)
    ensures !Ready(m) ==> r == Err(NOT_INITIALIZED)
    ensures r.Err? <==> !Ready(m) || (m.data.value.citations.None? && Truthy(strength))
    ensures Ready(m) && m.data.value.citations.None? && !Truthy(strength) ==> r == Ok([])
  {
    if !Ready(m) then Err(NOT_INITIALIZED)
    else
      var cs := m.data.value.citations;
      if Truthy(strength) then
        if cs.None? then Err(TYPE_ERROR)
        else Ok(Get(cs.value, CITATION_PREFIX + strength.value).GetOr([]))
      else if cs.None? then Ok([])
      else Ok(Flatten(PrefixedLists(cs.value)))
  }

  /** With no strength, the verbs are exactly those of the prefixed lists. */
  lemma CitationVerbsMembers(m: Manager, w: WordItem)
    requires Ready(m) && m.data.value.citations.Some?
    ensures var c := m.data.value.citations.value;
      w in CitationVerbs(m, None).value <==>
        exists i :: 0 <= i < |c| && StartsWith(c[i].0, CITATION_PREFIX) && w in c[i].1
  {
    var c := m.data.value.citations.value;
    FlattenMembers(PrefixedLists(c), w);
    if exists i :: 0 <= i < |c| && StartsWith(c[i].0, CITATION_PREFIX) && w in c[i].1 {
      var i :| 0 <= i < |c| && StartsWith(c[i].0, CITATION_PREFIX) && w in c[i].1;
      assert w in PrefixedLists(c)[i];
    }
  }

  /** A named strength reads exactly its prefixed key. */
  lemma CitationVerbsByStrength(m: Manager, strength: string)
    requires Ready(m) && m.data.value.citations.Some? && strength != ""
    ensures var c := m.data.value.citations.value;
      CitationVerbs(m, Some(strength)) ==
        Ok(if CITATION_PREFIX + strength in Keys(c) then Get(c, CITATION_PREFIX + strength).value else [])
  {
  }

  /** `getTransitionWords(type)`: a truthy type selects its list (or []);
      otherwise every category's list, in key order. Without a transitions
      block only the type lookup throws; the key loop runs over nothing.
      The call fails exactly when the phrasebank is not loaded, or when a
      type is looked up in a missing transitions block. */
  function TransitionWords(m: Manager, kind: Option<string>): (r: Result<seq<WordItem>, string>)
    ensures !Ready(m) ==> r == Err(NOT_INITIALIZED)
    ensures r.Err? <==> !Ready(m) || (m.data.value.transitions.None? && Truthy(kind))
    ensures Ready(m) && m.data.value.transitions.None? && !Truthy(kind) ==> r == Ok([])
  {
    if !Ready(m) then Err(NOT_INITIALIZED)
    else
      var ts := m.data.value.transitions;
      if Truthy(kind) then
        if ts.None? then Err(TYPE_ERROR)
        else Ok(Get(ts.value, kind.value).GetOr([]))
      else if ts.None? then Ok([])
      else Ok(Flatten(Values(ts.value)))
  }

  /** With no type, every word of every category is returned, each list in
      full. */
  lemma TransitionWordsAll(m: Manager, w: WordItem)
    requires Ready(m) && m.data.value.transitions.Some?
    ensures var t := m.data.value.transitions.value;
      (w in TransitionWords(m, None).value <==> exists i :: 0 <= i < |t| && w in t[i].1) &&
      |TransitionWords(m, None).value| == SumLens(Values(t))
  {
    var t := m.data.value.transitions.value;
    FlattenMembers(Values(t), w);
    if exists i :: 0 <= i < |t| && w in t[i].1 {
      var i :| 0 <= i < |t| && w in t[i].1;
      assert w in Values(t)[i];
    }
  }

  // ---------------------------------------------------------------------
  // getHighFrequencyPhrases and getInfo

  predicate IsHighFrequency(p: Phrase) {
    p.frequency == "very_high" || p.frequency == "high"
  }

  /** `getHighFrequencyPhrases(section, count)`. */
  function HighFrequencyPhrases(m: Manager, section: string, count: int): (r: Result<seq<Phrase>, string>)
    ensures !Ready(m) <==> r.Err?
  {
    match PhrasesBySection(m, section, None)
    case Err(e) => Err(e)
    case Ok(ps) => Ok(Slice0(SortBy(Filter(ps, IsHighFrequency), ByScoreDesc), count))
  }

  /** Only very-high and high frequency phrases of the section, highest
      score first, at most `count` of them. */
  lemma HighFrequencySpec(m: Manager, section: string, count: int)
    requires Ready(m)
    ensures var r := HighFrequencyPhrases(m, section, count).value;
      var ps := PhrasesBySection(m, section, None).value;
      (forall p :: p in r ==> IsHighFrequency(p) && p in ps) &&
      (forall i, j :: 0 <= i < j < |r| ==> r[i].academicScore >= r[j].academicScore) &&
      (count >= 0 ==> |r| <= count)
  {
    var ps := PhrasesBySection(m, section, None).value;
    FilterByMembers(ps, IsHighFrequency, true);
    RankedTop(Filter(ps, IsHighFrequency), count);
  }

  /** `getHighFrequencyPhrases(section)` returns at most ten very-high or
      high frequency phrases of the section. */
  lemma HighFrequencyDefault(m: Manager, section: string)
    requires Ready(m)
    ensures var r := HighFrequencyPhrases(m, section, DEFAULT_HIGH_FREQUENCY_COUNT).value;
      |r| <= 10 && forall p :: p in r ==> IsHighFrequency(p)
  {
    HighFrequencySpec(m, section, DEFAULT_HIGH_FREQUENCY_COUNT);
  }

  /** `searchPhrases(query)` with the default options searches every
      section for phrases scoring at least 0 and returns at most twenty. */
  lemma SearchPhrasesDefault(m: Manager, query: string)
    requires SearchPhrases(m, query, None, DEFAULT_MIN_SCORE, DEFAULT_MAX_RESULTS).Ok?
    ensures var r := SearchPhrases(m, query, None, DEFAULT_MIN_SCORE, DEFAULT_MAX_RESULTS).value;
      |r| <= 20 && forall p :: p in r ==> Matches(p, Lower(query), 0.0)
  {
    SearchPhrasesSpec(m, query, None, DEFAULT_MIN_SCORE, DEFAULT_MAX_RESULTS);
  }

  /** The high-frequency phrases returned are the best ones: for a
      non-negative `count`, `min(count, candidates)` of the section's very
      high and high frequency phrases, and none left out scores above a
      result. */
  lemma HighFrequencyTop(m: Manager, section: string, count: int)
    requires Ready(m)
    ensures var r := HighFrequencyPhrases(m, section, count).value;
      var hf := Filter(PhrasesBySection(m, section, None).value, IsHighFrequency);
      (count >= 0 ==> |r| == if count < |hf| then count else |hf|) &&
      multiset(r) <= multiset(hf) &&
      (forall x, y :: x in multiset(hf) - multiset(r) && y in r ==> y.academicScore >= x.academicScore)
  {
    RankedTop(Filter(PhrasesBySection(m, section, None).value, IsHighFrequency), count);
  }

  datatype Info = Info(version: string, source: string, totalPhrases: int, lastUpdated: string,
                       sections: seq<string>, isInitialized: bool)

  /** `getInfo()`: the only query that answers null instead of throwing
      when nothing is loaded. */
  function GetInfo(m: Manager): (r: Option<Info>)
    ensures r.None? <==> !Ready(m)
    ensures r.Some? ==> r.value.sections == Keys(m.data.value.sections) && r.value.isInitialized
  {
    if !Ready(m) then None
    else
      var d := m.data.value;
      Some(Info(d.version, d.source, d.totalPhrases, d.lastUpdated, Keys(d.sections), m.initialized))
  }
}

=== FILE: py_text.dfy ===
/** Python `str` semantics used by the phrasebank scrapers: the whitespace
    class of `\s` / `str.isspace`, `re.sub(r'\s+', ' ', s)`, `str.strip`,
    `str.replace`, and the word-boundary regular expressions the scorers use. */
module PyText {
  import opened Text

  /** The characters Python's `\s` matches in a `str` pattern. */
  predicate IsPySpace(c: char) {
    var v := c as int;
    (0x09 <= v <= 0x0D) || (0x1C <= v <= 0x20) || v == 0x85 || v == 0xA0
    || v == 0x1680 || (0x2000 <= v <= 0x200A) || v == 0x2028 || v == 0x2029
    || v == 0x202F || v == 0x205F || v == 0x3000
  }

  /** `s.strip()`. */
  function Strip(s: string): string {
    TrimBy(s, IsPySpace)
  }

  /** No two neighbouring characters are both whitespace. */
  predicate NoDoubleSpace(s: string) {
    forall i :: 0 <= i < |s| - 1 ==> !(IsPySpace(s[i]) && IsPySpace(s[i + 1]))
  }

  /** Every whitespace character is a plain space. */
  predicate OnlyPlainSpaces(s: string) {
    forall i :: 0 <= i < |s| ==> IsPySpace(s[i]) ==> s[i] == ' '
  }

  /** `re.sub(r'\s+', ' ', s)`: every maximal whitespace run becomes one space. */
  function Collapse(s: string): (r: string)
    ensures |r| <= |s|
    ensures NoDoubleSpace(r) && OnlyPlainSpaces(r)
  {
    CollapseFrom(s, 0)
  }

  /** The collapse of `s` from index `i` on. */
  function CollapseFrom(s: string, i: nat): (r: string)
    requires i <= |s|
    ensures |r| <= |s| - i
    ensures NoDoubleSpace(r) && OnlyPlainSpaces(r)
    ensures i < |s| ==> |r| > 0 && (IsPySpace(s[i]) <==> IsPySpace(r[0]))
    decreases |s| - i
  {
    if i == |s| then ""
    else if IsPySpace(s[i]) then
      var t := CollapseFrom(s, RunEnd(s, IsPySpace, i, true));
      assert |t| > 0 ==> !IsPySpace(t[0]);
      " " + t
    else
      [s[i]] + CollapseFrom(s, i + 1)
  }

  /** Text without whitespace collapses to itself. */
  lemma {:induction false} CollapseNoBlank(s: string, i: nat)
    requires i <= |s|
    requires forall k | i <= k < |s| :: !IsPySpace(s[k])
    ensures CollapseFrom(s, i) == s[i..]
    decreases |s| - i
  {
    if i < |s| {
      CollapseNoBlank(s, i + 1);
      assert s[i..] == [s[i]] + s[i + 1..];
    }
  }

  /** A non-blank string that starts the collapse from `i` already stands in
      `s` at `i`: collapsing never joins characters into a new word. */
  lemma {:induction false} CollapsePrefix(s: string, i: nat, w: string)
    requires i <= |s|
    requires NoneIn(w, IsPySpace)
    requires StartsWith(CollapseFrom(s, i), w)
    ensures OccursAt(s, w, i)
    decreases |w|
  {
    if |w| > 0 {
      var c := CollapseFrom(s, i);
      assert c[0] == w[0];
      assert !IsPySpace(s[i]);
      assert c == [s[i]] + CollapseFrom(s, i + 1);
      assert StartsWith(CollapseFrom(s, i + 1), w[1..]) by {
        assert CollapseFrom(s, i + 1)[..|w| - 1] == c[1..|w|];
      }
      CollapsePrefix(s, i + 1, w[1..]);
      assert s[i..i + |w|] == [s[i]] + s[i + 1..i + |w|];
    }
  }

  /** Where the collapse from `i` continues after its first character. */
  function CollapseNext(s: string, i: nat): (n: nat)
    requires i < |s|
    ensures i < n <= |s|
  {
    if IsPySpace(s[i]) then RunEnd(s, IsPySpace, i, true) else i + 1
  }

  lemma CollapseStep(s: string, i: nat)
    requires i < |s|
    ensures CollapseFrom(s, i)[1..] == CollapseFrom(s, CollapseNext(s, i))
  {
  }

  /** A non-blank string occurring in the collapse from `i` occurs in `s`
      at or after `i`. */
  lemma {:induction false} CollapseFromContains(s: string, i: nat, w: string, at: nat)
    requires i <= |s|
    requires |w| > 0 && NoneIn(w, IsPySpace)
    requires OccursAt(CollapseFrom(s, i), w, at)
    ensures exists p | i <= p <= |s| - |w| :: OccursAt(s, w, p)
    decreases |s| - i
  {
    var c := CollapseFrom(s, i);
    if at == 0 {
      assert c[..|w|] == w;
      CollapsePrefix(s, i, w);
    } else {
      var n := CollapseNext(s, i);
      CollapseStep(s, i);
      assert c[1..][at - 1..at - 1 + |w|] == c[at..at + |w|];
      CollapseFromContains(s, n, w, at - 1);
    }
  }

  /** A non-blank string found in the collapsed text was already in the input. */
  lemma CollapseContains(s: string, w: string)
    requires |w| > 0 && NoneIn(w, IsPySpace)
    requires Contains(Collapse(s), w)
    ensures Contains(s, w)
  {
    var at :| 0 <= at <= |Collapse(s)| - |w| && OccursAt(Collapse(s), w, at);
    CollapseFromContains(s, 0, w, at);
  }

  /** `s.replace(pat, rep)`: every non-overlapping occurrence of `pat`, scanning
      from the left, is replaced. */
  function ReplaceAll(s: string, pat: string, rep: string): string
    requires |pat| > 0
    decreases |s|
  {
    if |s| == 0 then ""
    else if StartsWith(s, pat) then rep + ReplaceAll(s[|pat|..], pat, rep)
    else [s[0]] + ReplaceAll(s[1..], pat, rep)
  }

  /** Replacing a pattern that never occurs changes nothing. */
  lemma {:induction false} ReplaceAbsent(s: string, pat: string, rep: string)
    requires |pat| > 0
    requires !Contains(s, pat)
    ensures ReplaceAll(s, pat, rep) == s
    decreases |s|
  {
    if |s| > 0 {
      if StartsWith(s, pat) {
        assert OccursAt(s, pat, 0);
      }
      if Contains(s[1..], pat) {
        assert s[1..|s|] == s[1..];
        ContainsWithin(s, 1, |s|, pat);
      }
      ReplaceAbsent(s[1..], pat, rep);
    }
  }

  /** A character `\w` matches (its ASCII part). */
  predicate IsWordChar(c: char) {
    ('a' <= c <= 'z') || ('A' <= c <= 'Z') || ('0' <= c <= '9') || c == '_'
  }

  /** `\b` before index `i` when `s[i]` is a word character. */
  predicate BoundaryBefore(s: string, i: int)
    requires 0 <= i <= |s|
  {
    i == 0 || !IsWordChar(s[i - 1])
  }

  /** `\b` after index `j` when `s[j - 1]` is a word character. */
  predicate BoundaryAfter(s: string, j: int)
    requires 0 <= j <= |s|
  {
    j == |s| || !IsWordChar(s[j])
  }

  /** `pat` occurs at `i`, comparing ASCII case-insensitively when `fold`. */
  predicate MatchAt(s: string, pat: string, i: int, fold: bool) {
    0 <= i <= |s| - |pat|
    && (if fold then Lower(s[i..i + |pat|]) == pat else s[i..i + |pat|] == pat)
  }

  /** `re.search(r'\b(w1|w2|...)\b', s)`: some listed word stands in `s` as a
      whole word. */
  predicate HasWholeWord(s: string, words: seq<string>) {
    exists i, k | 0 <= i <= |s| && 0 <= k < |words| ::
      MatchAt(s, words[k], i, false)
      && BoundaryBefore(s, i) && BoundaryAfter(s, i + |words[k]|)
  }

  const AUXILIARIES: seq<string> := ["is", "are", "was", "were", "been", "being"]

  /** After an auxiliary ending at `j`: `\s+\w+ed\b`, i.e. a non-empty whitespace
      run and then a whole word of at least three characters ending in "ed". */
  predicate ParticipleAfter(s: string, j: int, fold: bool)
    requires 0 <= j <= |s|
  {
    var k := RunEnd(s, IsPySpace, j, true);
    var e := RunEnd(s, IsWordChar, k, true);
    k > j && e - k >= 3 && MatchAt(s, "ed", e - 2, fold)
  }

  /** `re.search(r'\b(is|are|was|were|been|being)\s+\w+ed\b', s)`, with the
      `re.IGNORECASE` flag when `fold`. */
  predicate HasPassive(s: string, fold: bool) {
    exists i, k | 0 <= i <= |s| && 0 <= k < |AUXILIARIES| ::
      MatchAt(s, AUXILIARIES[k], i, fold) && BoundaryBefore(s, i)
      && ParticipleAfter(s, i + |AUXILIARIES[k]|, fold)
  }
}

=== FILE: scrapers.dfy ===
/** What the two phrasebank scrapers share: the frequency labels, counting
    which listed words occur in a phrase, and the final clamp of a score to
    [0, 10]. Rounding to one decimal (`round(score, 1)`) is left out: every
    score the scrapers add up is a multiple of 0.5, which it leaves alone. */
module Scoring {
  import opened Text

  const VERY_HIGH: string := "very_high"
  const HIGH: string := "high"
  const MEDIUM: string := "medium"

  /** The order of the frequency labels, most frequent highest. */
  function Rank(f: string): nat {
    if f == VERY_HIGH then 2 else if f == HIGH then 1 else 0
  }

  /** `for word in words: if word in s: score += 0.5`, counted in units:
      how many of the listed words occur in `s`. */
  function Listed(s: string, words: seq<string>): (n: nat)
    ensures n <= |words|
  {
    if |words| == 0 then 0
    else Listed(s, words[..|words| - 1]) + (if Contains(s, words[|words| - 1]) then 1 else 0)
  }

  /** The positions in the list whose word occurs in `s`. */
  ghost function ListedSet(s: string, words: seq<string>): set<nat> {
    set k: nat | k < |words| && Contains(s, words[k])
  }

  /** Each listed word counts once, however often it occurs: the count is
      the number of list positions whose word occurs somewhere in `s`. */
  lemma {:induction false} ListedCounts(s: string, words: seq<string>)
    ensures Listed(s, words) == |ListedSet(s, words)|
  {
    if |words| > 0 {
      var n := |words| - 1;
      var init := words[..n];
      ListedCounts(s, init);
      var a := ListedSet(s, init);
      assert forall k :: 0 <= k < n ==> init[k] == words[k];
      if Contains(s, words[n]) {
        assert ListedSet(s, words) == a + {n};
        assert n !in a;
      } else {
        assert ListedSet(s, words) == a;
      }
    }
  }

  /** Nothing is counted exactly when no listed word occurs. */
  lemma ListedNone(s: string, words: seq<string>)
    ensures Listed(s, words) == 0 <==> forall k :: 0 <= k < |words| ==> !Contains(s, words[k])
  {
    ListedCounts(s, words);
    if Listed(s, words) != 0 {
      var k :| k in ListedSet(s, words);
      assert Contains(s, words[k]);
    }
  }

  /** Text holding every listed word another text holds counts at least as many. */
  lemma {:induction false} ListedMonotone(a: string, b: string, words: seq<string>)
    requires forall k :: 0 <= k < |words| && Contains(a, words[k]) ==> Contains(b, words[k])
    ensures Listed(a, words) <= Listed(b, words)
  {
    if |words| > 0 {
      var init := words[..|words| - 1];
      assert forall k :: 0 <= k < |init| ==> init[k] == words[k];
      ListedMonotone(a, b, init);
    }
  }

  /** `min(10.0, max(0.0, x))`. */
  function Clamp(x: real): (r: real)
    ensures 0.0 <= r <= 10.0
    ensures 0.0 <= x <= 10.0 ==> r == x
  {
    var y := if x > 0.0 then x else 0.0;
    if y < 10.0 then y else 10.0
  }

  lemma ClampMonotone(x: real, y: real)
    requires x <= y
    ensures Clamp(x) <= Clamp(y)
  {
  }
}

/** scripts/scrape-phrasebank-v2.py: cleaning a scraped phrase, and the
    academic-score and frequency heuristics. Fetching and parsing the pages
    is outside the model. */
module ScraperV2 {
  import opened Text
  import opened PyText
  import opened Scoring

  const ACADEMIC_WORDS: seq<string> := [
    "demonstrate", "investigate", "examine", "analyze", "evaluate",
    "assess", "determine", "establish", "identify", "explore",
    "indicate", "reveal", "suggest", "propose", "argue",
    "hypothesis", "objective", "methodology", "significant", "substantial"]

  const CONNECTORS: seq<string> := [
    "furthermore", "moreover", "consequently", "therefore",
    "nevertheless", "notwithstanding", "thus", "hence"]

  const NBSP: string := "&nbsp;"

  // ---------------------------------------------------------------------
  // clean_phrase

  /** `clean_phrase`: collapse whitespace runs to one space, strip, and only
      then replace the `&nbsp;` entity by a space. */
  function CleanPhrase(s: string): string {
    ReplaceAll(Strip(Collapse(s)), NBSP, " ")
  }

  /** Without the entity, a cleaned phrase has non-blank ends, only plain
      spaces and never two whitespace characters in a row. */
  lemma CleanPhraseTidy(s: string)
    requires !Contains(s, NBSP)
    ensures CleanPhrase(s) == Strip(Collapse(s))
    ensures var r := CleanPhrase(s);
      (|r| > 0 ==> !IsPySpace(r[0]) && !IsPySpace(r[|r| - 1]))
      && NoDoubleSpace(r) && OnlyPlainSpaces(r)
  {
    var c := Collapse(s);
    StrippedNoEntity(s);
    ReplaceAbsent(Strip(c), NBSP, " ");
    SliceTidy(c, TrimLo(c, IsPySpace), TrimHi(c, IsPySpace));
  }

  /** A piece of text with tidy whitespace has tidy whitespace. */
  lemma SliceTidy(c: string, lo: nat, hi: nat)
    requires lo <= hi <= |c|
    requires NoDoubleSpace(c) && OnlyPlainSpaces(c)
    ensures NoDoubleSpace(c[lo..hi]) && OnlyPlainSpaces(c[lo..hi])
  {
    var t := c[lo..hi];
    assert forall i :: 0 <= i < |t| ==> t[i] == c[lo + i];
  }

  /** The entity cannot appear in the cleaned text unless it was in the input. */
  lemma StrippedNoEntity(s: string)
    requires !Contains(s, NBSP)
    ensures !Contains(Strip(Collapse(s)), NBSP)
  {
    var c := Collapse(s);
    assert NoneIn(NBSP, IsPySpace);
    if Contains(Strip(c), NBSP) {
      ContainsWithin(c, TrimLo(c, IsPySpace), TrimHi(c, IsPySpace), NBSP);
      CollapseContains(s, NBSP);
    }
  }

  /** Cleaning a phrase that is already clean changes nothing. */
  lemma CleanPhraseIdempotent(s: string)
    requires !Contains(s, NBSP)
    ensures CleanPhrase(CleanPhrase(s)) == CleanPhrase(s)
  {
    var t := CleanPhrase(s);
    CleanPhraseTidy(s);
    StrippedNoEntity(s);
    CollapseFixed(t, 0);
    assert t[0..] == t;
    TrimByFixed(t, IsPySpace);
    ReplaceAbsent(t, NBSP, " ");
  }

  /** Text whose whitespace is already single plain spaces collapses to itself. */
  lemma {:induction false} CollapseFixed(t: string, i: nat)
    requires i <= |t|
    requires NoDoubleSpace(t) && OnlyPlainSpaces(t)
    ensures CollapseFrom(t, i) == t[i..]
    decreases |t| - i
  {
    if i < |t| {
      CollapseFixed(t, i + 1);
      if IsPySpace(t[i]) {
        RunEndIs(t, IsPySpace, i, i + 1, true);
      }
      assert t[i..] == [t[i]] + t[i + 1..];
    }
  }

  // ---------------------------------------------------------------------
  // evaluate_academic_score

  /** The score before the clamp: 5.0, plus 1.5 for a passive construction
      (case-insensitive), plus 0.5 per academic word and per connector found
      as a substring of the lowercased phrase. */
  function RawScore(phrase: string): real {
    var lower := Lower(phrase);
    5.0 + (if HasPassive(phrase, true) then 1.5 else 0.0)
        + 0.5 * Listed(lower, ACADEMIC_WORDS) as real
        + 0.5 * Listed(lower, CONNECTORS) as real
  }

  /** `evaluate_academic_score`: the score only ever adds to the base 5.0, so
      the clamp keeps it within [5.0, 10.0]. */
  function AcademicScore(phrase: string): (r: real)
    ensures 5.0 <= r <= 10.0
  {
    Clamp(RawScore(phrase))
  }

  /** The base score is kept exactly when the phrase shows no feature at all. */
  lemma AcademicScoreBaseline(phrase: string)
    ensures AcademicScore(phrase) == 5.0 <==>
      !HasPassive(phrase, true)
      && (forall k :: 0 <= k < |ACADEMIC_WORDS| ==> !Contains(Lower(phrase), ACADEMIC_WORDS[k]))
      && (forall k :: 0 <= k < |CONNECTORS| ==> !Contains(Lower(phrase), CONNECTORS[k]))
  {
    ListedNone(Lower(phrase), ACADEMIC_WORDS);
    ListedNone(Lower(phrase), CONNECTORS);
  }

  /** A phrase showing every feature another shows scores at least as high. */
  lemma AcademicScoreGrows(p: string, q: string)
    requires HasPassive(p, true) ==> HasPassive(q, true)
    requires forall k :: 0 <= k < |ACADEMIC_WORDS| && Contains(Lower(p), ACADEMIC_WORDS[k]) ==>
      Contains(Lower(q), ACADEMIC_WORDS[k])
    requires forall k :: 0 <= k < |CONNECTORS| && Contains(Lower(p), CONNECTORS[k]) ==>
      Contains(Lower(q), CONNECTORS[k])
    ensures AcademicScore(p) <= AcademicScore(q)
  {
    ListedMonotone(Lower(p), Lower(q), ACADEMIC_WORDS);
    ListedMonotone(Lower(p), Lower(q), CONNECTORS);
    ClampMonotone(RawScore(p), RawScore(q));
  }

  /** Matching is by substring: "enthusiasm" holds the connector "thus" and
      so scores above the base. */
  lemma SubstringMatches(s: string)
    requires s == "enthusiasm"
    ensures AcademicScore(s) >= 5.5
  {
    assert Lower(s) == s by {
      LowerEnthusiasm(s);
    }
    assert OccursAt(s, CONNECTORS[6], 2) by {
      assert s[2..6] == "thus";
    }
    ListedNone(s, CONNECTORS);
  }

  lemma LowerEnthusiasm(s: string)
    requires s == "enthusiasm"
    ensures Lower(s) == s
  {
    forall i | 0 <= i < |s| ensures LowerChar(s[i]) == s[i] {
      assert 'a' <= s[i] <= 'z';
    }
  }

  // ---------------------------------------------------------------------
  // evaluate_frequency

  /** `len(phrase.split())`: the number of maximal non-whitespace runs. */
  function WordCount(phrase: string): nat {
    NumRuns(phrase, IsPySpace)
  }

  /** `evaluate_frequency`: very_high up to 5 words, high up to 10, else medium. */
  function Frequency(phrase: string): string {
    var n := WordCount(phrase);
    if n <= 5 then VERY_HIGH else if n <= 10 then HIGH else MEDIUM
  }

  /** More words never make a phrase more frequent. */
  lemma FrequencyMonotone(p: string, q: string)
    requires WordCount(p) <= WordCount(q)
    ensures Rank(Frequency(p)) >= Rank(Frequency(q))
  {
  }

  /** A single word is always very frequent. */
  lemma FrequencyOneWord(w: string)
    requires |w| > 0 && NoneIn(w, IsPySpace)
    ensures WordCount(w) == 1 && Frequency(w) == VERY_HIGH
  {
    NumRunsOneWord(w, IsPySpace);
  }
}

/** scripts/scrape-manchester-phrasebank.py: its own score and frequency
    heuristics, and how `scrape_all_sections` groups each section's phrases
    by subsection and adds up the total. The scraped phrases of a section
    are an input: fetching and parsing the pages is outside the model. */
module ManchesterScraper {
  import opened Wrappers
  import opened Seqs
  import opened Text
  import opened OrderedMap
  import opened Grouping
  import opened PyText
  import opened Scoring
  import opened Phrasebank

  const ACADEMIC_WORDS: seq<string> := [
    "demonstrate", "investigate", "examine", "analyze", "evaluate",
    "illustrate", "elucidate", "substantiate", "corroborate", "methodology",
    "furthermore", "moreover", "consequently", "notwithstanding"]

  const CLAUSE_WORDS: seq<string> := [
    "which", "that", "who", "whom", "where", "when", "although", "whereas"]

  const COMMON_WORDS: seq<string> := ["this", "the", "a", "an", "in", "on", "at"]

  /** The keys of the `SECTIONS` dictionary, in its order. */
  const SECTION_NAMES: seq<string> := ["introduction", "methods", "results", "discussion", "conclusion"]

  // ---------------------------------------------------------------------
  // evaluate_academic_score

  /** The score before the clamp: 5.0, plus 1.5 for a passive construction
      (case-sensitive here), plus 0.5 per academic word found in the
      lowercased phrase, plus 1.0 when a clause word stands as a whole word
      (also case-sensitive). */
  function RawScore(phrase: string): real {
    5.0 + (if HasPassive(phrase, false) then 1.5 else 0.0)
        + 0.5 * Listed(Lower(phrase), ACADEMIC_WORDS) as real
        + (if HasWholeWord(phrase, CLAUSE_WORDS) then 1.0 else 0.0)
  }

  /** `evaluate_academic_score`: within [5.0, 10.0]. */
  function AcademicScore(phrase: string): (r: real)
    ensures 5.0 <= r <= 10.0
  {
    Clamp(RawScore(phrase))
  }

  /** The base score is kept exactly when the phrase shows no feature at all. */
  lemma AcademicScoreBaseline(phrase: string)
    ensures AcademicScore(phrase) == 5.0 <==>
      !HasPassive(phrase, false) && !HasWholeWord(phrase, CLAUSE_WORDS)
      && (forall k :: 0 <= k < |ACADEMIC_WORDS| ==> !Contains(Lower(phrase), ACADEMIC_WORDS[k]))
  {
    ListedNone(Lower(phrase), ACADEMIC_WORDS);
  }

  /** A phrase showing every feature another shows scores at least as high. */
  lemma AcademicScoreGrows(p: string, q: string)
    requires HasPassive(p, false) ==> HasPassive(q, false)
    requires HasWholeWord(p, CLAUSE_WORDS) ==> HasWholeWord(q, CLAUSE_WORDS)
    requires forall k :: 0 <= k < |ACADEMIC_WORDS| && Contains(Lower(p), ACADEMIC_WORDS[k]) ==>
      Contains(Lower(q), ACADEMIC_WORDS[k])
    ensures AcademicScore(p) <= AcademicScore(q)
  {
    ListedMonotone(Lower(p), Lower(q), ACADEMIC_WORDS);
    ClampMonotone(RawScore(p), RawScore(q));
  }

  // ---------------------------------------------------------------------
  // evaluate_frequency

  /** `evaluate_frequency`: very_high for a phrase under 30 characters with
      one of the common words standing alone (case-sensitive), else high
      under 60 characters, else medium. */
  function Frequency(phrase: string): string {
    if |phrase| < 30 && HasWholeWord(phrase, COMMON_WORDS) then VERY_HIGH
    else if |phrase| < 60 then HIGH
    else MEDIUM
  }

  /** very_high needs both conditions, and a phrase of 60 characters or more
      is medium whatever it says. */
  lemma FrequencyCases(phrase: string)
    ensures Frequency(phrase) == VERY_HIGH <==> |phrase| < 30 && HasWholeWord(phrase, COMMON_WORDS)
    ensures Frequency(phrase) == MEDIUM <==> |phrase| >= 60
  {
  }

  /** Among phrases that agree on the common-word test, a longer phrase is
      never more frequent. */
  lemma FrequencyMonotone(p: string, q: string)
    requires HasWholeWord(p, COMMON_WORDS) == HasWholeWord(q, COMMON_WORDS)
    requires |p| <= |q|
    ensures Rank(Frequency(p)) >= Rank(Frequency(q))
  {
  }

  /** The common-word test is case-sensitive and needs whole words: in "In
      conclusion" neither "In" nor the "on" inside "conclusion" counts, so
      the phrase is only high. */
  lemma FrequencyCaseSensitive(s: string)
    requires s == "In conclusion"
    ensures Frequency(s) == HIGH
  {
    NoCommonWord(s);
  }

  lemma NoCommonWord(s: string)
    requires s == "In conclusion"
    ensures !HasWholeWord(s, COMMON_WORDS)
  {
    forall i, k | 0 <= i <= |s| && 0 <= k < |COMMON_WORDS| && MatchAt(s, COMMON_WORDS[k], i, false)
      ensures !(BoundaryBefore(s, i) && BoundaryAfter(s, i + |COMMON_WORDS[k]|))
    {
      NotWholeAt(s, COMMON_WORDS[k], i);
    }
  }

  /** Where a common word's first two letters stand in "In conclusion", a
      letter precedes them. */
  lemma NotWholeAt(s: string, w: string, i: nat)
    requires s == "In conclusion"
    requires w in COMMON_WORDS && MatchAt(s, w, i, false)
    ensures !BoundaryBefore(s, i)
  {
    assert s[i] == w[0] by {
      assert s[i..i + |w|][0] == s[i];
    }
    assert s[i + 1] == w[1] by {
      assert s[i..i + |w|][1] == s[i + 1];
    }
    assert i == 4 || i == 11;
    assert IsWordChar(s[i - 1]);
  }

  /** The lowercase phrase passes the same test. */
  lemma FrequencyLowercase(s: string)
    requires s == "in conclusion"
    ensures Frequency(s) == VERY_HIGH
  {
    var w := COMMON_WORDS[4];
    assert w == "in";
    assert MatchAt(s, w, 0, false) by {
      assert s[0..2] == "in";
    }
    assert BoundaryBefore(s, 0) && BoundaryAfter(s, 0 + |w|);
    assert HasWholeWord(s, COMMON_WORDS);
  }

  // ---------------------------------------------------------------------
  // scrape_all_sections: grouping and the total

  function SubsectionKey(p: Phrase): string {
    p.subsection
  }

  /** Wraps each group as the phrase list a section holds under its key. */
  function AsSection(g: OMap<string, seq<Phrase>>): (sec: Section)
    ensures |sec| == |g|
    ensures forall i :: 0 <= i < |g| ==> sec[i] == (g[i].0, PhraseList(g[i].1))
  {
    seq(|g|, i requires 0 <= i < |g| => (g[i].0, PhraseList(g[i].1)))
  }

  /** One section's phrases, grouped by their `subsection` field in order of
      first appearance. */
  function Subsections(ps: seq<Phrase>): Section {
    AsSection(GroupBy(ps, SubsectionKey))
  }

  /** The subsection keys are the distinct subsections, in first-appearance
      order, and each holds exactly its phrases in scraped order. */
  lemma SubsectionsGroup(ps: seq<Phrase>, k: string)
    ensures Keys(Subsections(ps)) == Dedup(MapSeq(ps, SubsectionKey))
    ensures Get(Subsections(ps), k) ==
      if k in MapSeq(ps, SubsectionKey) then Some(PhraseList(FilterBy(ps, SubsectionKey, k))) else None
  {
    var g := GroupBy(ps, SubsectionKey);
    GroupByKeys(ps, SubsectionKey);
    GroupByGet(ps, SubsectionKey, k);
    AsSectionGet(g, k);
    assert Keys(Subsections(ps)) == Keys(g);
  }

  lemma {:induction false} AsSectionGet(g: OMap<string, seq<Phrase>>, k: string)
    ensures Get(AsSection(g), k) == if Get(g, k).Some? then Some(PhraseList(Get(g, k).value)) else None
  {
    if |g| > 0 && g[0].0 != k {
      assert AsSection(g)[1..] == AsSection(g[1..]);
      AsSectionGet(g[1..], k);
    }
  }

  /** Grouping keeps every phrase of the section exactly once. */
  lemma SubsectionsCount(ps: seq<Phrase>)
    ensures |Flatten(Lists(Subsections(ps)))| == |ps|
  {
    var g := GroupBy(ps, SubsectionKey);
    assert Lists(Subsections(ps)) == Values(g);
    GroupByCount(ps, SubsectionKey);
  }

  /** The data `scrape_all_sections` assembles: the sections and the total. */
  datatype Scraped = Scraped(sections: OMap<string, Section>, totalPhrases: nat)

  /** The loop over the section names: each section's grouped phrases are
      stored under its name and its phrase count is added to the total. */
  function ScrapeSections(names: seq<string>, scrape: string -> seq<Phrase>): Scraped {
    if |names| == 0 then Scraped([], 0)
    else
      var prev := ScrapeSections(names[..|names| - 1], scrape);
      var name := names[|names| - 1];
      var ps := scrape(name);
      Scraped(Put(prev.sections, name, Subsections(ps)), prev.totalPhrases + |ps|)
  }

  /** `scrape_all_sections`, given what scraping each section yields. */
  function ScrapeAll(scrape: string -> seq<Phrase>): Scraped {
    ScrapeSections(SECTION_NAMES, scrape)
  }

  /** The sections come in loop order; a repeated name would keep its first
      place. */
  lemma {:induction false} ScrapeSectionsKeys(names: seq<string>, scrape: string -> seq<Phrase>)
    ensures Keys(ScrapeSections(names, scrape).sections) == Dedup(names)
  {
    if |names| > 0 {
      var init := names[..|names| - 1];
      var name := names[|names| - 1];
      ScrapeSectionsKeys(init, scrape);
    }
  }

  /** For distinct section names, the recorded total is exactly the number
      of phrases the phrasebank lists under them. */
  lemma {:induction false} ScrapeSectionsTotal(names: seq<string>, scrape: string -> seq<Phrase>)
    requires Distinct(names)
    ensures ListedCount(ScrapeSections(names, scrape).sections) == ScrapeSections(names, scrape).totalPhrases
  {
    if |names| > 0 {
      var init := names[..|names| - 1];
      var name := names[|names| - 1];
      DistinctPrefix(names, |names| - 1);
      ScrapeSectionsTotal(init, scrape);
      ScrapeSectionsKeys(init, scrape);
      DedupFacts(init);
      DistinctLast(names);
      var prev := ScrapeSections(init, scrape);
      var sec := Subsections(scrape(name));
      assert name !in Keys(prev.sections);
      PutNew(prev.sections, name, sec);
      SubsectionsCount(scrape(name));
      ScrapeStep(prev, name, sec, |scrape(name)|, ScrapeSections(names, scrape));
    }
  }

  /** One step of the loop keeps the total equal to the listed count. */
  lemma ScrapeStep(prev: Scraped, name: string, sec: Section, n: nat, next: Scraped)
    requires ListedCount(prev.sections) == prev.totalPhrases
    requires |Flatten(Lists(sec))| == n
    requires next == Scraped(prev.sections + [(name, sec)], prev.totalPhrases + n)
    ensures ListedCount(next.sections) == next.totalPhrases
  {
    ListedCountSnoc(prev.sections, name, sec);
  }

  lemma ListedCountSnoc(m: OMap<string, Section>, name: string, sec: Section)
    ensures ListedCount(m + [(name, sec)]) == ListedCount(m) + |Flatten(Lists(sec))|
  {
    var m' := m + [(name, sec)];
    var a := seq(|m|, i requires 0 <= i < |m| => Flatten(Lists(m[i].1)));
    var b := seq(|m'|, i requires 0 <= i < |m'| => Flatten(Lists(m'[i].1)));
    assert b == a + [Flatten(Lists(sec))];
    SumLensSnoc(a, Flatten(Lists(sec)));
  }

  lemma {:induction false} SumLensSnoc<T>(xss: seq<seq<T>>, ys: seq<T>)
    ensures SumLens(xss + [ys]) == SumLens(xss) + |ys|
  {
    FlattenAppend(xss, ys);
  }

  lemma SectionNamesDistinct()
    ensures Distinct(SECTION_NAMES)
  {
  }

  /** The scraped data lists the five sections in the dictionary's order. */
  lemma ScrapeAllKeys(scrape: string -> seq<Phrase>)
    ensures Keys(ScrapeAll(scrape).sections) == SECTION_NAMES
  {
    SectionNamesDistinct();
    ScrapeSectionsKeys(SECTION_NAMES, scrape);
    DedupDistinct(SECTION_NAMES);
  }

  /** `totalPhrases` counts exactly the phrases the phrasebank will flatten
      out of the scraped sections. */
  lemma ScrapeAllTotal(scrape: string -> seq<Phrase>)
    ensures ListedCount(ScrapeAll(scrape).sections) == ScrapeAll(scrape).totalPhrases
    ensures |AllPhrases(ScrapeAll(scrape).sections)| == ScrapeAll(scrape).totalPhrases
  {
    SectionNamesDistinct();
    ScrapeSectionsTotal(SECTION_NAMES, scrape);
    AllPhrasesCount(ScrapeAll(scrape).sections);
  }

  /** Each section holds its own phrases, grouped by subsection. */
  lemma ScrapeAllGet(scrape: string -> seq<Phrase>, name: string)
    requires name in SECTION_NAMES
    ensures Get(ScrapeAll(scrape).sections, name) == Some(Subsections(scrape(name)))
  {
    ScrapeSectionsGet(SECTION_NAMES, scrape, name);
  }

  /** A member other than the last is among the earlier elements. */
  lemma InInit(names: seq<string>, name: string)
    requires name in names && name != names[|names| - 1]
    ensures name in names[..|names| - 1]
  {
    var i :| 0 <= i < |names| && names[i] == name;
    assert names[..|names| - 1][i] == name;
  }

  /** The section stored under a name is the grouping of that name's phrases. */
  lemma {:induction false} ScrapeSectionsGet(names: seq<string>, scrape: string -> seq<Phrase>, name: string)
    requires name in names
    ensures Get(ScrapeSections(names, scrape).sections, name) == Some(Subsections(scrape(name)))
  {
    var init := names[..|names| - 1];
    var last := names[|names| - 1];
    GetPut(ScrapeSections(init, scrape).sections, last, Subsections(scrape(last)), name);
    if name != last {
      InInit(names, name);
      ScrapeSectionsGet(init, scrape, name);
    }
  }
}

=== FILE: seqs.dfy ===
/** Sequence helpers shared by every part of the model: JavaScript's
    `slice(0, n)`, flattening, filtering by a key, and first-occurrence
    de-duplication (`[...new Set(xs)]`). */
module Seqs {

  /** Length of `xs.slice(0, end)` in JavaScript for a sequence of length `len`:
      a negative `end` counts back from the end, and the result never exceeds `len`. */
  function SliceLen(len: nat, end: int): (n: nat)
    ensures n <= len
    ensures 0 <= end ==> n == (if end < len then end else len)
    ensures end < 0 ==> n + (-end) >= len && (n > 0 ==> n + (-end) == len)
  {
    if end < 0 then (if len + end > 0 then len + end else 0)
    else if end < len then end
    else len
  }

  /** JavaScript's `xs.slice(0, end)`. */
  function Slice0<T>(xs: seq<T>, end: int): (r: seq<T>)
    ensures |r| == SliceLen(|xs|, end)
    ensures r == xs[..|r|]
  {
    xs[..SliceLen(|xs|, end)]
  }

  function Sum(xs: seq<int>): int
  {
    if |xs| == 0 then 0 else xs[0] + Sum(xs[1..])
  }

  /** Total length of a sequence of sequences. */
  function SumLens<T>(xss: seq<seq<T>>): (n: nat)
  {
    if |xss| == 0 then 0 else |xss[0]| + SumLens(xss[1..])
  }

  lemma SumLensCons<T>(xs: seq<T>, xss: seq<seq<T>>)
    ensures SumLens([xs] + xss) == |xs| + SumLens(xss)
  {
    assert ([xs] + xss)[1..] == xss;
  }

  /** Concatenation of a sequence of sequences, in order
      (`for (...) all.push(...xs)` in the modelled code). */
  function Flatten<T>(xss: seq<seq<T>>): (r: seq<T>)
    ensures |r| == SumLens(xss)
  {
    if |xss| == 0 then [] else xss[0] + Flatten(xss[1..])
  }

  lemma {:induction false} FlattenAppend<T>(xss: seq<seq<T>>, ys: seq<T>)
    ensures Flatten(xss + [ys]) == Flatten(xss) + ys
  {
    if |xss| == 0 {
      assert xss + [ys] == [ys];
    } else {
      assert (xss + [ys])[1..] == xss[1..] + [ys];
      FlattenAppend(xss[1..], ys);
    }
  }

  /** An element of a concatenation comes from one of the parts. */
  lemma {:induction false} FlattenMembers<T>(xss: seq<seq<T>>, x: T)
    ensures x in Flatten(xss) <==> exists i :: 0 <= i < |xss| && x in xss[i]
  {
    if |xss| > 0 {
      FlattenMembers(xss[1..], x);
      if x in Flatten(xss[1..]) {
        var i :| 0 <= i < |xss| - 1 && x in xss[1..][i];
        assert x in xss[i + 1];
      }
      if exists i :: 0 <= i < |xss| && x in xss[i] {
        var i :| 0 <= i < |xss| && x in xss[i];
        if i > 0 {
          assert x in xss[1..][i - 1];
        }
      }
    }
  }

  /** `xs.map(f)`. */
  function MapSeq<T, U>(xs: seq<T>, f: T -> U): (r: seq<U>)
    ensures |r| == |xs|
    ensures forall i :: 0 <= i < |xs| ==> r[i] == f(xs[i])
  {
    seq(|xs|, i requires 0 <= i < |xs| => f(xs[i]))
  }

  lemma MapSeqAppend<T, U>(xs: seq<T>, x: T, f: T -> U)
    ensures MapSeq(xs + [x], f) == MapSeq(xs, f) + [f(x)]
  {
  }

  lemma MapSeqConcat<T, U>(xs: seq<T>, ys: seq<T>, f: T -> U)
    ensures MapSeq(xs + ys, f) == MapSeq(xs, f) + MapSeq(ys, f)
  {
  }

  /** The four pieces of a concatenation, read back by slicing. */
  lemma Pieces4<T>(a: seq<T>, b: seq<T>, c: seq<T>, d: seq<T>)
    ensures var s := a + b + c + d;
      s[..|a|] == a && s[|a|..|a| + |b|] == b &&
      s[|a| + |b|..|a| + |b| + |c|] == c && s[|a| + |b| + |c|..] == d
  {
    var s := a + b + c + d;
    assert s == a + (b + (c + d));
    assert s[|a|..] == b + (c + d);
    assert s[|a| + |b|..] == c + d;
  }

  /** The elements of `xs` whose key is `k`, in their original order. */
  function FilterBy<T, K(==)>(xs: seq<T>, key: T -> K, k: K): (r: seq<T>)
    ensures |r| <= |xs|
  {
    if |xs| == 0 then []
    else (if key(xs[0]) == k then [xs[0]] else []) + FilterBy(xs[1..], key, k)
  }

  /** What the filter keeps: exactly the elements whose key is `k`. */
  lemma {:induction false} FilterByMembers<T, K>(xs: seq<T>, key: T -> K, k: K)
    ensures forall x :: x in FilterBy(xs, key, k) <==> x in xs && key(x) == k
  {
    if |xs| > 0 {
      FilterByMembers(xs[1..], key, k);
      assert xs == [xs[0]] + xs[1..];
    }
  }

  /** A filter every element passes keeps the whole sequence. */
  lemma {:induction false} FilterByAll<T, K>(xs: seq<T>, key: T -> K, k: K)
    requires forall i :: 0 <= i < |xs| ==> key(xs[i]) == k
    ensures FilterBy(xs, key, k) == xs
  {
    if |xs| > 0 {
      assert forall i :: 0 <= i < |xs| - 1 ==> xs[1..][i] == xs[i + 1];
      FilterByAll(xs[1..], key, k);
    }
  }

  lemma FilterByCons<T, K>(x: T, xs: seq<T>, key: T -> K, k: K)
    ensures FilterBy([x] + xs, key, k) == (if key(x) == k then [x] else []) + FilterBy(xs, key, k)
  {
    assert ([x] + xs)[1..] == xs;
  }

  lemma {:induction false} FilterByAppend<T, K>(xs: seq<T>, x: T, key: T -> K, k: K)
    ensures FilterBy(xs + [x], key, k) == FilterBy(xs, key, k) + (if key(x) == k then [x] else [])
  {
    if |xs| == 0 {
      assert xs + [x] == [x] + [];
      FilterByCons(x, [], key, k);
    } else {
      assert xs + [x] == [xs[0]] + (xs[1..] + [x]);
      assert xs == [xs[0]] + xs[1..];
      FilterByCons(xs[0], xs[1..] + [x], key, k);
      FilterByCons(xs[0], xs[1..], key, k);
      FilterByAppend(xs[1..], x, key, k);
    }
  }

  /** `xs.filter(p)`: the elements satisfying `p`, in order. */
  function Filter<T>(xs: seq<T>, p: T -> bool): seq<T> {
    FilterBy(xs, p, true)
  }

  ghost predicate Distinct<T>(xs: seq<T>) {
    forall i, j :: 0 <= i < j < |xs| ==> xs[i] != xs[j]
  }

  lemma DistinctPrefix<T>(xs: seq<T>, n: nat)
    requires Distinct(xs) && n <= |xs|
    ensures Distinct(xs[..n])
  {
    forall i, j | 0 <= i < j < n ensures xs[..n][i] != xs[..n][j] {
      assert xs[..n][i] == xs[i] && xs[..n][j] == xs[j];
    }
  }

  /** `[...new Set(xs)]`: every element once, at the place it first occurs. */
  function Dedup<T(==)>(xs: seq<T>): (r: seq<T>)
    ensures |r| <= |xs|
  {
    if |xs| == 0 then []
    else
      var d := Dedup(xs[..|xs| - 1]);
      var last := xs[|xs| - 1];
      if last in d then d else d + [last]
  }

  /** De-duplication keeps exactly the elements of the input, each once. */
  lemma {:induction false} DedupFacts<T>(xs: seq<T>)
    ensures Distinct(Dedup(xs))
    ensures forall x :: x in Dedup(xs) <==> x in xs
  {
    if |xs| > 0 {
      var init, last := xs[..|xs| - 1], xs[|xs| - 1];
      DedupFacts(init);
      assert xs == init + [last];
    }
  }

  /** Adding an element to a set: a new element goes at the end, a repeated
      one changes nothing. */
  lemma DedupSnoc<T>(xs: seq<T>, x: T)
    ensures x in xs ==> Dedup(xs + [x]) == Dedup(xs)
    ensures x !in xs ==> Dedup(xs + [x]) == Dedup(xs) + [x]
  {
    var ys := xs + [x];
    assert ys[..|ys| - 1] == xs;
    DedupFacts(xs);
  }

  /** Elements already present add nothing. */
  lemma {:induction false} DedupAbsorbs<T>(xs: seq<T>, ys: seq<T>)
    requires forall i :: 0 <= i < |ys| ==> ys[i] in xs
    ensures Dedup(xs + ys) == Dedup(xs)
    decreases |ys|
  {
    if |ys| > 0 {
      var init, last := ys[..|ys| - 1], ys[|ys| - 1];
      assert forall i :: 0 <= i < |init| ==> init[i] == ys[i];
      DedupAbsorbs(xs, init);
      assert last in xs + init;
      assert xs + ys == (xs + init) + [last];
      DedupSnoc(xs + init, last);
    } else {
      assert xs + ys == xs;
    }
  }

  /** The last element of a distinct sequence is not among the earlier ones. */
  lemma DistinctLast<T>(xs: seq<T>)
    requires Distinct(xs) && |xs| > 0
    ensures xs[|xs| - 1] !in xs[..|xs| - 1]
  {
    var init := xs[..|xs| - 1];
    forall i | 0 <= i < |init| ensures init[i] != xs[|xs| - 1] {
      assert init[i] == xs[i];
    }
  }

  /** De-duplication leaves a sequence without repeats unchanged. */
  lemma {:induction false} DedupDistinct<T>(xs: seq<T>)
    requires Distinct(xs)
    ensures Dedup(xs) == xs
  {
    if |xs| > 0 {
      var init := xs[..|xs| - 1];
      DistinctPrefix(xs, |xs| - 1);
      DedupDistinct(init);
      DistinctLast(xs);
      assert xs == init + [xs[|xs| - 1]];
    }
  }

  /** A distinct sequence has as many elements as the set of its elements. */
  lemma {:induction false} DistinctCard<T>(xs: seq<T>)
    requires Distinct(xs)
    ensures |set x | x in xs| == |xs|
  {
    if |xs| > 0 {
      var tail := xs[1..];
      assert Distinct(tail) by {
        forall i, j | 0 <= i < j < |tail| ensures tail[i] != tail[j] {
          assert tail[i] == xs[i + 1] && tail[j] == xs[j + 1];
        }
      }
      DistinctCard(tail);
      assert xs[0] !in tail by {
        forall i | 0 <= i < |tail| ensures tail[i] != xs[0] {
          assert tail[i] == xs[i + 1];
        }
      }
      assert (set x | x in xs) == (set x | x in tail) + {xs[0]} by {
        forall x | x in xs ensures x in tail || x == xs[0] {
          var i :| 0 <= i < |xs| && xs[i] == x;
          if i > 0 { assert tail[i - 1] == x; }
        }
      }
    }
  }

  /** De-duplication leaves one element per distinct input element. */
  lemma DedupCard<T>(xs: seq<T>)
    ensures |Dedup(xs)| == |set x | x in xs|
  {
    var d := Dedup(xs);
    DedupFacts(xs);
    DistinctCard(d);
    SameSet(d, xs);
  }

  lemma SameSet<T>(a: seq<T>, b: seq<T>)
    requires forall x :: x in a <==> x in b
    ensures (set x | x in a) == (set x | x in b)
  {
  }

  /** `xs.indexOf(x)`, with `|xs|` standing for "absent". */
  function FirstIndex<T(==)>(xs: seq<T>, x: T): (i: nat)
    ensures i <= |xs|
    ensures i < |xs| ==> xs[i] == x
    ensures forall j :: 0 <= j < i ==> xs[j] != x
  {
    if |xs| == 0 then 0 else if xs[0] == x then 0 else 1 + FirstIndex(xs[1..], x)
  }

  /** The first index is the only index with its two properties. */
  lemma {:induction false} FirstIndexIs<T>(xs: seq<T>, x: T, k: nat)
    requires k <= |xs| && (k < |xs| ==> xs[k] == x)
    requires forall j :: 0 <= j < k ==> xs[j] != x
    ensures FirstIndex(xs, x) == k
  {
    if k > 0 {
      assert forall j :: 0 <= j < k - 1 ==> xs[1..][j] == xs[j + 1];
      FirstIndexIs(xs[1..], x, k - 1);
    }
  }

  /** Appending an element does not move the first occurrence of anything already present. */
  lemma FirstIndexAppend<T>(xs: seq<T>, y: T, x: T)
    ensures x in xs ==> FirstIndex(xs + [y], x) == FirstIndex(xs, x)
    ensures x !in xs && x == y ==> FirstIndex(xs + [y], x) == |xs|
  {
    var ys := xs + [y];
    var k := FirstIndex(xs, x);
    if x in xs {
      assert k < |xs|;
      FirstIndexIs(ys, x, k);
    } else if x == y {
      FirstIndexIs(ys, x, |xs|);
    }
  }

  /** `d` lists elements in the order of their first occurrence in `xs`. */
  ghost predicate InFirstOrder<T>(d: seq<T>, xs: seq<T>) {
    forall i, j :: 0 <= i < j < |d| ==> FirstIndex(xs, d[i]) < FirstIndex(xs, d[j])
  }

  /** De-duplication keeps elements in the order of their first occurrence. */
  lemma {:induction false} DedupOrdered<T>(xs: seq<T>)
    ensures InFirstOrder(Dedup(xs), xs)
  {
    if |xs| > 0 {
      var init, last := xs[..|xs| - 1], xs[|xs| - 1];
      DedupOrdered(init);
      DedupOrderedStep(init, last);
      assert xs == init + [last];
    }
  }

  lemma DedupOrderedStep<T>(init: seq<T>, last: T)
    requires InFirstOrder(Dedup(init), init)
    ensures InFirstOrder(Dedup(init + [last]), init + [last])
  {
    var xs := init + [last];
    assert xs[..|xs| - 1] == init;
    DedupFacts(init);
    var d0 := Dedup(init);
    if last !in d0 {
      var d := d0 + [last];
      assert Dedup(xs) == d;
      forall i, j | 0 <= i < j < |d| ensures FirstIndex(xs, d[i]) < FirstIndex(xs, d[j]) {
        DedupKeepsIndex(init, last, i);
        assert d[i] == d0[i];
        if j < |d0| {
          DedupKeepsIndex(init, last, j);
          assert d[j] == d0[j];
        } else {
          assert d[j] == last && last !in init;
          FirstIndexAppend(init, last, last);
        }
      }
    } else {
      assert Dedup(xs) == d0;
      forall i, j | 0 <= i < j < |d0| ensures FirstIndex(xs, d0[i]) < FirstIndex(xs, d0[j]) {
        DedupKeepsIndex(init, last, i);
        DedupKeepsIndex(init, last, j);
      }
    }
  }

  /** An element kept so far keeps its first index, which lies before the new one. */
  lemma DedupKeepsIndex<T>(init: seq<T>, last: T, i: nat)
    requires i < |Dedup(init)|
    ensures var x := Dedup(init)[i];
      FirstIndex(init + [last], x) == FirstIndex(init, x) < |init|
  {
    var x := Dedup(init)[i];
    DedupFacts(init);
    assert x in init;
    FirstIndexAppend(init, last, x);
  }

  /** A strict increase along `xs` by the rank `f`. */
  ghost predicate IncreasingBy<T>(xs: seq<T>, f: T -> int) {
    forall i, j :: 0 <= i < j < |xs| ==> f(xs[i]) < f(xs[j])
  }

  /** Filtering keeps any strict order the elements were in. */
  lemma {:induction false} FilterByOrdered<T, K>(xs: seq<T>, key: T -> K, k: K, f: T -> int)
    requires IncreasingBy(xs, f)
    ensures IncreasingBy(FilterBy(xs, key, k), f)
  {
    if |xs| > 0 {
      var tail := xs[1..];
      assert IncreasingBy(tail, f) by {
        forall i, j | 0 <= i < j < |tail| ensures f(tail[i]) < f(tail[j]) {
          assert tail[i] == xs[i + 1] && tail[j] == xs[j + 1];
        }
      }
      FilterByOrdered(tail, key, k, f);
      var rt := FilterBy(tail, key, k);
      assert forall i :: 0 <= i < |tail| ==> f(tail[i]) > f(xs[0]) by {
        forall i | 0 <= i < |tail| ensures f(tail[i]) > f(xs[0]) {
          assert tail[i] == xs[i + 1];
        }
      }
      FilterByAbove(tail, key, k, f, f(xs[0]));
      if key(xs[0]) == k {
        var r := [xs[0]] + rt;
        assert FilterBy(xs, key, k) == r;
        forall i, j | 0 <= i < j < |r| ensures f(r[i]) < f(r[j]) {
          assert r[j] == rt[j - 1];
          if i == 0 {
            assert r[0] == xs[0];
          } else {
            assert r[i] == rt[i - 1];
          }
        }
      } else {
        assert FilterBy(xs, key, k) == rt;
      }
    }
  }

  /** A lower bound on every element's rank survives filtering. */
  lemma {:induction false} FilterByAbove<T, K>(xs: seq<T>, key: T -> K, k: K, f: T -> int, b: int)
    requires forall i :: 0 <= i < |xs| ==> f(xs[i]) > b
    ensures forall i :: 0 <= i < |FilterBy(xs, key, k)| ==> f(FilterBy(xs, key, k)[i]) > b
  {
    if |xs| > 0 {
      var tail := xs[1..];
      assert forall i :: 0 <= i < |tail| ==> f(tail[i]) > b by {
        forall i | 0 <= i < |tail| ensures f(tail[i]) > b {
          assert tail[i] == xs[i + 1];
        }
      }
      FilterByAbove(tail, key, k, f, b);
      var rt := FilterBy(tail, key, k);
      if key(xs[0]) == k {
        var r := [xs[0]] + rt;
        assert FilterBy(xs, key, k) == r;
        forall i | 0 <= i < |r| ensures f(r[i]) > b {
          if i > 0 {
            assert r[i] == rt[i - 1];
          }
        }
      } else {
        assert FilterBy(xs, key, k) == rt;
      }
    }
  }
}

=== FILE: sorting.dfy ===
/** The stable sort the modelled code gets from `Array.prototype.sort` with a
    multi-key comparator. Every comparator in the code compares a fixed list of
    numeric keys in turn (higher collins first, then lower rank, ...), so a
    comparator is modelled as a key function into `seq<real>` ordered
    lexicographically, and the sort as a stable insertion sort on that key. */
module Sorting {
  import opened Seqs

  /** Lexicographic order on key lists (a proper prefix comes first). */
  predicate LexLe(a: seq<real>, b: seq<real>)
    decreases |a|
  {
    |a| == 0 || (|b| > 0 && (a[0] < b[0] || (a[0] == b[0] && LexLe(a[1..], b[1..]))))
  }

  lemma {:induction false} LexLeReflexive(a: seq<real>)
    ensures LexLe(a, a)
  {
    if |a| > 0 {
      LexLeReflexive(a[1..]);
    }
  }

  lemma {:induction false} LexLeTotal(a: seq<real>, b: seq<real>)
    ensures LexLe(a, b) || LexLe(b, a)
    decreases |a|
  {
    if |a| > 0 && |b| > 0 && a[0] == b[0] {
      LexLeTotal(a[1..], b[1..]);
    }
  }

  lemma {:induction false} LexLeTransitive(a: seq<real>, b: seq<real>, c: seq<real>)
    requires LexLe(a, b) && LexLe(b, c)
    ensures LexLe(a, c)
    decreases |a|
  {
    if |a| > 0 && a[0] == b[0] && b[0] == c[0] {
      LexLeTransitive(a[1..], b[1..], c[1..]);
    }
  }

  lemma {:induction false} LexLeAntisymmetric(a: seq<real>, b: seq<real>)
    requires LexLe(a, b) && LexLe(b, a)
    ensures a == b
    decreases |a|
  {
    if |a| > 0 {
      LexLeAntisymmetric(a[1..], b[1..]);
      assert a == [a[0]] + a[1..] && b == [b[0]] + b[1..];
    }
  }

  /** Single-key orders read directly off the key. */
  lemma SingleKeyLe(x: real, y: real)
    ensures LexLe([x], [y]) <==> x <= y
  {
    assert [x][1..] == [];
  }

  ghost predicate SortedBy<T>(xs: seq<T>, key: T -> seq<real>) {
    forall i, j :: 0 <= i < j < |xs| ==> LexLe(key(xs[i]), key(xs[j]))
  }

  /** Inserts `x` before the first element whose key is not smaller than its own,
      so `x` precedes every element it ties with. */
  function Insert<T>(x: T, ys: seq<T>, key: T -> seq<real>): (r: seq<T>)
    ensures |r| == |ys| + 1
  {
    if |ys| == 0 then [x]
    else if LexLe(key(x), key(ys[0])) then [x] + ys
    else [ys[0]] + Insert(x, ys[1..], key)
  }

  lemma {:induction false} InsertMultiset<T>(x: T, ys: seq<T>, key: T -> seq<real>)
    ensures multiset(Insert(x, ys, key)) == multiset(ys) + multiset{x}
  {
    if |ys| > 0 && !LexLe(key(x), key(ys[0])) {
      InsertMultiset(x, ys[1..], key);
      assert ys == [ys[0]] + ys[1..];
    }
  }

  lemma {:induction false} InsertSorted<T>(x: T, ys: seq<T>, key: T -> seq<real>)
    requires SortedBy(ys, key)
    ensures SortedBy(Insert(x, ys, key), key)
  {
    if |ys| == 0 {
    } else if LexLe(key(x), key(ys[0])) {
      var r := [x] + ys;
      forall i, j | 0 <= i < j < |r| ensures LexLe(key(r[i]), key(r[j])) {
        if i == 0 {
          if j > 1 { LexLeTransitive(key(x), key(ys[0]), key(ys[j - 1])); }
        }
      }
    } else {
      var tail := ys[1..];
      assert SortedBy(tail, key) by {
        forall i, j | 0 <= i < j < |tail| ensures LexLe(key(tail[i]), key(tail[j])) {
          assert tail[i] == ys[i + 1] && tail[j] == ys[j + 1];
        }
      }
      InsertSorted(x, tail, key);
      InsertMultiset(x, tail, key);
      var ins := Insert(x, tail, key);
      var r := [ys[0]] + ins;
      LexLeTotal(key(x), key(ys[0]));
      forall i, j | 0 <= i < j < |r| ensures LexLe(key(r[i]), key(r[j])) {
        if i == 0 {
          var z := r[j];
          assert z in multiset(ins);
          assert z in multiset(tail) || z == x;
          if z != x {
            var k :| 0 <= k < |tail| && tail[k] == z;
            assert ys[k + 1] == z;
          }
        }
      }
    }
  }

  /** Stable sort of `xs` by ascending `key`. */
  function SortBy<T>(xs: seq<T>, key: T -> seq<real>): (r: seq<T>)
    ensures |r| == |xs|
  {
    if |xs| == 0 then [] else Insert(xs[0], SortBy(xs[1..], key), key)
  }

  /** The sort yields an ordered permutation of its input. */
  lemma {:induction false} SortByCorrect<T>(xs: seq<T>, key: T -> seq<real>)
    ensures SortedBy(SortBy(xs, key), key)
    ensures multiset(SortBy(xs, key)) == multiset(xs)
  {
    if |xs| > 0 {
      SortByCorrect(xs[1..], key);
      InsertSorted(xs[0], SortBy(xs[1..], key), key);
      InsertMultiset(xs[0], SortBy(xs[1..], key), key);
      assert xs == [xs[0]] + xs[1..];
    }
  }

  lemma {:induction false} InsertStable<T>(x: T, ys: seq<T>, key: T -> seq<real>, k: seq<real>)
    ensures FilterBy(Insert(x, ys, key), key, k) ==
            (if key(x) == k then [x] else []) + FilterBy(ys, key, k)
  {
    if |ys| == 0 {
      FilterByCons(x, [], key, k);
    } else if LexLe(key(x), key(ys[0])) {
      FilterByCons(x, ys, key, k);
    } else {
      InsertStable(x, ys[1..], key, k);
      if key(x) == k {
        LexLeReflexive(k);
        InsertStableSame(x, ys, key, k);
      } else {
        InsertStableOther(x, ys, key, k);
      }
    }
  }

  /** Passing over a head with a strictly smaller key leaves the filtered order
      alone: for the key of `x` itself, the head is not kept ... */
  lemma InsertStableSame<T>(x: T, ys: seq<T>, key: T -> seq<real>, k: seq<real>)
    requires |ys| > 0 && !LexLe(key(x), key(ys[0])) && key(x) == k && key(ys[0]) != k
    requires FilterBy(Insert(x, ys[1..], key), key, k) == [x] + FilterBy(ys[1..], key, k)
    ensures FilterBy(Insert(x, ys, key), key, k) == [x] + FilterBy(ys, key, k)
  {
    var rest := Insert(x, ys[1..], key);
    assert Insert(x, ys, key) == [ys[0]] + rest;
    assert ys == [ys[0]] + ys[1..];
    FilterByCons(ys[0], rest, key, k);
    FilterByCons(ys[0], ys[1..], key, k);
  }

  /** ... and for any other key, `x` itself is not kept. */
  lemma InsertStableOther<T>(x: T, ys: seq<T>, key: T -> seq<real>, k: seq<real>)
    requires |ys| > 0 && !LexLe(key(x), key(ys[0])) && key(x) != k
    requires FilterBy(Insert(x, ys[1..], key), key, k) == FilterBy(ys[1..], key, k)
    ensures FilterBy(Insert(x, ys, key), key, k) == FilterBy(ys, key, k)
  {
    var rest := Insert(x, ys[1..], key);
    assert Insert(x, ys, key) == [ys[0]] + rest;
    assert ys == [ys[0]] + ys[1..];
    FilterByCons(ys[0], rest, key, k);
    FilterByCons(ys[0], ys[1..], key, k);
  }

  /** Stability: elements that tie on the key keep their relative order, which
      is what makes the result agree with the engine's stable `Array.prototype.sort`. */
  lemma {:induction false} SortByStable<T>(xs: seq<T>, key: T -> seq<real>, k: seq<real>)
    ensures FilterBy(SortBy(xs, key), key, k) == FilterBy(xs, key, k)
  {
    if |xs| > 0 {
      SortByStable(xs[1..], key, k);
      InsertStable(xs[0], SortBy(xs[1..], key), key, k);
    }
  }

  /** Keeping the first `n` elements of a sorted sequence keeps the best ones:
      every element left out is ordered after every element kept. */
  lemma TopOfSorted<T>(ys: seq<T>, key: T -> seq<real>, n: nat)
    requires SortedBy(ys, key)
    requires n <= |ys|
    ensures multiset(ys) == multiset(ys[..n]) + multiset(ys[n..])
    ensures forall x, y :: x in ys[n..] && y in ys[..n] ==> LexLe(key(y), key(x))
  {
    assert ys == ys[..n] + ys[n..];
    forall x, y | x in ys[n..] && y in ys[..n] ensures LexLe(key(y), key(x)) {
      var j :| 0 <= j < |ys[n..]| && ys[n..][j] == x;
      var i :| 0 <= i < n && ys[..n][i] == y;
      assert ys[i] == y && ys[n + j] == x;
    }
  }

  /** `xs.sort(cmp).slice(0, cap)` for a non-negative `cap`: the best `cap`
      elements in order, drawn from `xs`, and every element left out ranks
      no better than any element kept. */
  lemma SortTopFacts<T>(xs: seq<T>, key: T -> seq<real>, cap: nat)
    ensures var r := Slice0(SortBy(xs, key), cap);
      |r| == (if |xs| < cap then |xs| else cap) &&
      SortedBy(r, key) &&
      multiset(r) <= multiset(xs) &&
      (forall x :: x in r ==> x in xs) &&
      forall x, y :: x in multiset(xs) - multiset(r) && y in r ==> LexLe(key(y), key(x))
  {
    var ys := SortBy(xs, key);
    SortByCorrect(xs, key);
    var n := SliceLen(|ys|, cap);
    var r := Slice0(ys, cap);
    assert r == ys[..n];
    SortedPrefix(ys, key, n);
    SortTopSplit(ys, key, n);
  }

  /** The prefix of a sorted sequence against the remainder, as multisets. */
  lemma SortTopSplit<T>(ys: seq<T>, key: T -> seq<real>, n: nat)
    requires SortedBy(ys, key) && n <= |ys|
    ensures multiset(ys[..n]) <= multiset(ys)
    ensures forall x :: x in ys[..n] ==> x in ys
    ensures forall x, y :: x in multiset(ys) - multiset(ys[..n]) && y in ys[..n] ==> LexLe(key(y), key(x))
  {
    TopOfSorted(ys, key, n);
    assert multiset(ys) - multiset(ys[..n]) == multiset(ys[n..]);
    forall x | x in ys[..n] ensures x in ys {
      assert x in multiset(ys[..n]);
    }
  }

  lemma SortedPrefix<T>(ys: seq<T>, key: T -> seq<real>, n: nat)
    requires SortedBy(ys, key) && n <= |ys|
    ensures SortedBy(ys[..n], key)
  {
    var r := ys[..n];
    forall i, j | 0 <= i < j < |r| ensures LexLe(key(r[i]), key(r[j])) {
      assert r[i] == ys[i] && r[j] == ys[j];
    }
  }
}

=== FILE: store.dfy ===
/** The extension's IndexedDB database "MyDictionary", as values: the
    `dictionary` object store keyed by `word`, the `metadata` store keyed by
    `key`, and the keys whose read requests fail. */
module DictStore {
  import opened Wrappers
  import opened Entries

  /** A stored record: the entry and the `_tier` tag the downloader adds. */
  datatype Stored = Stored(entry: Entry, tier: Option<string>)

  /** A `metadata` record; `installed` and `version` are absent on the record
      the tier-1 loader writes. */
  datatype Meta = Meta(installed: Option<bool>, count: int, version: Option<string>)

  datatype Db = Db(records: map<string, Stored>, faults: set<string>, metadata: map<string, Meta>)

  /** The outcome of one `get` request. */
  datatype Read<T> = Absent | Present(value: T) | Fault

  function Get(db: Db, key: string): (r: Read<Stored>)
    ensures r.Fault? <==> key in db.faults
    ensures r.Present? <==> key !in db.faults && key in db.records
    ensures r.Present? ==> r.value == db.records[key]
  {
    if key in db.faults then Fault
    else if key in db.records then Present(db.records[key])
    else Absent
  }
}

=== FILE: synonym_export.dfy ===
/** The export step of scripts/export-synonyms.js: synonym rows, read in
    word order, grouped under the lowercased word and trimmed to twenty per
    word. Reading the database and writing the files are outside the
    model. */
module SynonymExport {
  import opened Wrappers
  import opened Seqs
  import opened Text
  import opened OrderedMap
  import opened Grouping

  /** A database row; `pos` and `score` may be null. */
  datatype Row = Row(word: string, synonym: string, pos: Option<string>, score: Option<real>)

  /** An exported synonym. */
  datatype Exported = Exported(word: string, pos: string, score: real)

  const MAX_PER_WORD: nat := 20
  const UNKNOWN_POS: string := "unknown"

  function RowKey(row: Row): string {
    Lower(row.word)
  }

  /** `row.pos || 'unknown'`, `row.score || 1.0`. */
  function ToExported(row: Row): (e: Exported)
    ensures e.word == row.synonym
    ensures e.pos == UNKNOWN_POS <==> row.pos.None? || row.pos.value == "" || row.pos.value == UNKNOWN_POS
    ensures e.pos != ""
    ensures e.score == 1.0 <==> row.score.None? || row.score.value == 0.0 || row.score.value == 1.0
  {
    var pos := if row.pos.Some? && row.pos.value != "" then row.pos.value else UNKNOWN_POS;
    var score := if row.score.Some? && row.score.value != 0.0 then row.score.value else 1.0;
    Exported(row.synonym, pos, score)
  }

  /** The grouped lists before trimming. */
  function Grouped(rows: seq<Row>): OMap<string, seq<Exported>> {
    var g := GroupBy(rows, RowKey);
    seq(|g|, i requires 0 <= i < |g| => (g[i].0, MapSeq(g[i].1, ToExported)))
  }

  /** `wordCount`: one for each row whose word is new so far. */
  function WordCount(rows: seq<Row>): nat {
    if |rows| == 0 then 0
    else
      var init := rows[..|rows| - 1];
      WordCount(init) + (if RowKey(rows[|rows| - 1]) in MapSeq(init, RowKey) then 0 else 1)
  }

  /** The counter counts the distinct lowercased words, which is the number
      of groups. */
  lemma {:induction false} WordCountGroups(rows: seq<Row>)
    ensures WordCount(rows) == |Dedup(MapSeq(rows, RowKey))|
    ensures WordCount(rows) == |Grouped(rows)|
  {
    if |rows| > 0 {
      var init, x := rows[..|rows| - 1], rows[|rows| - 1];
      assert rows == init + [x];
      WordCountGroups(init);
      MapSeqAppend(init, x, RowKey);
      DedupSnoc(MapSeq(init, RowKey), RowKey(x));
    }
    GroupByKeys(rows, RowKey);
  }

  /** A list over the cap keeps its first twenty. */
  function Trim(xs: seq<Exported>): (r: seq<Exported>)
    ensures |r| <= MAX_PER_WORD
    ensures |xs| <= MAX_PER_WORD ==> r == xs
    ensures |xs| > MAX_PER_WORD ==> |r| == MAX_PER_WORD
    ensures r == xs[..|r|]
  {
    if |xs| > MAX_PER_WORD then xs[..MAX_PER_WORD] else xs
  }

  function Excess(xs: seq<Exported>): nat {
    if |xs| > MAX_PER_WORD then |xs| - MAX_PER_WORD else 0
  }

  /** The written object: every group trimmed. */
  function Export(rows: seq<Row>): OMap<string, seq<Exported>> {
    var g := Grouped(rows);
    seq(|g|, i requires 0 <= i < |g| => (g[i].0, Trim(g[i].1)))
  }

  /** `trimmedCount`: the excess over the cap summed over the words. */
  function TrimmedCount(g: OMap<string, seq<Exported>>): nat {
    if |g| == 0 then 0 else Excess(g[0].1) + TrimmedCount(g[1..])
  }

  /** The export has one key per distinct lowercased word, in order of
      first appearance. */
  lemma ExportKeys(rows: seq<Row>)
    ensures Keys(Export(rows)) == Dedup(MapSeq(rows, RowKey))
  {
    GroupByKeys(rows, RowKey);
  }

  /** Under each key: the first twenty rows of that word (any case), in
      input order, as exported synonyms; nothing under other keys. */
  lemma ExportGet(rows: seq<Row>, k: string)
    ensures Get(Export(rows), k) ==
      if k in MapSeq(rows, RowKey) then Some(Trim(MapSeq(FilterBy(rows, RowKey, k), ToExported))) else None
  {
    var g := GroupBy(rows, RowKey);
    GroupByGet(rows, RowKey, k);
    GetSame(g, Export(rows), k);
  }

  /** Two ordered maps with the same keys in the same order find `k` at the
      same position. */
  lemma {:induction false} GetSame(g: OMap<string, seq<Row>>, e: OMap<string, seq<Exported>>, k: string)
    requires |g| == |e|
    requires forall i :: 0 <= i < |g| ==> e[i] == (g[i].0, Trim(MapSeq(g[i].1, ToExported)))
    ensures Get(e, k) == match Get(g, k) case Some(v) => Some(Trim(MapSeq(v, ToExported))) case None => None
  {
    if |g| > 0 && g[0].0 != k {
      GetSame(g[1..], e[1..], k);
    }
  }

  /** Trimming drops exactly the excess: what is kept plus what is trimmed
      is every row. */
  lemma ExportCount(rows: seq<Row>)
    ensures SumLens(Values(Export(rows))) + TrimmedCount(Grouped(rows)) == |rows|
  {
    var g := GroupBy(rows, RowKey);
    GroupByCount(rows, RowKey);
    TrimSplit(g, Grouped(rows), Export(rows));
  }

  lemma {:induction false} TrimSplit(g: OMap<string, seq<Row>>, m: OMap<string, seq<Exported>>, e: OMap<string, seq<Exported>>)
    requires |g| == |m| == |e|
    requires forall i :: 0 <= i < |g| ==> m[i] == (g[i].0, MapSeq(g[i].1, ToExported))
    requires forall i :: 0 <= i < |m| ==> e[i] == (m[i].0, Trim(m[i].1))
    ensures SumLens(Values(e)) + TrimmedCount(m) == SumLens(Values(g))
  {
    if |g| > 0 {
      TrimSplit(g[1..], m[1..], e[1..]);
      ValuesHead(g);
      ValuesHead(e);
    }
  }
}

=== FILE: synonyms.dfy ===
/** The synonym lookup (src/lib/synonyms-manager.js): the word-to-synonyms
    object kept in memory and under the `data` key of its object store.
    Fetching and unpacking the file is outside the model. */
module Synonyms {
  import opened Wrappers
  import opened Seqs
  import opened Text

  /** One stored synonym; the score is the exported two-decimal text. */
  datatype Synonym = Synonym(word: string, pos: string, score: string)

  /** The parsed synonyms file: lowercase word to its synonyms. */
  type SynData = map<string, seq<Synonym>>

  /** A query result. */
  datatype Found = Found(word: string, pos: string, score: string, confidence: string)

  /** `synonymsData` and `isInitialized` in memory, and the value stored
      under the `data` key. */
  datatype State = State(data: Option<SynData>, initialized: bool, stored: Option<SynData>)

  const NOT_LOADED: string := "Synonyms data not loaded. Please download first."
  const DEFAULT_LIMIT: int := 8
  const CONFIDENCE: string := "100%"

  /** The flag is set exactly when data is in memory, as every operation
      below keeps it. */
  predicate Consistent(s: State) {
    s.initialized <==> s.data.Some?
  }

  /** `isDataDownloaded()`: a stored object with at least one key. */
  predicate IsDataDownloaded(s: State) {
    s.stored.Some? && |s.stored.value| > 0
  }

  /** `initialize()`: nothing to do once data is in memory; otherwise load
      the stored object, if any. The flag says whether data is loaded. */
  function Initialize(s: State): (r: (State, bool))
    ensures r.1 ==> r.0.data.Some?
    ensures r.0.stored == s.stored
    ensures r.1 <==> (s.initialized && s.data.Some?) || s.stored.Some?
    ensures Consistent(s) ==> Consistent(r.0)
    ensures s.initialized && s.data.Some? ==> r.0 == s
    ensures !(s.initialized && s.data.Some?) && s.stored.Some? ==>
      r.0.data == s.stored && r.0.initialized
    ensures !r.1 ==> r.0 == s
  {
    if s.initialized && s.data.Some? then (s, true)
    else if s.stored.Some? then (s.(data := s.stored, initialized := true), true)
    else (s, false)
  }

  /** `querySynonyms(word, limit)`: lowercases the word and returns the first
      `limit` stored synonyms, each marked fully confident. */
  function QuerySynonyms(s: State, word: string, limit: int): (r: (State, Result<seq<Found>, string>))
    ensures r.1.Err? <==> s.data.None? && s.stored.None?
    ensures r.1.Err? ==> r.1.error == NOT_LOADED
    ensures Consistent(s) ==> Consistent(r.0)
  {
    var s' := if s.data.None? then Initialize(s).0 else s;
    if s'.data.None? then (s', Err(NOT_LOADED))
    else
      var key := Lower(word);
      var syns := if key in s'.data.value then s'.data.value[key] else [];
      if |syns| == 0 then (s', Ok([]))
      else (s', Ok(MapSeq(Slice0(syns, limit), Mark)))
  }

  function Mark(syn: Synonym): Found {
    Found(syn.word, syn.pos, syn.score, CONFIDENCE)
  }

  /** The synonyms the loaded data holds for `word`, compared lowercase. */
  function Listed(d: SynData, word: string): seq<Synonym> {
    if Lower(word) in d then d[Lower(word)] else []
  }

  /** Once data is loaded, a query answers with a prefix of the word's
      stored list, as long as `limit` allows (all of it when `limit` is
      larger), each entry copied and marked fully confident. */
  lemma QueryResult(s: State, word: string, limit: int)
    requires s.data.Some? || s.stored.Some?
    ensures var d := if s.data.Some? then s.data.value else s.stored.value;
      var r := QuerySynonyms(s, word, limit).1.value;
      var n := |Listed(d, word)|;
      (limit >= 0 ==> |r| == if limit < n then limit else n) &&
      (forall i :: 0 <= i < |r| ==> r[i] == Found(Listed(d, word)[i].word, Listed(d, word)[i].pos,
                                                Listed(d, word)[i].score, CONFIDENCE))
  {
  }

  /** `querySynonyms(word)` returns the first eight listed synonyms, or all
      of them when fewer are listed. */
  lemma QueryDefault(s: State, word: string)
    requires s.data.Some? || s.stored.Some?
    ensures var d := if s.data.Some? then s.data.value else s.stored.value;
      var r := QuerySynonyms(s, word, DEFAULT_LIMIT).1.value;
      |r| == if |Listed(d, word)| < 8 then |Listed(d, word)| else 8
  {
    QueryResult(s, word, DEFAULT_LIMIT);
  }

  /** The word's case does not matter. */
  lemma QueryIgnoresCase(s: State, word: string, limit: int)
    ensures QuerySynonyms(s, word, limit) == QuerySynonyms(s, Lower(word), limit)
  {
    LowerIdempotent(word);
  }

  /** An unlisted word, or one listed with no synonyms, finds nothing. */
  lemma QueryUnlisted(s: State, word: string, limit: int)
    requires s.data.Some? && (Lower(word) !in s.data.value || s.data.value[Lower(word)] == [])
    ensures QuerySynonyms(s, word, limit) == (s, Ok([]))
  {
  }

  /** `saveSynonyms(data)`: stores the object and keeps it in memory. */
  function SaveSynonyms(s: State, d: SynData): (r: State)
    ensures r.data == Some(d) && r.initialized && r.stored == Some(d)
    ensures Consistent(r)
  {
    State(Some(d), true, Some(d))
  }

  /** `clearData()`: deletes the stored object and forgets it in memory. */
  function ClearData(s: State): (r: State)
    ensures r.data.None? && !r.initialized && r.stored.None?
    ensures Consistent(r)
  {
    State(None, false, None)
  }

  /** After saving, queries answer from the saved object and it counts as
      downloaded exactly when it has a word. */
  lemma SaveThenQuery(s: State, d: SynData, word: string, limit: int)
    ensures var r := QuerySynonyms(SaveSynonyms(s, d), word, limit);
      r.0 == SaveSynonyms(s, d) && r.1.Ok? &&
      (|Listed(d, word)| > 0 ==> r.1.value == MapSeq(Slice0(Listed(d, word), limit), Mark))
    ensures IsDataDownloaded(SaveSynonyms(s, d)) <==> |d| > 0
  {
  }

  /** After clearing, nothing counts as downloaded and every query throws. */
  lemma ClearThenQuery(s: State, word: string, limit: int)
    ensures !IsDataDownloaded(ClearData(s))
    ensures QuerySynonyms(ClearData(s), word, limit).1 == Err(NOT_LOADED)
  {
  }
}

=== FILE: text.dfy ===
/** Character and string helpers common to the JavaScript and Python code:
    ASCII case mapping, prefix/suffix/substring tests, joining and splitting on
    a single separator character. */
module Text {
  import opened Seqs

  function LowerChar(c: char): char {
    if 'A' <= c <= 'Z' then (c as int + 32) as char else c
  }

  function UpperChar(c: char): char {
    if 'a' <= c <= 'z' then (c as int - 32) as char else c
  }

  /** `s.toLowerCase()` / `s.lower()` on ASCII letters; other characters are kept. */
  function Lower(s: string): (r: string)
    ensures |r| == |s|
    ensures forall i :: 0 <= i < |s| ==> r[i] == LowerChar(s[i])
  {
    seq(|s|, i requires 0 <= i < |s| => LowerChar(s[i]))
  }

  function Upper(s: string): (r: string)
    ensures |r| == |s|
    ensures forall i :: 0 <= i < |s| ==> r[i] == UpperChar(s[i])
  {
    seq(|s|, i requires 0 <= i < |s| => UpperChar(s[i]))
  }

  lemma LowerIdempotent(s: string)
    ensures Lower(Lower(s)) == Lower(s)
  {
  }

  /** A piece of lowercased text is already lowercase. */
  lemma LowerSliceFixed(s: string, lo: nat, hi: nat)
    requires lo <= hi <= |s|
    ensures Lower(Lower(s)[lo..hi]) == Lower(s)[lo..hi]
  {
    var t := Lower(s)[lo..hi];
    forall i | 0 <= i < |t| ensures LowerChar(t[i]) == t[i] {
      assert t[i] == LowerChar(s[lo + i]);
    }
  }

  predicate StartsWith(s: string, p: string) {
    |p| <= |s| && s[..|p|] == p
  }

  predicate EndsWith(s: string, p: string) {
    |p| <= |s| && s[|s| - |p|..] == p
  }

  /** `sub` occurs in `s` starting at index `i`. */
  predicate OccursAt(s: string, sub: string, i: int) {
    0 <= i <= |s| - |sub| && s[i..i + |sub|] == sub
  }

  /** `s.includes(sub)` / `sub in s`: `sub` occurs somewhere in `s`. */
  predicate Contains(s: string, sub: string) {
    exists i | 0 <= i <= |s| - |sub| :: OccursAt(s, sub, i)
  }

  lemma ContainsEmpty(s: string)
    ensures Contains(s, "")
  {
    assert OccursAt(s, "", 0);
  }

  /** A substring of a prefix-extended or suffix-extended string is still a substring. */
  lemma ContainsWithin(s: string, i: nat, j: nat, sub: string)
    requires i <= j <= |s|
    requires Contains(s[i..j], sub)
    ensures Contains(s, sub)
  {
    var t := s[i..j];
    var k :| 0 <= k <= |t| - |sub| && OccursAt(t, sub, k);
    forall m | 0 <= m < |sub| ensures s[i + k + m] == sub[m] {
      assert t[k + m] == s[i + k + m];
      assert t[k..k + |sub|][m] == sub[m];
    }
    assert s[i + k..i + k + |sub|] == sub;
    assert OccursAt(s, sub, i + k);
  }

  /** No character of `t` belongs to the class `sp`. */
  predicate NoneIn(t: string, sp: char -> bool) {
    forall i :: 0 <= i < |t| ==> !sp(t[i])
  }

  /** Every character of `t` belongs to the class `sp`. */
  predicate AllIn(t: string, sp: char -> bool) {
    forall i :: 0 <= i < |t| ==> sp(t[i])
  }

  // Scanning works on indices into one fixed string, so that proofs about
  // runs never have to relate slices of slices.

  /** The end of the run starting at `i` of characters whose membership in
      `sp` is `inside`: the first later index where membership differs, or
      the end of the text. */
  function RunEnd(s: string, sp: char -> bool, i: nat, inside: bool): (j: nat)
    requires i <= |s|
    ensures i <= j <= |s|
    ensures forall k | i <= k < j :: sp(s[k]) == inside
    ensures j < |s| ==> sp(s[j]) != inside
    decreases |s| - i
  {
    if i == |s| || sp(s[i]) != inside then i else RunEnd(s, sp, i + 1, inside)
  }

  /** The start of the run of `sp` characters that ends just before `j`. */
  function RunStart(s: string, sp: char -> bool, j: nat): (i: nat)
    requires j <= |s|
    ensures i <= j
    ensures forall k | i <= k < j :: sp(s[k])
    ensures i > 0 ==> !sp(s[i - 1])
  {
    if j == 0 || !sp(s[j - 1]) then j else RunStart(s, sp, j - 1)
  }

  /** Where trimming starts: after the leading run of class `sp`. */
  function TrimLo(s: string, sp: char -> bool): nat {
    RunEnd(s, sp, 0, true)
  }

  /** Where trimming stops: before the trailing run, or at `TrimLo` when the
      text is all blank. */
  function TrimHi(s: string, sp: char -> bool): (hi: nat)
    ensures TrimLo(s, sp) <= hi <= |s|
    ensures TrimLo(s, sp) < hi ==> !sp(s[hi - 1])
  {
    var lo := TrimLo(s, sp);
    if lo == |s| then lo else RunStart(s, sp, |s|)
  }

  /** `s.trim()` / `s.strip()` for the whitespace class `sp`: the text between
      the leading and the trailing blank run. It is empty exactly when `s`
      is all blank, and otherwise begins and ends with a non-blank. */
  function TrimBy(s: string, sp: char -> bool): (r: string)
    ensures |r| > 0 ==> !sp(r[0]) && !sp(r[|r| - 1])
    ensures r == "" <==> AllIn(s, sp)
  {
    s[TrimLo(s, sp)..TrimHi(s, sp)]
  }

  /** Trimming keeps a contiguous piece of the text. */
  lemma TrimByWithin(s: string, sp: char -> bool)
    ensures Contains(s, TrimBy(s, sp))
  {
    assert OccursAt(s, TrimBy(s, sp), TrimLo(s, sp));
  }

  /** Trimming leaves text with non-blank ends alone, so it is idempotent. */
  lemma TrimByFixed(s: string, sp: char -> bool)
    requires |s| > 0 ==> !sp(s[0]) && !sp(s[|s| - 1])
    ensures TrimBy(s, sp) == s
  {
    assert TrimLo(s, sp) == 0;
    assert TrimHi(s, sp) == |s|;
  }

  lemma TrimByIdempotent(s: string, sp: char -> bool)
    ensures TrimBy(TrimBy(s, sp), sp) == TrimBy(s, sp)
  {
    TrimByFixed(TrimBy(s, sp), sp);
  }

  /** Trimming keeps a prefix whose first and last characters are not blank. */
  lemma TrimKeepsPrefix(x: string, p: string, sp: char -> bool)
    requires StartsWith(x, p) && |p| > 0
    requires !sp(p[0]) && !sp(p[|p| - 1])
    ensures StartsWith(TrimBy(x, sp), p)
  {
    assert x[0] == p[0] && x[|p| - 1] == p[|p| - 1];
    assert TrimLo(x, sp) == 0;
    assert TrimHi(x, sp) >= |p|;
  }

  /** Number of maximal runs of characters outside class `sp` (the words)
      from index `i` on. */
  function RunsFrom(s: string, sp: char -> bool, i: nat): nat
    requires i <= |s|
    decreases |s| - i
  {
    if i == |s| then 0
    else if sp(s[i]) then RunsFrom(s, sp, i + 1)
    else 1 + RunsFrom(s, sp, RunEnd(s, sp, i, false))
  }

  function NumRuns(s: string, sp: char -> bool): nat {
    RunsFrom(s, sp, 0)
  }

  /** `RunEnd` is the first index where membership changes. */
  lemma {:induction false} RunEndIs(s: string, sp: char -> bool, i: nat, j: nat, inside: bool)
    requires i <= j <= |s|
    requires forall k | i <= k < j :: sp(s[k]) == inside
    requires j == |s| || sp(s[j]) != inside
    ensures RunEnd(s, sp, i, inside) == j
    decreases j - i
  {
    if i < j {
      RunEndIs(s, sp, i + 1, j, inside);
    }
  }

  /** A run of blanks adds no word. */
  lemma {:induction false} RunsSkip(s: string, sp: char -> bool, i: nat, j: nat)
    requires i <= j <= |s|
    requires forall k | i <= k < j :: sp(s[k])
    ensures RunsFrom(s, sp, i) == RunsFrom(s, sp, j)
    decreases j - i
  {
    if i < j {
      RunsSkip(s, sp, i + 1, j);
    }
  }

  /** A non-empty string without blanks is a single word. */
  lemma NumRunsOneWord(s: string, sp: char -> bool)
    requires |s| > 0 && NoneIn(s, sp)
    ensures NumRuns(s, sp) == 1
  {
    assert !sp(s[0]);
    assert RunEnd(s, sp, 0, false) == |s|;
    assert RunsFrom(s, sp, |s|) == 0;
  }

  /** `s.repeat(n)`. */
  function Repeat(s: string, n: nat): (r: string)
    ensures |r| == |s| * n
    ensures |s| == 1 ==> forall i :: 0 <= i < |r| ==> r[i] == s[0]
  {
    if n == 0 then "" else s + Repeat(s, n - 1)
  }

  /** `xs.join(sep)`. */
  function Join(xs: seq<string>, sep: string): string
  {
    if |xs| == 0 then ""
    else if |xs| == 1 then xs[0]
    else xs[0] + sep + Join(xs[1..], sep)
  }

  lemma JoinCons(x: string, t: seq<string>, sep: string)
    requires |t| > 0
    ensures Join([x] + t, sep) == x + sep + Join(t, sep)
  {
    assert ([x] + t)[1..] == t;
  }

  /** `s.replace(/suf$/, rep)`: rewrites the suffix only when it ends the string. */
  function ReplaceSuffix(s: string, suf: string, rep: string): (r: string)
    ensures EndsWith(s, suf) ==> r == s[..|s| - |suf|] + rep
    ensures !EndsWith(s, suf) ==> r == s
  {
    if EndsWith(s, suf) then s[..|s| - |suf|] + rep else s
  }

  /** JavaScript's `s.split(c)` for a one-character separator: always at least one
      field, and empty fields are kept. */
  function SplitOn(s: string, c: char): (r: seq<string>)
    ensures |r| >= 1
    ensures forall k :: 0 <= k < |r| ==> c !in r[k]
    ensures Join(r, [c]) == s
    decreases |s|
  {
    var i := FirstIndex(s, c);
    if i == |s| then [s]
    else
      var rest := SplitOn(s[i + 1..], c);
      assert s == s[..i] + [c] + s[i + 1..];
      [s[..i]] + rest
  }

  /** The first field runs up to the first separator. */
  lemma SplitOnFirst(s: string, c: char)
    ensures SplitOn(s, c)[0] == s[..FirstIndex(s, c)]
  {
  }

  /** Text lacking one of a pattern's characters does not contain it. */
  lemma MissingCharNotContained(s: string, sub: string, k: nat)
    requires k < |sub| && sub[k] !in s
    ensures !Contains(s, sub)
  {
  }

  /** A character absent from the text is absent from every field. */
  lemma {:induction false} SplitOnKeeps(s: string, c: char, d: char)
    requires d !in s
    ensures forall k :: 0 <= k < |SplitOn(s, c)| ==> d !in SplitOn(s, c)[k]
    decreases |s|
  {
    var i := FirstIndex(s, c);
    if i < |s| {
      assert s == s[..i] + [s[i]] + s[i + 1..];
      SplitOnKeeps(s[i + 1..], c, d);
    }
  }

  /** Splitting undoes joining, provided no field contains the separator. */
  lemma {:induction false} SplitOnJoin(ts: seq<string>, c: char)
    requires |ts| >= 1
    requires forall k :: 0 <= k < |ts| ==> c !in ts[k]
    ensures SplitOn(Join(ts, [c]), c) == ts
  {
    var s := Join(ts, [c]);
    if |ts| == 1 {
      assert FirstIndex(s, c) == |s|;
    } else {
      var tail := Join(ts[1..], [c]);
      assert s == ts[0] + [c] + tail;
      assert FirstIndex(s, c) == |ts[0]| by {
        assert s[|ts[0]|] == c;
        forall j | 0 <= j < |ts[0]| ensures s[j] != c {
          assert s[j] == ts[0][j];
        }
      }
      assert s[|ts[0]| + 1..] == tail;
      assert s[..|ts[0]|] == ts[0];
      SplitOnJoin(ts[1..], c);
    }
  }
}

=== FILE: tiers.dfy ===
/** Splitting the cleaned ECDICT entries into three tiers (the top-level code
    of scripts/process-ecdict.js after `cleanEntry`): a ranked, capped tier of
    common words, a ranked, capped tier of extended vocabulary, and everything
    else that has a translation. */
module Tiers {
  import opened Seqs
  import opened Sorting
  import opened Entries

  const TIER1_CAP: nat := 8000
  const TIER2_CAP: nat := 50000

  /** The tier-1 filter as written: a chain of early returns over quality
      signals, after requiring a Chinese translation. */
  predicate Tier1Candidate(e: Entry) {
    if e.translation == "" then false
    else if e.collins >= 4 then true
    else if HasTag(e, "cet4") then true
    else if e.oxford then true
    else if e.collins == 3 then true
    else if HasTag(e, "gk") then true
    else if e.bnc > 0 && e.bnc < 2000 then true
    else if HasTag(e, "cet6") then true
    else false
  }

  /** The same filter read as a union: a translated entry with three or more
      Collins stars, a CET-4, Oxford, gaokao or CET-6 mark, or a BNC rank
      below 2000. */
  lemma Tier1CandidateSignals(e: Entry)
    ensures Tier1Candidate(e) <==>
      e.translation != "" &&
      (e.collins >= 3 || e.oxford || 0 < e.bnc < 2000 ||
       exists t :: t in ["cet4", "gk", "cet6"] && HasTag(e, t))
  {
    if HasTag(e, "cet4") { assert "cet4" in ["cet4", "gk", "cet6"]; }
    if HasTag(e, "gk") { assert "gk" in ["cet4", "gk", "cet6"]; }
    if HasTag(e, "cet6") { assert "cet6" in ["cet4", "gk", "cet6"]; }
  }

  /** `a.bnc || 99999`: an unranked entry (rank 0) counts as very rare. */
  function RankOrLast(bnc: int): (r: int)
    ensures bnc != 0 ==> r == bnc
    ensures bnc == 0 ==> r > 2000
  {
    if bnc == 0 then 99999 else bnc
  }

  function Flag(b: bool): real {
    if b then 1.0 else 0.0
  }

  /** The tier-1 comparator as ascending keys: more Collins stars first, then
      lower BNC rank (unranked last), then CET-4, then Oxford. */
  function Tier1Key(e: Entry): seq<real> {
    [-(e.collins as real), RankOrLast(e.bnc) as real, -Flag(HasTag(e, "cet4")), -Flag(e.oxford)]
  }

  /** The tier-2 comparator: more Collins stars first, then the raw BNC rank,
      so an unranked entry (0) comes before every ranked one. */
  function Tier2Key(e: Entry): seq<real> {
    [-(e.collins as real), e.bnc as real]
  }

  /** The exam and test marks that qualify an entry for tier 2. */
  const TIER2_TAGS: seq<string> := ["cet6", "ielts", "toefl", "gre", "sat"]

  function Words(xs: seq<Entry>): set<string> {
    set e | e in xs :: e.word
  }

  /** The tier-2 filter: not a tier-1 word, translated, and an exam mark,
      three or more Collins stars, or a BNC rank below 10000. */
  predicate Tier2Candidate(tier1Words: set<string>, e: Entry) {
    if e.word in tier1Words then false
    else if e.translation == "" then false
    else if exists i :: 0 <= i < |e.tags| && e.tags[i] in TIER2_TAGS then true
    else if e.collins >= 3 then true
    else if e.bnc > 0 && e.bnc < 10000 then true
    else false
  }

  predicate Tier3Candidate(tier1Words: set<string>, tier2Words: set<string>, e: Entry) {
    e.word !in tier1Words && e.word !in tier2Words && e.translation != ""
  }

  function Tier1(all: seq<Entry>): seq<Entry> {
    Slice0(SortBy(Filter(all, Tier1Candidate), Tier1Key), TIER1_CAP)
  }

  function Tier2(all: seq<Entry>, tier1: seq<Entry>): seq<Entry> {
    var w1 := Words(tier1);
    Slice0(SortBy(Filter(all, e => Tier2Candidate(w1, e)), Tier2Key), TIER2_CAP)
  }

  function Tier3(all: seq<Entry>, tier1: seq<Entry>, tier2: seq<Entry>): seq<Entry> {
    var w1 := Words(tier1);
    var w2 := Words(tier2);
    Filter(all, e => Tier3Candidate(w1, w2, e))
  }

  datatype Partition = Partition(tier1: seq<Entry>, tier2: seq<Entry>, tier3: seq<Entry>)

  /** The three tiers, each computed from the ones before it. */
  function Split(all: seq<Entry>): (p: Partition)
    ensures |p.tier1| <= TIER1_CAP && |p.tier2| <= TIER2_CAP && |p.tier3| <= |all|
  {
    var t1 := Tier1(all);
    var t2 := Tier2(all, t1);
    Partition(t1, t2, Tier3(all, t1, t2))
  }

  /** Tier 1 holds the best-ranked candidates, as many as there are up to
      the cap: it is ordered by its key, draws only candidates from the
      input, and every candidate left out ranks no better than any kept. */
  lemma Tier1Ranked(all: seq<Entry>)
    ensures var c := Filter(all, Tier1Candidate); var t1 := Split(all).tier1;
      |t1| == (if |c| < TIER1_CAP then |c| else TIER1_CAP) &&
      SortedBy(t1, Tier1Key) &&
      (forall e :: e in t1 ==> e in all && Tier1Candidate(e)) &&
      multiset(t1) <= multiset(c) &&
      forall x, y :: x in multiset(c) - multiset(t1) && y in t1 ==> LexLe(Tier1Key(y), Tier1Key(x))
  {
    var c := Filter(all, Tier1Candidate);
    SortTopFacts(c, Tier1Key, TIER1_CAP);
    FilterByMembers(all, Tier1Candidate, true);
  }

  /** Tier 2 likewise, for its own filter and key. */
  lemma Tier2Ranked(all: seq<Entry>)
    ensures var p := Split(all); var w1 := Words(p.tier1);
      var c := Filter(all, e => Tier2Candidate(w1, e));
      |p.tier2| == (if |c| < TIER2_CAP then |c| else TIER2_CAP) &&
      SortedBy(p.tier2, Tier2Key) &&
      (forall e :: e in p.tier2 ==> e in all && Tier2Candidate(w1, e)) &&
      multiset(p.tier2) <= multiset(c) &&
      forall x, y :: x in multiset(c) - multiset(p.tier2) && y in p.tier2 ==> LexLe(Tier2Key(y), Tier2Key(x))
  {
    var p := Split(all);
    var w1 := Words(p.tier1);
    var f := e => Tier2Candidate(w1, e);
    var c := Filter(all, f);
    SortTopFacts(c, Tier2Key, TIER2_CAP);
    FilterByMembers(all, f, true);
  }

  /** No word is in two tiers, and every translated entry's word is in one. */
  lemma SplitPartitions(all: seq<Entry>)
    ensures var p := Split(all);
      Words(p.tier1) !! Words(p.tier2) &&
      Words(p.tier1) !! Words(p.tier3) &&
      Words(p.tier2) !! Words(p.tier3)
    ensures var p := Split(all);
      forall e :: e in all && e.translation != "" ==>
        e.word in Words(p.tier1) + Words(p.tier2) + Words(p.tier3)
  {
    var p := Split(all);
    var w1 := Words(p.tier1);
    var w2 := Words(p.tier2);
    var f2 := e => Tier2Candidate(w1, e);
    var f3 := e => Tier3Candidate(w1, w2, e);
    SortTopFacts(Filter(all, f2), Tier2Key, TIER2_CAP);
    FilterByMembers(all, f2, true);
    FilterByMembers(all, f3, true);
    forall e | e in all && e.translation != "" && e.word !in w1 && e.word !in w2
      ensures e.word in Words(p.tier3)
    {
      assert e in p.tier3;
    }
  }

  /** Tier 3 is exactly the translated entries outside the first two tiers,
      in input order. */
  lemma Tier3Members(all: seq<Entry>)
    ensures var p := Split(all);
      forall e :: e in p.tier3 <==>
        e in all && e.translation != "" && e.word !in Words(p.tier1) && e.word !in Words(p.tier2)
  {
    var p := Split(all);
    FilterByMembers(all, e => Tier3Candidate(Words(p.tier1), Words(p.tier2), e), true);
  }
}

=== FILE: wrappers.dfy ===
/** Optional values and success/failure results, used wherever the modelled
    code returns null/undefined or throws. */
module Wrappers {

  datatype Option<+T> = None | Some(value: T) {
    /** The value, or `default` when there is none (JavaScript's `x || d` on an optional). */
    function GetOr(default: T): T {
      match this
      case Some(v) => v
      case None => default
    }
  }

  /** A computation that either yields a value or fails with an error (a thrown
      exception or a rejected promise in the modelled code). */
  datatype Result<+T, +E> = Ok(value: T) | Err(error: E) {
    predicate IsFailure() {
      Err?
    }

    function PropagateFailure<U>(): Result<U, E>
      requires Err?
    {
      Err(error)
    }

    function Extract(): T
      requires Ok?
    {
      value
    }
  }
}
